=== FILE: README.md ===
# PACE-VIEW core, modelled in Dafny

PACE-VIEW turns cycling activities recorded as TCX files into explanations of a ride.
It covers wind, terrain and heat, HR zones, training load and efficiency. This project
models its deterministic core as pure functions over immutable data and proves what that
core promises. Each module follows one part of the Python package.

- `Ingest` (`pace_view/data_parsing.py`, `pace_view/core.py`): field-alias lookup, the
  neutral-weather fallback, and the per-sample frame, cut to a common length with speeds
  converted to m/s. Also the directory scan and its `read_limit`.
- `Physics` (`pace_view/physics.py`): `PhysicsEngine`, covering bearing, back-fill,
  headwind, the 10-sample elevation mean, the clipped grade and the virtual power.
- `Twin` (`pace_view/learning.py`): `DigitalTwinModel`, covering the trained/untrained
  state, training preprocessing with stride-30 downsampling, drift and the counterfactual
  environment penalty.
- `Mining` (`pace_view/mining.py`): right-closed discretisation and the "Struggling"
  consequent filter of `discover_rules`.
- `Rationale` and `Trainer` (`pace_view/core.py`): `_process_file`, `fit`,
  `mine_patterns`, the three rationale rules of `explain` and `_generate_conclusion`.
- `Summaries` (`pace_view/data_cleaning.py`): timeline normalisation, HRR zones, time in
  zones, TRIMP, per-activity summaries, `build_dashboard` and `hr_zones_summary`.
  `pace_view/ast_tcx_reader.py` repeats the same code, and the same members model it:
  - timeframes: lines 64-86;
  - summary: 88-110;
  - summaries: 113-123;
  - HRR intensity and zones: 125-136;
  - TRIMP: 138-149;
  - dashboard: 155-170;
  - `hr_zones_summary`: 290-304.
- `Config` (`pace_view/config.py`): the `.env` fallback loader and the API-key lookup.
- `Explanations` and `Interaction` (`examples/full_dashboard.py`,
  `examples/activity_detail_page_example.py`): zone percentages, explanation texts,
  rationale cards, click payloads, the report cache and the example-file choice.
  `zone_percentages`, `format_rationale_item` and `get_context_activity_report` are
  identical in both files, so one definition models both. The dashboard copies are at
  `examples/full_dashboard.py:37-49,217-247,200-214`. The detail-page copies are at
  `examples/activity_detail_page_example.py:48-57,126-156,109-123`.
- `Wrappers`, `Seqs`, `Text` and `Sorting` are shared vocabulary:
  - `Option` and `Result` types, with Python exceptions as `Error` values;
  - sequence operations modelled on pandas: `shift`, `diff`, `bfill`, `rolling`,
    `iloc[::30]` and `clip`;
  - string operations modelled on Python: `strip`, `split(sep, 1)`, `upper`, `title`,
    `in` and `join`;
  - a stable sort by key with `drop_duplicates`.

A missing or NaN cell is `None`. Some library behaviour enters as a function parameter:
- trigonometry: `Physics.Trig`, whose result types state |sin|, |cos| ≤ 1 and
  cos(atan g) > 0;
- `exp`;
- the fitted regressor;
- the rule search;
- file reading;
- the weather service;
- number formatting: `Rationale.Formatter`.

Where the code and its comments or UI text disagree, the model follows the code:
- The headwind label starts strictly above 1 m/s (`pace_view/mining.py:17-19`).
- Rows with |drift| > 100 are dropped (`pace_view/mining.py:27-34`).
- Zone 1 covers a heart-rate reserve of up to 0.6. The dashboard legend says "Z1 <=50%"
  (`pace_view/data_cleaning.py:130-134` against `examples/full_dashboard.py:669-673`).
- A zero-distance step with an elevation change gives a grade of ±0.25, not 0
  (`pace_view/physics.py:32-33`).
- `mine_patterns` returns None on every path. `Trainer.MinePatterns` therefore models what
  it prints, not a return value (`pace_view/core.py:109-129`).

## Model

| member | source | states |
|---|---|---|
| Config.Unquote | pace_view/config.py:31-32 | a value wrapped in one matching pair of `"` or `'` loses exactly that first and last character; any other value is kept |
| Config.UnquoteRoundTrip | pace_view/config.py:31-32 | quoting any value with either quote character and loading it back gives the value |
| Config.ParseEnvLine | pace_view/config.py:16-32 | blank, comment and key-less lines assign nothing; an assignment always has a non-empty key |
| Config.ParseEnvLineSplitsOnFirstEquals | pace_view/config.py:20-32 | after stripping and removing "export ", a line `before=after` with no `=` in `before` assigns stripped `before` to the unquoted stripped `after`, so later `=` stay in the value; an empty key assigns nothing |
| Config.ParseEnvLineNeedsEquals | pace_view/config.py:22-23 | a cleaned line without `=` assigns nothing |
| Config.SetDefaultLine | pace_view/config.py:34 | `setdefault` never changes or removes a variable that is already set |
| Config.ApplyLines | pace_view/config.py:16-34 | applying a file's lines never overwrites an existing variable |
| Config.FirstLineWins | pace_view/config.py:16-34 | from an environment without `key`, the loader defines `key` iff some line assigns it, and then with the value of the FIRST such line |
| Config.LoadEnvFallback | pace_view/config.py:11-34 | a missing file leaves the environment as it was; existing variables keep their values; every new variable holds its first assignment in the file, and every assigned key ends up defined |
| Config.GetWeatherApiKey | pace_view/config.py:50-54 | a non-empty variable already set is returned; a variable already set to "" stays empty (setdefault keeps it) and gives None; an unset one takes the file's first assignment when that is non-empty; with no file it is None; an empty value is never returned |
| Ingest.GetVal | pace_view/data_parsing.py:21-32 | the value under the first alias the item has (dict membership or attribute), independently of later aliases; 0.0 when it has none |
| Ingest.NeutralWeather | pace_view/data_parsing.py:56-58 | one neutral record (temp 20, wspd 0, wdir 0, hum 20) per timestamp |
| Ingest.ParseFile | pace_view/data_parsing.py:34-60 | Some iff the file is readable and a Biking activity; the activity is passed through; neutral weather in training mode, without a key or when the service fails; otherwise the service's weather |
| Ingest.BuildFrame | pace_view/core.py:53-74 | TypeError iff some wind speed among the first min(len(timestamps), len(heartrates)) weather records is None (object array divided by 3.6); otherwise the frame exists iff every column covers that many rows, and any other failure is the length ValueError; the frame has exactly that many rows, every wind speed is defined, and each cell is its source value, with speed and wind speed converted back from km/h and weather read through the aliases |
| Ingest.NeutralWeatherHasWind | pace_view/core.py:49-51 | the neutral records never trigger the None-wind TypeError |
| Ingest.NeutralFrame | pace_view/core.py:50-74 | under neutral weather every row reads 20 °C, 20 % humidity, no wind and wind direction 0 |
| Ingest.ToDataframe | pace_view/data_cleaning.py:27-58 | ValueError without a parser, otherwise the same frame or failure as `_process_file`'s frame building, including TypeError for a None wind speed (line 52) |
| Ingest.EntriesVisited | pace_view/data_parsing.py:73-78 | the scan never looks past the listing |
| Ingest.ScanTcxDirectory | pace_view/data_parsing.py:68-79 | with every visited ".tcx" entry readable, the result is what `read` gives for the ".tcx" names among entries 0..read_limit, in listing order; an unreadable visited ".tcx" file stops the scan with an error |
| Ingest.UnreadableStopsScan | pace_view/data_parsing.py:73-76 | a read failure can only come from a visited ".tcx" entry |
| Ingest.ScanBound | pace_view/ast_tcx_reader.py:20-40 | a scan returns at most read_limit + 1 exercises, so at most 601 with READ_LIMIT = 600 |
| Physics.NewEngine | pace_view/physics.py:5-9 | the total mass is rider plus bike mass (85 by default) |
| Physics.FMod360 | pace_view/physics.py:23 | `% 360` yields a value in [0, 360) that differs from the input by a whole number of turns, and keeps values already in range |
| Physics.RawBearing | pace_view/physics.py:16-23 | a bearing exists iff both fixes are complete, and it lies in [0, 360) |
| Physics.RawBearings | pace_view/physics.py:16-23 | row 0 has no bearing; row i has one iff it and row i-1 both have a full fix, and then it is the bearing from fix i-1 to fix i, in [0, 360) |
| Physics.Bearings | pace_view/physics.py:16-24 | one bearing per row; a row whose own and previous fix are complete has the bearing between them; any other row takes the next row's bearing (`bfill`), and the last such row has none; row 0 takes row 1's bearing; every defined bearing lies in [0, 360) |
| Physics.BearingFilledInRange | pace_view/physics.py:24 | back-filling in-range bearings keeps them in range |
| Physics.Headwind | pace_view/physics.py:26-27 | headwind exists iff wind speed, wind direction and bearing do, and |headwind| ≤ |wind speed| |
| Physics.GradAt | pace_view/physics.py:32-33 | the grade lies in [-0.25, 0.25] and has the sign of the elevation change over a defined step; it is the quotient when that is in range and ±0.25 otherwise, including zero-distance steps; a missing step gives 0 |
| Physics.Grads | pace_view/physics.py:32-33 | one grade per row, row 0 has grade 0, and every later row's grade is GradAt of that row's elevation and distance differences, so it lies in [-0.25, 0.25] |
| Physics.AeroPower | pace_view/physics.py:35-36 | aerodynamic power is non-negative at non-negative speed and zero at rest |
| Physics.GravPower | pace_view/physics.py:38 | |gravitational power| ≤ m·g·v |
| Physics.RollPower | pace_view/physics.py:40 | rolling power lies in [0, m·g·0.005·v] |
| Physics.PowersAt | pace_view/physics.py:35-46 | each term exists iff its inputs do; the total exists iff the aero term does, is never negative, and is the clipped sum of the three terms |
| Physics.CalculateVirtualPower | pace_view/physics.py:11-48 | one row per sample with the sample unchanged; prev_lat/prev_lon are the previous row's fix (none for row 0); each row's bearing, ele_smooth and grad are entry i of the back-filled bearing, rolling-mean and gradient columns; its headwind is the wind along that bearing and its three power terms and virtual power are PowersAt of its speed, headwind and grade; hence bearings in range, headwind bounded by wind speed, virtual power never negative |
| Physics.NoPowerAtRest | pace_view/physics.py:36-46 | a frame recorded at zero speed has virtual power 0 wherever it is defined |
| Seqs.Shift | pace_view/physics.py:16-17 | `shift(1)`: same length, row 0 missing, row i+1 holds row i |
| Seqs.Diff | pace_view/physics.py:32 | `diff()`: row i is defined iff rows i and i-1 are, and adding it to row i-1 gives row i |
| Seqs.BFill | pace_view/physics.py:24 | `bfill()`: defined cells are kept, a missing cell takes its successor's filled value, a trailing missing cell stays missing |
| Seqs.BFillTakesNextPresent | pace_view/physics.py:24 | a missing cell takes the value of the next defined cell |
| Seqs.BFillIdempotent | pace_view/physics.py:24 | back-filling twice is the same as back-filling once |
| Seqs.RollingMean10 | pace_view/physics.py:30 | `rolling(10, min_periods=1).mean()`: defined iff the window of the last ten rows has a value |
| Seqs.RollingMeanWithinWindow | pace_view/physics.py:30 | the smoothed elevation lies between bounds that hold for its window |
| Seqs.MeanPresent | pace_view/core.py:173-176 | a NaN-skipping mean exists iff some value is present |
| Seqs.MeanPresentBounded | pace_view/core.py:162 | the mean of values within [lo, hi] lies within [lo, hi] |
| Seqs.Every30th | pace_view/learning.py:22 | `iloc[::30]` keeps ceil(n/30) rows, row j being input row 30·j |
| Seqs.Filter | pace_view/mining.py:74-83 | the kept elements are exactly the input elements satisfying the predicate |
| Seqs.FilterIsSubsequence | pace_view/mining.py:74-83 | filtering keeps the input order |
| Seqs.Clip | pace_view/physics.py:33 | `clip(lo, hi)` lies in [lo, hi], keeps in-range values and maps values outside to the nearer bound |
| Twin.WithHum | pace_view/learning.py:17-18 | a history without `hum` gains hum = 50 and nothing else changes |
| Twin.CompleteRow | pace_view/learning.py:20 | a row trains iff all six features and hr are present, and then carries exactly those values |
| Twin.TrainingSet | pace_view/learning.py:17-25 | ceil(complete/30) samples, each taken from some complete history row |
| Twin.TrainingHumidityDefault | pace_view/learning.py:17-20 | without a `hum` column every training sample has humidity 50 |
| Twin.Train | pace_view/learning.py:10-29 | KeyError when hr is not numeric, ValueError iff there is no sample, otherwise a trained twin fitted on the training set |
| Twin.TrainsWithOneCompleteRow | pace_view/learning.py:20-28 | one complete row is enough for training to succeed |
| Twin.Filled | pace_view/learning.py:37 | a missing feature reads as 0 before prediction and a present one is kept |
| Twin.Standard | pace_view/learning.py:60-63 | the counterfactual keeps power, speed and distance, and sets temp 20, hum 40, ele 100 |
| Twin.StandardIdempotent | pace_view/learning.py:60-63 | the counterfactual is fixed iff a ride is already in standard conditions |
| Twin.PredictDrift | pace_view/learning.py:31-47 | raises when untrained or on no rows; otherwise one prediction per row on the zero-filled features, drift defined iff hr is, and prediction + drift = hr |
| Twin.AnalyzeInfluence | pace_view/learning.py:49-72 | the same errors and predictions; penalty + prediction under standard conditions = actual prediction; prediction + drift = hr |
| Twin.NoPenaltyInStandardConditions | pace_view/learning.py:59-69 | a row already at 20 °C, 40 % and 100 m has zero environmental penalty |
| Twin.DriftAgrees | pace_view/learning.py:31-72 | both analyses succeed together and agree on prediction and drift, row for row |
| Mining.Cut | pace_view/mining.py:17-34 | right-closed `pd.cut`: labelled iff inside (first edge, last edge]; the label is the bin's label |
| Mining.WindLabel | pace_view/mining.py:17-19 | Tailwind on (-50,-1], Neutral on (-1,1], Headwind on (1,50], nothing elsewhere or when missing |
| Mining.TerrainLabel | pace_view/mining.py:22-24 | Flat on (-1,0.02], Climb on (0.02,1], nothing elsewhere |
| Mining.StatusLabel | pace_view/mining.py:27-32 | without a drift column every row is Normal; otherwise High_Performance on (-100,-5], Normal on (-5,5], Struggling on (5,100] |
| Mining.Label | pace_view/mining.py:17-34 | a row survives `dropna` iff all three labels are defined, and then carries them |
| Mining.Discretize | pace_view/mining.py:10-34 | the table holds exactly the labelled rows: every labelled row appears, nothing else does, one transaction per labelled row (the count of rows whose three labels are defined); a one-row frame gives its label or nothing |
| Mining.DiscretizeAppend | pace_view/mining.py:10-34 | labelling a frame split in two labels each part and concatenates them in order |
| Mining.DiscretizedLabelsValid | pace_view/mining.py:17-34 | every label in the table is one of the declared labels |
| Mining.Consequent | pace_view/mining.py:80 | exists iff the rule contains "THEN"; it is then the second piece of `split("THEN")`: the rule is `before + "THEN" + piece + rest` with no "THEN" in `before` or `piece`, and `rest` empty or starting with "THEN" |
| Mining.KeepRuleConsequentDecides | pace_view/mining.py:79-81 | a rule is kept iff it has a consequent and the consequent mentions "Struggling" |
| Mining.KeepRuleSingleThen | pace_view/mining.py:79-81 | for `a + "THEN" + b` with no other "THEN" in `a` or `b`, the rule is kept iff `b` mentions "Struggling" |
| Mining.KeptRuleExample | pace_view/mining.py:79-81 | "Wind(Headwind) THEN Status(Struggling)" is kept |
| Mining.DroppedRuleExample | pace_view/mining.py:79-81 | "Status(Struggling) THEN Wind(Headwind)" is dropped although it mentions "Struggling" |
| Mining.DiscoverRules | pace_view/mining.py:36-91 | an empty table returns [] without touching the directory; otherwise the temp file is gone afterwards, a failed search gives [], and a successful one gives exactly its kept rules |
| Mining.DiscoverRulesKeepsOrder | pace_view/mining.py:74-83 | the kept rules are a subsequence of the search's output |
| Rationale.WindRationale | pace_view/core.py:147-152 | the NEGATIVE headwind text with its minutes and share when more than 25 % of the ride is in headwind; otherwise ASSISTED iff under 5 % with mean headwind below -1; NEUTRAL in the remaining case |
| Rationale.TerrainRationale | pace_view/core.py:156-159 | the HIGH RESISTANCE text with the climbing minutes beyond 20 climbing minutes; the NEUTRAL text iff at most 20 |
| Rationale.AtmosphereRationale | pace_view/core.py:163-168 | HEAT STRESS above +3 bpm, COOLING EFFECT below -3 bpm, NEUTRAL in between |
| Rationale.GenerateConclusion | pace_view/core.py:184-194 | the "Perfect Conditions" text iff no rationale contains NEGATIVE, HIGH or STRESS; otherwise the flagged rationales, in order, joined with " \| "; every flagged rationale flags the conclusion |
| Rationale.ConclusionAppend | pace_view/core.py:184-194 | an empty list gives "Perfect Conditions"; appending an unflagged rationale changes nothing; appending a flagged one makes it the conclusion, or appends " \| " and it, so the conclusion of every list is determined |
| Rationale.CalmTextsUnflagged | pace_view/core.py:150-168 | the ASSISTED and NEUTRAL texts never count as factors |
| Rationale.CoolingUnflagged | pace_view/core.py:166 | the COOLING EFFECT text never counts as a factor when numbers format as digits |
| Rationale.FlaggedTexts | pace_view/core.py:148-164 | the headwind, climbing and heat texts always count as factors |
| Rationale.PerfectExactlyWhenCalm | pace_view/core.py:143-194 | with `explain`'s own texts the conclusion is "Perfect Conditions" iff headwind share ≤ 25 %, climbing ≤ 20 min and mean penalty ≤ 3 |
| Trainer.ProcessFile | pace_view/core.py:28-76 | unreadable or non-Biking files give None; it raises only TypeError or the length ValueError, and raises TypeError whenever the service's weather has a None wind speed within the frame; otherwise min(len(timestamps), len(heartrates)) physics rows; in training mode the frame builds iff the columns cover that length under neutral weather |
| Trainer.FrameOf | pace_view/core.py:83-90 | a history file contributes a frame iff it is a ".tcx" name that processes, and the frame is non-empty |
| Trainer.UsableFrames | pace_view/core.py:83-92 | every usable file's frame is collected, all non-empty; failures are skipped |
| Trainer.Concat | pace_view/core.py:97 | no frames give no rows, one frame gives itself; a row is in the concatenation iff it is in some frame |
| Trainer.ConcatAppend | pace_view/core.py:97 | concatenating two frame lists appends their concatenations, lengths adding up |
| Trainer.Fit | pace_view/core.py:78-107 | "No valid TCX files found." iff no file yields a frame; ValueError iff frames exist but the history has no training sample; otherwise the twin is trained on the whole history and the cache holds, per history row, its headwind, its grade and drift = hr minus the twin's prediction |
| Trainer.HistoryCache | pace_view/core.py:102-106 | one cache row per history row with its headwind, grade and drift = hr minus the twin's prediction |
| Trainer.MinePatterns | pace_view/core.py:109-129 | nothing without a cache; otherwise "no patterns" iff the miner keeps no rule, else the first min(5, n) kept rules; the working directory is the miner's |
| Trainer.HeadwindMinutes | pace_view/core.py:143 | 60 times the headwind minutes is the number of rows with headwind above 3 m/s; they lie between 0 and the ride's minutes |
| Trainer.HeadwindPercent | pace_view/core.py:143-145 | the share lies in [0, 100]; on a non-empty ride it is 100·count/rows |
| Trainer.ClimbingMinutes | pace_view/core.py:155 | 60 times the climbing minutes is the number of rows steeper than 0.03; they lie between 0 and the ride's minutes |
| Trainer.Report | pace_view/core.py:140-180 | the three rationales follow the ride's headwind share, climbing time and mean penalty; the conclusion is built from them and is "Perfect Conditions" exactly in calm conditions; average HR, power and temperature are the column means, and average speed converts back to the mean m/s |
| Trainer.Explain | pace_view/core.py:131-182 | a file without frame raises ModelNotTrained or TypeError; an error while building the frame propagates unchanged; a report is produced iff the twin is trained and the frame is non-empty, and it is the report of that frame with the influence penalties (wind, terrain and atmosphere rationales stated); its conclusion is "Perfect Conditions" exactly in calm conditions |
| Trainer.ExplainRaisesOnMissingWind | pace_view/core.py:71 | a one-sample Biking ride whose service weather has wind speed None makes `explain` raise TypeError |
| Sorting.SortBy | pace_view/data_cleaning.py:117 | the output is a sorted permutation of the input |
| Sorting.InsertBy | pace_view/data_cleaning.py:117 | insertion into a sorted sequence adds exactly one element and keeps it sorted |
| Sorting.DedupSorted | pace_view/data_cleaning.py:117 | `drop_duplicates` keeps only input rows |
| Sorting.DedupStrictlyIncreasing | pace_view/data_cleaning.py:117 | on sorted input the kept keys strictly increase |
| Sorting.DedupKeepsKeys | pace_view/data_cleaning.py:117 | every input key still appears after deduplication |
| Summaries.ClippedIntensity | pace_view/data_cleaning.py:127-131 | the intensity is clipped into [0, 1.2], missing iff hr is (or 0/0); at most resting hr gives 0, high hr saturates at 1.2 |
| Summaries.DigitizeRight | pace_view/data_cleaning.py:133 | `digitize(right=True)` counts the bounds strictly below the value, so the value is at most the next bound |
| Summaries.ZoneOf | pace_view/data_cleaning.py:130-134 | zone 1 up to 0.6, 2 up to 0.7, 3 up to 0.8, 4 up to 0.9, 5 above; always in 1..5, and a missing value lands in zone 5 |
| Summaries.Zone | pace_view/data_cleaning.py:130-134 | every heart rate gets a zone in 1..5 |
| Summaries.ZoneMonotone | pace_view/data_cleaning.py:130-134 | a higher heart rate never gets a lower zone |
| Summaries.DeltaRow | pace_view/data_cleaning.py:122-123 | row 0 has no step; later steps are non-negative, equal the time gap when times increase, and define speed only over a non-zero step |
| Summaries.OrderedPoints | pace_view/data_cleaning.py:117 | the normalised timeline has timed input points only, with strictly increasing times |
| Summaries.OrderedPointsKeepTimes | pace_view/data_cleaning.py:117 | every timestamp of the input survives normalisation |
| Summaries.ExerciseTimeframes | pace_view/data_cleaning.py:99-125 | None iff there are no trackpoints; otherwise times strictly increase, every later step is positive, and speed is distance change over the step |
| Summaries.DeltasOfIncreasing | pace_view/data_cleaning.py:122-123 | on increasing times the step and speed columns have those properties |
| Summaries.ZonesPartitionTime | pace_view/data_cleaning.py:136-138 | the five zone times add up to the summed steps |
| Summaries.TimeInZones | pace_view/data_cleaning.py:136-138 | z1..z5 seconds sum to duration_s and are non-negative for non-negative steps |
| Summaries.EdwardsTrimp | pace_view/data_cleaning.py:145-151 | Edwards TRIMP lies between total minutes and five times total minutes |
| Summaries.BannisterTrimp | pace_view/data_cleaning.py:140-143 | Bannister TRIMP is non-negative, and 0 when no heart rate is known |
| Summaries.SummarizeExercise | pace_view/data_cleaning.py:153-175 | IndexError on an empty frame; otherwise the start, its day, duration = summed steps = summed zone times, the distance span (last minus first, in km) defined iff some distance exists and both the first and the last distance are present, and NaN-skipping means |
| Summaries.CollectSummaries | pace_view/data_cleaning.py:177-186 | fails, always with IndexError, iff some Biking activity with trackpoints has no usable timestamp; otherwise one summary per such activity; a single unusable activity gives no summaries |
| Summaries.CollectSingle | pace_view/data_cleaning.py:180-185 | a single usable activity gives exactly its own summary, or fails exactly when summarising it fails |
| Summaries.CollectStep | pace_view/data_cleaning.py:180-185 | one loop turn: an unusable activity is skipped; a usable one either fails the whole loop or puts its summary in front of the rest |
| Summaries.CollectAppend | pace_view/data_cleaning.py:180-185 | summarising `a + b` succeeds iff both halves do, and then gives `a`'s summaries followed by `b`'s |
| Summaries.NoUsableNoSummaries | pace_view/data_cleaning.py:180-186 | without usable activities there are no summaries |
| Summaries.ExerciseSummariesAsWritten | pace_view/data_cleaning.py:177-187 | as written, sorting an empty summary frame raises KeyError("start_time") |
| Summaries.ExerciseSummaries | pace_view/data_cleaning.py:177-187 | the summaries as a permutation sorted by start time, one per usable activity; fails exactly when the loop fails, with IndexError |
| Summaries.DashboardRows | pace_view/data_cleaning.py:223-224 | speed_kmh / 3.6 = avg_speed_mps and duration_min · 60 = duration_s, row for row |
| Summaries.BuildDashboardAsWritten | pace_view/data_cleaning.py:210-235 | as written, the dashboard never raises ValueError, and fails with KeyError when nothing is usable |
| Summaries.DashboardAsWrittenMissesValueError | pace_view/data_cleaning.py:214-217 | an empty exercise list gets KeyError, not the intended ValueError |
| Summaries.BuildDashboard | pace_view/data_cleaning.py:210-235 | ValueError "No usable trackpoints…" iff no summary exists; otherwise the dashboard rows of the sorted summaries, one per usable activity, ordered by start time |
| Summaries.DashboardReportsNoUsableTrackpoints | pace_view/data_cleaning.py:214-217 | without usable activities the corrected dashboard raises the intended ValueError |
| Summaries.MaxDate | pace_view/data_cleaning.py:192 | the latest date bounds every date and is attained |
| Summaries.InPeriod | pace_view/data_cleaning.py:194-197 | an empty table selects nothing; otherwise a summary is selected iff its date is at least the latest date minus the period, and the zone totals of the selection equal the masked column sums over the whole table |
| Summaries.HrZonesSummary | pace_view/data_cleaning.py:189-201 | five categories z1_sec..z5_sec, each the sum of that zone over every row dated at least the latest date minus the period; all 0 for an empty table |
| Summaries.FilteredZoneTotal | pace_view/data_cleaning.py:197 | summing a zone over the rows a date mask selects equals the masked sum over the whole table |
| Summaries.LatestActivityIncluded | pace_view/data_cleaning.py:192-197 | the latest activity always falls in the period |
| Summaries.InPeriodMonotone | pace_view/data_cleaning.py:194-197 | a longer period includes every activity of a shorter one |
| Text.Strip | examples/full_dashboard.py:218 | `str.strip` is empty iff the text is all whitespace, else starts and ends with non-space |
| Text.StripIsSlice | examples/full_dashboard.py:218 | the stripped text is a slice whose removed ends are whitespace |
| Text.Find | pace_view/mining.py:80 | `find` is defined iff the pattern occurs, at its first occurrence |
| Text.SplitFirst | examples/full_dashboard.py:223 | `split(sep, 1)` succeeds iff `sep` occurs; the parts rejoin to the text and the first has no `sep` |
| Text.SplitFirstJoin | pace_view/config.py:25 | splitting `a + sep + b` gives back `a` and `b` when no character of `a` equals the first character of `sep` |
| Text.SplitFirstJoinUnbordered | pace_view/mining.py:80 | splitting `a + sep + b` gives back `a` and `b` when `a` does not contain `sep` and `sep` cannot overlap itself |
| Text.Upper | examples/full_dashboard.py:228 | `upper` maps each character |
| Text.Title | examples/full_dashboard.py:225 | `title` upper-cases the first letter of each word and lower-cases the rest |
| Text.ReplaceChar | examples/full_dashboard.py:225 | `replace("_", " ")` replaces each underscore |
| Text.Join | pace_view/core.py:194 | joining nothing gives "", one part gives that part, and any join starts with its first part |
| Text.JoinAppend | pace_view/core.py:194 | joining one part gives that part, and joining one more part appends the separator and the part |
| Text.LexLeTotal | examples/activity_detail_page_example.py:207 | string order is total |
| Text.LexLeTransitive | examples/activity_detail_page_example.py:207 | string order is transitive |
| Explanations.ZoneSeconds | examples/full_dashboard.py:38-44 | five zone times, a missing or NaN column reading as 0 |
| Explanations.ZonePercentages | examples/full_dashboard.py:37-49 | five shares: all zero when total ≤ 0, else seconds/total·100, summing to 100; the detail page's identical copy is at examples/activity_detail_page_example.py:48-57 |
| Explanations.SharesSum | examples/full_dashboard.py:46-49 | the shares sum to the seconds' sum over total, times 100 |
| Explanations.SharesBounded | examples/full_dashboard.py:46-49 | with non-negative seconds every share lies in [0, 100] |
| Explanations.Dominant | examples/full_dashboard.py:69 | `max(range(5), key=…)`: a maximal share, with every earlier share strictly smaller |
| Explanations.DominantUnique | examples/full_dashboard.py:69 | the first maximal index is the only answer |
| Explanations.DominantOfPercentages | examples/full_dashboard.py:67-69 | the dominant share is the zone with the most seconds |
| Explanations.IntensityOf | examples/full_dashboard.py:75-82 | demanding iff Z4+Z5 ≥ 35; endurance iff not and Z1+Z2 ≥ 65; balanced otherwise |
| Explanations.IntensityChecksOverlapOnlyAtBoundary | examples/full_dashboard.py:75-82 | for non-negative zone times both intensity tests hold only when Z4+Z5 = 35, Z1+Z2 = 65 and Z3 is empty |
| Explanations.EfficiencyOf | examples/full_dashboard.py:84-91 | classified iff speed and hr are present and hr > 0: strong iff speed ≥ 0.19·hr, moderate iff in [0.15·hr, 0.19·hr), low below |
| Explanations.EfficiencyMonotone | examples/full_dashboard.py:85-91 | a faster ride at the same heart rate never rates worse |
| Explanations.CoveredSentence | examples/full_dashboard.py:60-65 | a distance/duration sentence exists iff either value is present |
| Explanations.ZoneSentences | examples/full_dashboard.py:67-82 | two zone sentences, the second naming the intensity class |
| Explanations.ActivityDetails | examples/full_dashboard.py:53-91 | one sentence for distance/duration, two for zone time, one for efficiency, each present exactly when its data is; the first is the covered sentence, the zone pair (dominant zone, intensity class) follows it, and the last is the efficiency sentence |
| Explanations.JoinedIsNotFallback | examples/full_dashboard.py:93-96 | joined details can never be the fallback text |
| Explanations.BuildActivityExplanation | examples/full_dashboard.py:52-96 | the fallback text iff no distance, no duration, no zone time and no efficiency; otherwise the details joined by spaces |
| Explanations.SimpleDetails | examples/activity_detail_page_example.py:66-72 | one sentence each for distance-and-duration, speed and heart rate, present exactly when their data is, in that order, with their texts ("Covered … km in … minutes.", "Average speed was … km/h.", "Average heart rate was … bpm.") |
| Explanations.BuildSimpleExplanation | examples/activity_detail_page_example.py:60-76 | the fallback text iff the distance/duration pair, the speed and the heart rate are all unavailable |
| Explanations.IntensityCard | examples/activity_detail_page_example.py:163-172 | High Load/negative iff the dominant zone is Z4 or Z5, Aerobic/positive iff Z1 or Z2, Balanced/neutral iff Z3 |
| Explanations.EfficiencyCard | examples/activity_detail_page_example.py:174-188 | Unavailable/neutral iff no efficiency can be computed; Strong/positive, Moderate/neutral and Low/negative follow the efficiency class |
| Explanations.BuildRationaleItemsAsWritten | examples/activity_detail_page_example.py:159-203 | as written: IndexError iff fewer than five shares; otherwise the intensity and efficiency cards |
| Explanations.RationaleItemsAsWrittenFailsOnEmpty | examples/activity_detail_page_example.py:160-163 | an empty share list raises IndexError despite its guard |
| Explanations.FiveShares | examples/activity_detail_page_example.py:160 | missing shares read as 0 |
| Explanations.BuildRationaleItems | examples/activity_detail_page_example.py:159-203 | always two cards, Intensity then Efficiency; identical to the code as written whenever it does not raise; an empty list gives Z1 (Aerobic) |
| Explanations.EmptySharesGiveFirstZone | examples/activity_detail_page_example.py:160 | no shares means dominant zone Z1 |
| Explanations.CardsFollowZoneTime | examples/activity_detail_page_example.py:159-172 | built from a row's percentages, the intensity card names the zone with the most seconds |
| Interaction.ParseRationale | examples/full_dashboard.py:218-226 | non-strings read "No rationale available."; a first `:` with non-blank prefix splits status (underscores to spaces, title case) from the stripped rest, the whole text standing in for an empty rest; otherwise status Neutral |
| Interaction.AnyToken | examples/full_dashboard.py:229-231 | true iff some token occurs in the text |
| Interaction.ToneOf | examples/full_dashboard.py:228-234 | negative iff a negative token occurs in the upper-cased text; positive iff no negative but a positive one does; neutral otherwise |
| Interaction.FormatRationaleItem | examples/full_dashboard.py:217-247 | the card keeps the title, takes the parsed detail and tone, and only a Neutral status is renamed, to Challenging or Favorable by tone; the detail page's identical copy is at examples/activity_detail_page_example.py:126-156 |
| Interaction.FormatSplitsStatus | examples/full_dashboard.py:222-226 | "STATUS:detail" with trimmed, colon-free parts formats back to the title-cased status and the detail |
| Interaction.NoColonStatusFollowsTone | examples/full_dashboard.py:236-240 | text without a colon gets a status named by its tone |
| Interaction.Candidate | examples/full_dashboard.py:137-138 | the first element of a non-empty list payload, else the payload itself |
| Interaction.Trunc | examples/full_dashboard.py:142 | `int(float)` truncates toward zero |
| Interaction.TruncWhole | examples/full_dashboard.py:142 | whole numbers convert to themselves |
| Interaction.ShowNatValue | examples/full_dashboard.py:142 | decimal digits read back as the number they show |
| Interaction.ParseInt | examples/full_dashboard.py:142 | `int(str)` accepts exactly the strings that are, after stripping whitespace, an optional sign followed by one or more digits |
| Interaction.ParseRejectsTrailingLetter | examples/full_dashboard.py:142 | a numeral followed by a letter is not parsed |
| Interaction.ParseShowInt | examples/full_dashboard.py:142 | every integer's decimal text parses back to it |
| Interaction.Convert | examples/full_dashboard.py:139-144 | None, NaN and unconvertible values are skipped, infinity overflows, finite numbers truncate, text converts iff it parses |
| Interaction.ExtractActivityId | examples/full_dashboard.py:132-145 | None iff every point is skipped; otherwise the id of the first point that converts, or OverflowError from the first that overflows |
| Interaction.ClickOnActivityRow | examples/full_dashboard.py:136-142 | a click on a row whose customdata starts with its id returns that id |
| Interaction.GetContextActivityReport | examples/full_dashboard.py:200-214 | without a trainer the stored error or the default message, state unchanged; a cache hit returns the cached report unchanged; on a miss, the report `explain` returns (cached) or its error (state unchanged); only `file` can be added to the cache, and old entries are kept; the detail page's identical copy is at examples/activity_detail_page_example.py:109-123 |
| Interaction.SecondLookupHitsCache | examples/full_dashboard.py:206-212 | after a successful lookup, asking again returns the same report from the cache |
| Interaction.FailureIsRetried | examples/full_dashboard.py:209-214 | a failed explanation is not cached, so the next lookup calls explain again |
| Interaction.LeastName | examples/activity_detail_page_example.py:207-211 | the first name of the sorted listing: a member no larger than any other |
| Interaction.FindExampleTcxFile | examples/activity_detail_page_example.py:206-212 | FileNotFoundError iff no ".tcx" name; otherwise a ".tcx" listing, the preferred one when present, else the least |

## Left out

- File reading, directory listing, the CSV history cache, the temp-file write and printing are not modelled. Files are given as sequences, `read` functions or a set of names.
- The weather API (`WeatherIdentification`) is not modelled. The service's result or failure is a parameter.
- tcxreader and sport_activities_features internals are not modelled. `extract_activity_data` is a given `Activity`.
- The random forest, its fitting and `score` are not modelled. A fitted twin is an abstract predictor function, and the fitter is a parameter.
- Twin.Train: returns the trained model, not the R² score. The score only reaches a print.
- NiaARM and Differential Evolution are not modelled. The rule search is a parameter that returns rule strings or fails.
- sin, cos, atan, atan2 and `exp` are abstract. Their types state the bounds the proofs need.
- Number formatting in f-strings is an opaque `Formatter`. Properties about its output assume `Rationale.PlainNumbers`: formatted numbers contain no letters.
- Floating point is not modelled. Arithmetic is over exact reals, so rounding, NaN propagation inside sums and float overflow are not modelled.
- Ingest.BuildFrame: a weather field of None stands for Python's None. A float NaN wind speed from the service, which numpy would divide without error, is not distinguished from it.
- `pd.to_numeric(errors="coerce")` is not modelled. Its output is taken as given `Option<real>` values.
- Twin.AnalyzeInfluence: the input frame's mutation is not modelled. `explain` reassigns the frame immediately (`pace_view/core.py:138`), so it is not observable.
- Sorting.SortBy is stable. pandas' default sort is not, so among equal keys the model keeps the earliest input row.
- `build_dashboard`'s no-op `dropna()`, its week/month labels and the EWMA series are not modelled. Their results are discarded or are plain display strings.
- `return_figures`, `ewma_series`, `get_calory_average`, `exercises_to_df`, `get_exercise_dataframe`, `parse_tcx_file` and `format_datetime` are not modelled. They are plotting, tabulation or library glue.
- The python-dotenv branch of `load_project_env` is not modelled. Config.GetWeatherApiKey models the fallback loader.
- Flask routes, Dash layouts and callbacks are not modelled. `initialize_context_pipeline`, `build_activity_table` and `load_exercises_with_filenames` are not modelled either.
- Interaction.ParseInt: reads optional sign and ASCII digits. It does not model Python's underscores or non-ASCII digits.
- Interaction.Candidate: an empty list payload is treated as unconvertible (skipped). Python would evaluate `pd.isna([])`, whose outcome depends on the library version.
- Text.Upper, Text.Lower and Text.Title: ASCII only. There is no Unicode case mapping.
- Interaction.FindExampleTcxFile: returns the selected name only. The `os.path.join` with the directory is not modelled.
- Ingest.ScanTcxDirectory: a read failure is reported as an error. Python would raise from inside tcxreader, whose message is not modelled.

## Findings

| source | as written | input that shows it | evidently intended | confidence | as-written member | corrected member |
|---|---|---|---|---|---|---|
| pace_view/data_cleaning.py:187 | `pd.DataFrame([]).sort_values("start_time")` raises KeyError before `build_dashboard` checks `empty` (line 216), so its ValueError branch is unreachable | an exercise list with no usable Biking activity, e.g. `[]` | ValueError "No usable trackpoints found in given TCX files." | high, not executed | Summaries.BuildDashboardAsWritten, Summaries.DashboardAsWrittenMissesValueError | Summaries.BuildDashboard, Summaries.DashboardReportsNoUsableTrackpoints |
| examples/activity_detail_page_example.py:160-163 | `if zone_shares else 0` guards an empty list but line 163 still indexes `zone_shares[0]` | `build_rationale_items([], 20.0, 140.0)` | Z1 with share 0 for a missing share list | moderate (the page always passes five shares), not executed | Explanations.BuildRationaleItemsAsWritten, Explanations.RationaleItemsAsWrittenFailsOnEmpty | Explanations.BuildRationaleItems |

=== FILE: config.dfy ===
/** The `.env` fallback loader and the weather-API-key lookup.
    The process environment is a map from variable name to value; the
    `.env` file is given as its list of lines, or None when the path does not
    exist or is not a regular file. */
module Config {
  import opened Wrappers
  import opened Text

  type Env = map<string, string>

  const WeatherApiKeyVar: string := "WEATHER_API_KEY"

  predicate IsQuoted(v: string) {
    (StartsWith(v, "\"") && EndsWith(v, "\"")) || (StartsWith(v, "'") && EndsWith(v, "'"))
  }

  /** A value wrapped in matching double or single quotes loses its first and last
      character, once; Python's `v[1:-1]` of a lone quote is the empty string. */
  function Unquote(v: string): (r: string)
    ensures !IsQuoted(v) ==> r == v
    ensures IsQuoted(v) ==> |r| == if |v| >= 2 then |v| - 2 else 0
    ensures IsQuoted(v) && |v| >= 2 ==> v == [v[0]] + r + [v[|v| - 1]]
  {
    if IsQuoted(v) then (if |v| >= 2 then v[1..|v| - 1] else "") else v
  }

  /** Quoting a value and loading it back gives the value itself. */
  lemma UnquoteRoundTrip(s: string, q: char)
    requires q == '"' || q == '\''
    ensures Unquote([q] + s + [q]) == s
  {
    var v := [q] + s + [q];
    assert v[..1] == [q] && v[|v| - 1..] == [q];
    assert v[1..|v| - 1] == s;
  }

  /** The line the loader parses: stripped, with one leading "export " removed. */
  function Cleaned(raw: string): string {
    var line := Strip(raw);
    if StartsWith(line, "export ") then Strip(line[|"export "|..]) else line
  }

  predicate Skipped(raw: string) {
    var line := Strip(raw);
    |line| == 0 || StartsWith(line, "#")
  }

  /** The assignment one `.env` line makes, or None for a line the loader skips. */
  function ParseEnvLine(raw: string): (r: Option<(string, string)>)
    ensures Skipped(raw) ==> r.None?
    ensures r.Some? ==> |r.value.0| > 0
  {
    if Skipped(raw) then None
    else
      match SplitFirst(Cleaned(raw), "=")
      case None => None
      case Some((k, v)) =>
        var key := Strip(k);
        if |key| == 0 then None else Some((key, Unquote(Strip(v))))
  }

  /** A line that is not skipped assigns exactly when its cleaned text has an `=` with a
      non-blank key before it; the split is on the FIRST `=`, so later ones stay in the value,
      and key and value are stripped before the value is unquoted. */
  lemma ParseEnvLineSplitsOnFirstEquals(raw: string, before: string, after: string)
    requires !Skipped(raw)
    requires Cleaned(raw) == before + "=" + after && !Contains(before, "=")
    ensures |Strip(before)| == 0 ==> ParseEnvLine(raw).None?
    ensures |Strip(before)| > 0 ==> ParseEnvLine(raw) == Some((Strip(before), Unquote(Strip(after))))
  {
    var s := Cleaned(raw);
    var r := SplitFirst(s, "=");
    OccursAt_Sep(before, after);
    assert Contains(s, "=");
    var (b, a) := r.value;
    SplitUnique(s, before, after, b, a);
  }

  lemma OccursAt_Sep(before: string, after: string)
    ensures OccursAt(before + "=" + after, "=", |before|)
  {
    assert (before + "=" + after)[|before|..|before| + 1] == "=";
  }

  /** Two ways of writing `s` as text without `=`, then `=`, then the rest, are the same. */
  lemma SplitUnique(s: string, b1: string, a1: string, b2: string, a2: string)
    requires s == b1 + "=" + a1 && !Contains(b1, "=")
    requires s == b2 + "=" + a2 && !Contains(b2, "=")
    ensures b1 == b2 && a1 == a2
  {
    if |b1| < |b2| {
      assert b2[|b1|] == s[|b1|] == '=';
      assert OccursAt(b2, "=", |b1|);
    } else if |b2| < |b1| {
      assert b1[|b2|] == s[|b2|] == '=';
      assert OccursAt(b1, "=", |b2|);
    } else {
      assert b1 == s[..|b1|] == b2;
      assert a1 == s[|b1| + 1..] == a2;
    }
  }

  /** A line without `=` after clean-up assigns nothing. */
  lemma ParseEnvLineNeedsEquals(raw: string)
    requires !Contains(Cleaned(raw), "=")
    ensures ParseEnvLine(raw).None?
  {
  }

  /** `os.environ.setdefault` for the assignment one line makes. */
  function SetDefaultLine(env: Env, raw: string): (r: Env)
    ensures forall k :: k in env ==> k in r && r[k] == env[k]
  {
    match ParseEnvLine(raw)
    case Some((k, v)) => if k in env then env else env[k := v]
    case None => env
  }

  /** `os.environ.setdefault(key, value)` for every parsed line, in file order. */
  function ApplyLines(env: Env, lines: seq<string>): (r: Env)
    ensures forall k :: k in env ==> k in r && r[k] == env[k]
    decreases |lines|
  {
    if |lines| == 0 then env
    else ApplyLines(SetDefaultLine(env, lines[0]), lines[1..])
  }

  /** The value the first line that assigns `key` gives it, independently of any environment. */
  function FirstAssignment(lines: seq<string>, key: string): Option<string> {
    if |lines| == 0 then None
    else match ParseEnvLine(lines[0])
      case Some((k, v)) => if k == key then Some(v) else FirstAssignment(lines[1..], key)
      case None => FirstAssignment(lines[1..], key)
  }

  /** For a variable not already set, the loader keeps the FIRST assignment in the file;
      a variable no line assigns stays unset. */
  lemma {:induction false} FirstLineWins(env: Env, lines: seq<string>, key: string)
    requires key !in env
    decreases |lines|
    ensures key in ApplyLines(env, lines) <==> FirstAssignment(lines, key).Some?
    ensures key in ApplyLines(env, lines) ==> ApplyLines(env, lines)[key] == FirstAssignment(lines, key).value
  {
    if |lines| > 0 {
      match ParseEnvLine(lines[0])
      case Some((k, v)) =>
        var env' := SetDefaultLine(env, lines[0]);
        if k != key {
          FirstLineWins(env', lines[1..], key);
        }
      case None =>
        FirstLineWins(env, lines[1..], key);
    }
  }

  /** `_load_env_fallback`: a missing file leaves the environment as it was; otherwise
      every line is applied without overriding variables that are already set. */
  function LoadEnvFallback(env: Env, file: Option<seq<string>>): (r: Env)
    ensures file.None? ==> r == env
    ensures forall k :: k in env ==> k in r && r[k] == env[k]
    ensures forall k :: k in r && k !in env ==> file.Some? && FirstAssignment(file.value, k) == Some(r[k])
    ensures forall k :: k !in env && file.Some? && FirstAssignment(file.value, k).Some? ==> k in r
  {
    match file
    case None => env
    case Some(lines) =>
      var r := ApplyLines(env, lines);
      forall k | k !in env
        ensures k in r <==> FirstAssignment(lines, k).Some?
        ensures k in r ==> FirstAssignment(lines, k) == Some(r[k])
      {
        FirstLineWins(env, lines, k);
      }
      r
  }

  /** `get_weather_api_key` with the fallback loader: the variable's value, or None
      when it is unset or empty after loading. */
  function GetWeatherApiKey(env: Env, file: Option<seq<string>>): (r: Option<string>)
    ensures r.Some? ==> |r.value| > 0
    ensures WeatherApiKeyVar in env && |env[WeatherApiKeyVar]| > 0 ==> r == Some(env[WeatherApiKeyVar])
    ensures WeatherApiKeyVar in env && |env[WeatherApiKeyVar]| == 0 ==> r.None?
    ensures WeatherApiKeyVar !in env && file.Some? ==>
      r == (match FirstAssignment(file.value, WeatherApiKeyVar)
            case Some(v) => if |v| > 0 then Some(v) else None
            case None => None)
    ensures WeatherApiKeyVar !in env && file.None? ==> r.None?
  {
    var loaded := LoadEnvFallback(env, file);
    if WeatherApiKeyVar in loaded && |loaded[WeatherApiKeyVar]| > 0 then Some(loaded[WeatherApiKeyVar])
    else None
  }
}

=== FILE: explanations.dfy ===
/** The text the example pages show for one activity row: zone shares, the
    dominant zone, the intensity and efficiency classes, the dashboard's and the
    detail page's plain-language explanations, and the detail page's two
    rationale cards. Number formatting is a parameter, as in the rationale
    texts of the trainer. */
module Explanations {
  import opened Wrappers
  import opened Seqs
  import opened Text
  import opened Rationale

  /** The cells of a dashboard row the helpers read. A missing column, None and NaN are
      all None; `zoneSec[k]` is the `z{k+1}_sec` cell, and a zone past the end of the
      sequence has no column. */
  datatype ActivityRow = ActivityRow(
    distanceKm: Option<real>, durationMin: Option<real>, speedKmh: Option<real>,
    avgHr: Option<real>, zoneSec: seq<Option<real>>)

  const ZoneCount: nat := 5

  /** `row.get(f"z{k}_sec", 0)` with None and NaN read as 0. */
  function ZoneSeconds(row: ActivityRow): (s: seq<real>)
    ensures |s| == ZoneCount
    ensures forall k :: 0 <= k < ZoneCount ==>
      s[k] == if k < |row.zoneSec| then row.zoneSec[k].GetOr(0.0) else 0.0
  {
    seq(ZoneCount, k requires 0 <= k < ZoneCount =>
      if k < |row.zoneSec| then row.zoneSec[k].GetOr(0.0) else 0.0)
  }

  function ZoneTotal(row: ActivityRow): real {
    Sum(ZoneSeconds(row))
  }

  /** Each value as a percentage of `total`. */
  function Shares(s: seq<real>, total: real): (r: seq<real>)
    requires total != 0.0
    ensures |r| == |s|
    ensures forall k :: 0 <= k < |s| ==> r[k] == s[k] / total * 100.0
  {
    if |s| == 0 then []
    else
      var rest := Shares(s[1..], total);
      var r := [s[0] / total * 100.0] + rest;
      assert forall k :: 1 <= k < |s| ==> r[k] == rest[k - 1] && s[1..][k - 1] == s[k];
      r
  }

  /** The percentages add up to 100 times the share of `total` the values make up. */
  lemma {:induction false} SharesSum(s: seq<real>, total: real)
    requires total != 0.0
    ensures Sum(Shares(s, total)) == Sum(s) / total * 100.0
  {
    if |s| > 0 {
      SharesSum(s[1..], total);
      var rest := Shares(s[1..], total);
      assert Shares(s, total) == [s[0] / total * 100.0] + rest;
      assert ([s[0] / total * 100.0] + rest)[1..] == rest;
      assert s[0] / total * 100.0 + Sum(s[1..]) / total * 100.0 == (s[0] + Sum(s[1..])) / total * 100.0;
    }
  }

  /** `zone_percentages`: every zone's share of the zone time in percent, all zero when
      there is no positive zone time. */
  function ZonePercentages(row: ActivityRow): (r: seq<real>)
    ensures |r| == ZoneCount
    ensures ZoneTotal(row) <= 0.0 ==> forall k :: 0 <= k < ZoneCount ==> r[k] == 0.0
    ensures ZoneTotal(row) > 0.0 ==> forall k :: 0 <= k < ZoneCount ==>
      r[k] == ZoneSeconds(row)[k] / ZoneTotal(row) * 100.0
    ensures ZoneTotal(row) > 0.0 ==> Sum(r) == 100.0
    ensures ZoneTotal(row) <= 0.0 ==> Sum(r) == 0.0
  {
    var total := ZoneTotal(row);
    if total <= 0.0 then
      var r := seq(ZoneCount, _ => 0.0);
      assert Sum(r) == 0.0 by { SumOfFive(r); }
      r
    else
      SharesSum(ZoneSeconds(row), total);
      assert total / total * 100.0 == 100.0;
      Shares(ZoneSeconds(row), total)
  }

  /** With no negative zone time every share lies in [0, 100]. */
  lemma {:induction false} SharesBounded(row: ActivityRow)
    requires forall k :: 0 <= k < ZoneCount ==> ZoneSeconds(row)[k] >= 0.0
    ensures forall k :: 0 <= k < ZoneCount ==> 0.0 <= ZonePercentages(row)[k] <= 100.0
  {
    var s := ZoneSeconds(row);
    if ZoneTotal(row) > 0.0 {
      forall k | 0 <= k < ZoneCount ensures 0.0 <= ZonePercentages(row)[k] <= 100.0 {
        SumAtLeastMember(s, k);
        PercentBounds(s[k], ZoneTotal(row));
      }
    }
  }

  lemma PercentBounds(x: real, t: real)
    requires t > 0.0 && 0.0 <= x <= t
    ensures 0.0 <= x / t * 100.0 <= 100.0
  {
    RatioAtMost(x, t, 1.0);
    RatioThreshold(x, t, 0.0);
  }

  /** A sum of non-negative values is at least each of them. */
  lemma {:induction false} SumAtLeastMember(s: seq<real>, k: nat)
    requires forall j :: 0 <= j < |s| ==> s[j] >= 0.0
    requires k < |s|
    ensures s[k] <= Sum(s)
  {
    assert forall j :: 0 <= j < |s| - 1 ==> s[1..][j] == s[j + 1];
    SumNonNegative(s[1..]);
    if k > 0 {
      SumAtLeastMember(s[1..], k - 1);
    }
  }

  lemma {:induction false} SumNonNegative(s: seq<real>)
    requires forall j :: 0 <= j < |s| ==> s[j] >= 0.0
    ensures Sum(s) >= 0.0
  {
    if |s| > 0 {
      assert forall j :: 0 <= j < |s| - 1 ==> s[1..][j] == s[j + 1];
      SumNonNegative(s[1..]);
    }
  }

  /** `max(range(n), key=lambda i: s[i])`: the first index holding the largest value. */
  function Dominant(s: seq<real>): (k: nat)
    requires |s| > 0
    ensures k < |s|
    ensures forall j :: 0 <= j < |s| ==> s[j] <= s[k]
    ensures forall j :: 0 <= j < k ==> s[j] < s[k]
  {
    if |s| == 1 then 0
    else
      var init := s[..|s| - 1];
      var k := Dominant(init);
      assert forall j :: 0 <= j < |s| - 1 ==> init[j] == s[j];
      if s[|s| - 1] > s[k] then |s| - 1 else k
  }

  /** Those two properties pin the index down: there is only one such index. */
  lemma DominantUnique(s: seq<real>, k: nat)
    requires k < |s|
    requires forall j :: 0 <= j < |s| ==> s[j] <= s[k]
    requires forall j :: 0 <= j < k ==> s[j] < s[k]
    ensures k == Dominant(s)
  {
    var d := Dominant(s);
    assert s[d] == s[k];
  }

  /** The zone number's digit, "1" for the first zone. */
  function ZoneDigit(k: nat): (c: char)
    requires k < 9
    ensures '1' <= c <= '9'
  {
    ('1' as int + k) as char
  }

  /** The dashboard's intensity sentence classes. */
  datatype Intensity = Demanding | Endurance | BalancedProfile

  /** Z4+Z5 is checked before Z1+Z2. */
  function IntensityOf(shares: seq<real>): (c: Intensity)
    requires |shares| == ZoneCount
    ensures c == Demanding <==> shares[3] + shares[4] >= 35.0
    ensures c == Endurance <==> shares[3] + shares[4] < 35.0 && shares[0] + shares[1] >= 65.0
    ensures c == BalancedProfile <==> shares[3] + shares[4] < 35.0 && shares[0] + shares[1] < 65.0
  {
    if shares[3] + shares[4] >= 35.0 then Demanding
    else if shares[0] + shares[1] >= 65.0 then Endurance
    else BalancedProfile
  }

  /** For a row with no negative zone time the order of the two checks matters only on
      the boundary: both can hold only when Z4+Z5 is exactly 35%, Z1+Z2 exactly 65%, and
      Z3 is empty. */
  lemma IntensityChecksOverlapOnlyAtBoundary(row: ActivityRow)
    requires forall k :: 0 <= k < ZoneCount ==> ZoneSeconds(row)[k] >= 0.0
    requires ZoneTotal(row) > 0.0
    ensures var p := ZonePercentages(row);
      p[3] + p[4] >= 35.0 && p[0] + p[1] >= 65.0 ==>
        p[3] + p[4] == 35.0 && p[0] + p[1] == 65.0 && p[2] == 0.0
  {
    var p := ZonePercentages(row);
    SharesBounded(row);
    SumOfFive(p);
  }

  lemma SumOfFive(p: seq<real>)
    requires |p| == 5
    ensures Sum(p) == p[0] + p[1] + p[2] + p[3] + p[4]
  {
    var p4, p3, p2, p1 := p[4..], p[3..], p[2..], p[1..];
    assert p4[1..] == [] && Sum(p4) == p[4];
    assert p3[1..] == p4 && Sum(p3) == p[3] + p[4];
    assert p2[1..] == p3 && Sum(p2) == p[2] + p[3] + p[4];
    assert p1[1..] == p2 && Sum(p1) == p[1] + p[2] + p[3] + p[4];
    assert p[1..] == p1;
  }

  datatype Efficiency = Strong | Moderate | Low

  /** Speed per heart beat, defined only when both are present and the heart rate is
      positive; at least 0.19 km/h per bpm is strong and at least 0.15 is moderate. */
  function EfficiencyOf(speedKmh: Option<real>, avgHr: Option<real>): (r: Option<Efficiency>)
    ensures r.Some? <==> speedKmh.Some? && avgHr.Some? && avgHr.value > 0.0
    ensures r == Some(Strong) <==> r.Some? && speedKmh.value >= 0.19 * avgHr.value
    ensures r == Some(Moderate) <==> r.Some? && 0.15 * avgHr.value <= speedKmh.value < 0.19 * avgHr.value
    ensures r == Some(Low) <==> r.Some? && speedKmh.value < 0.15 * avgHr.value
  {
    if speedKmh.Some? && avgHr.Some? && avgHr.value > 0.0 then
      var e := speedKmh.value / avgHr.value;
      RatioThreshold(speedKmh.value, avgHr.value, 0.19);
      RatioThreshold(speedKmh.value, avgHr.value, 0.15);
      Some(if e >= 0.19 then Strong else if e >= 0.15 then Moderate else Low)
    else None
  }

  lemma RatioThreshold(v: real, h: real, c: real)
    requires h > 0.0
    ensures v / h >= c <==> v >= c * h
  {
    assert v / h * h == v;
    if v / h >= c {
      assert v / h * h >= c * h;
    }
    if v >= c * h {
      assert v / h >= c * h / h;
    }
  }

  lemma RatioAtMost(v: real, h: real, c: real)
    requires h > 0.0
    ensures v / h <= c <==> v <= c * h
  {
    RatioThreshold(v, h, c);
    assert v / h * h == v;
    if v / h == c {
      assert v == c * h;
    }
    if v == c * h {
      assert v / h == c;
    }
  }

  function EfficiencyRank(e: Efficiency): nat {
    match e
    case Low => 0
    case Moderate => 1
    case Strong => 2
  }

  /** At the same heart rate, riding faster never lowers the efficiency class. */
  lemma EfficiencyMonotone(v1: real, v2: real, hr: real)
    requires hr > 0.0 && v1 <= v2
    ensures EfficiencyRank(EfficiencyOf(Some(v1), Some(hr)).value) <= EfficiencyRank(EfficiencyOf(Some(v2), Some(hr)).value)
  {
  }

  const NotEnoughInformation: string := "Not enough information " + "to build an explanation for this activity."

  /** The dashboard's opening sentence: distance and duration, whichever are known. */
  function CoveredSentence(fmt: Formatter, row: ActivityRow): (r: Option<string>)
    ensures r.Some? <==> row.distanceKm.Some? || row.durationMin.Some?
  {
    match (row.distanceKm, row.durationMin)
    case (Some(d), Some(m)) => Some("Covered " + fmt(d, 1) + " km in " + fmt(m, 0) + " minutes.")
    case (Some(d), None) => Some("Covered " + fmt(d, 1) + " km.")
    case (None, Some(m)) => Some("Workout duration was " + fmt(m, 0) + " minutes.")
    case (None, None) => None
  }

  function IntensitySentence(c: Intensity): string {
    match c
    case Demanding => "This" + " was a demanding effort with extended high-intensity work (Z4-Z5)."
    case Endurance => "Intensity" + " stayed mostly aerobic (Z1-Z2), indicating an endurance-focused ride."
    case BalancedProfile => "The" + " ride kept a balanced intensity profile across aerobic and threshold zones."
  }

  function EfficiencySentence(e: Efficiency): string {
    match e
    case Strong => "Efficiency" + " was strong for the recorded heart rate."
    case Moderate => "Efficiency" + " was moderate for the recorded heart rate."
    case Low => "Speed" + " to heart-rate efficiency was low compared with usual endurance pacing."
  }

  /** The two zone sentences: the dominant zone with its share, then the intensity class. */
  function ZoneSentences(fmt: Formatter, shares: seq<real>): (r: seq<string>)
    requires |shares| == ZoneCount
    ensures |r| == 2
    ensures r[1] == IntensitySentence(IntensityOf(shares))
  {
    var k := Dominant(shares);
    ["Main intensity was in Z" + [ZoneDigit(k)] + " (" + fmt(shares[k], 0) + "% of zone time)."]
      + [IntensitySentence(IntensityOf(shares))]
  }

  predicate StartsOtherThanN(s: string) {
    |s| > 0 && s[0] != 'N'
  }

  predicate AllStartOtherThanN(d: seq<string>) {
    forall i :: 0 <= i < |d| ==> StartsOtherThanN(d[i])
  }

  lemma LiteralStart(lit: string, rest: string)
    requires |lit| > 0 && lit[0] != 'N'
    ensures StartsOtherThanN(lit + rest)
  {
    assert (lit + rest)[0] == lit[0];
  }

  function CoveredPart(fmt: Formatter, row: ActivityRow): (d: seq<string>)
    ensures |d| == if row.distanceKm.Some? || row.durationMin.Some? then 1 else 0
    ensures |d| == 1 ==> d[0] == CoveredSentence(fmt, row).value
    ensures AllStartOtherThanN(d)
  {
    CoveredStart(fmt, row);
    match CoveredSentence(fmt, row)
    case Some(s) => [s]
    case None => []
  }

  lemma CoveredStart(fmt: Formatter, row: ActivityRow)
    ensures CoveredSentence(fmt, row).Some? ==> StartsOtherThanN(CoveredSentence(fmt, row).value)
  {
    match (row.distanceKm, row.durationMin)
    case (Some(d), Some(m)) => LiteralStart("Covered ", fmt(d, 1) + " km in " + fmt(m, 0) + " minutes.");
    case (Some(d), None) => LiteralStart("Covered ", fmt(d, 1) + " km.");
    case (None, Some(m)) => LiteralStart("Workout duration was ", fmt(m, 0) + " minutes.");
    case (None, None) =>
  }

  /** The zone sentences, present exactly when the row has positive zone time (the source
      tests the shares' sum, which is 100 then and 0 otherwise). */
  function ZonePart(fmt: Formatter, row: ActivityRow): (d: seq<string>)
    ensures |d| == if ZoneTotal(row) > 0.0 then 2 else 0
    ensures ZoneTotal(row) > 0.0 ==> d == ZoneSentences(fmt, ZonePercentages(row))
    ensures AllStartOtherThanN(d)
  {
    var shares := ZonePercentages(row);
    if Sum(shares) > 0.0 then
      var z := ZoneSentences(fmt, shares);
      ZoneSentencesStart(fmt, shares);
      z
    else []
  }

  lemma ZoneSentencesStart(fmt: Formatter, shares: seq<real>)
    requires |shares| == ZoneCount
    ensures AllStartOtherThanN(ZoneSentences(fmt, shares))
  {
    var k := Dominant(shares);
    LiteralStart("Main intensity was in Z", [ZoneDigit(k)] + " (" + fmt(shares[k], 0) + "% of zone time).");
    assert ZoneSentences(fmt, shares)[0] == "Main intensity was in Z" + ([ZoneDigit(k)] + " (" + fmt(shares[k], 0) + "% of zone time).");
    IntensitySentenceStart(IntensityOf(shares));
  }

  lemma IntensitySentenceStart(c: Intensity)
    ensures StartsOtherThanN(IntensitySentence(c))
  {
    match c
    case Demanding => LiteralStart("This", " was a demanding effort with extended high-intensity work (Z4-Z5).");
    case Endurance => LiteralStart("Intensity", " stayed mostly aerobic (Z1-Z2), indicating an endurance-focused ride.");
    case BalancedProfile => LiteralStart("The", " ride kept a balanced intensity profile across aerobic and threshold zones.");
  }

  lemma EfficiencySentenceStart(e: Efficiency)
    ensures StartsOtherThanN(EfficiencySentence(e))
  {
    match e
    case Strong => LiteralStart("Efficiency", " was strong for the recorded heart rate.");
    case Moderate => LiteralStart("Efficiency", " was moderate for the recorded heart rate.");
    case Low => LiteralStart("Speed", " to heart-rate efficiency was low compared with usual endurance pacing.");
  }

  function EfficiencyPart(row: ActivityRow): (d: seq<string>)
    ensures |d| == if EfficiencyOf(row.speedKmh, row.avgHr).Some? then 1 else 0
    ensures |d| == 1 ==> d[0] == EfficiencySentence(EfficiencyOf(row.speedKmh, row.avgHr).value)
    ensures AllStartOtherThanN(d)
  {
    match EfficiencyOf(row.speedKmh, row.avgHr)
    case Some(e) =>
      EfficiencySentenceStart(e);
      [EfficiencySentence(e)]
    case None => []
  }

  /** The sentences of `build_activity_explanation`, in order. */
  function ActivityDetails(fmt: Formatter, row: ActivityRow): (d: seq<string>)
    ensures |d| == (if row.distanceKm.Some? || row.durationMin.Some? then 1 else 0)
                 + (if ZoneTotal(row) > 0.0 then 2 else 0)
                 + (if EfficiencyOf(row.speedKmh, row.avgHr).Some? then 1 else 0)
    ensures row.distanceKm.Some? || row.durationMin.Some? ==> d[0] == CoveredSentence(fmt, row).value
    ensures var c := if row.distanceKm.Some? || row.durationMin.Some? then 1 else 0;
      ZoneTotal(row) > 0.0 ==> d[c..c + 2] == ZoneSentences(fmt, ZonePercentages(row))
    ensures EfficiencyOf(row.speedKmh, row.avgHr).Some? ==>
      d[|d| - 1] == EfficiencySentence(EfficiencyOf(row.speedKmh, row.avgHr).value)
    ensures AllStartOtherThanN(d)
  {
    var a, b, c := CoveredPart(fmt, row), ZonePart(fmt, row), EfficiencyPart(row);
    ConcatStarts(a, b);
    ConcatStarts(a + b, c);
    assert (a + b + c)[|a|..|a| + |b|] == b;
    a + b + c
  }

  lemma ConcatStarts(a: seq<string>, b: seq<string>)
    requires AllStartOtherThanN(a) && AllStartOtherThanN(b)
    ensures AllStartOtherThanN(a + b)
  {
    forall i | 0 <= i < |a + b| ensures StartsOtherThanN((a + b)[i]) {
      if i >= |a| {
        assert (a + b)[i] == b[i - |a|];
      }
    }
  }

  /** A text made of sentences none of which starts with 'N' is never the fallback. */
  lemma JoinedIsNotFallback(parts: seq<string>)
    requires |parts| > 0 && forall i :: 0 <= i < |parts| ==> StartsOtherThanN(parts[i])
    ensures Join(parts, " ") != NotEnoughInformation
  {
    var r := Join(parts, " ");
    assert r[0] == parts[0][0];
    assert NotEnoughInformation[0] == 'N';
  }

  /** `build_activity_explanation`: the fallback text exactly when nothing is known about
      distance, duration, zone time and efficiency; otherwise the sentences joined by spaces. */
  function BuildActivityExplanation(fmt: Formatter, row: ActivityRow): (r: string)
    ensures r == NotEnoughInformation <==>
      && row.distanceKm.None? && row.durationMin.None? && ZoneTotal(row) <= 0.0
      && EfficiencyOf(row.speedKmh, row.avgHr).None?
    ensures r != NotEnoughInformation ==> r == Join(ActivityDetails(fmt, row), " ")
  {
    var details := ActivityDetails(fmt, row);
    if |details| == 0 then NotEnoughInformation
    else
      JoinedIsNotFallback(details);
      Join(details, " ")
  }

  /** The sentences of the detail page's `build_simple_explanation`. */
  function SimpleDetails(fmt: Formatter, row: ActivityRow): (d: seq<string>)
    ensures |d| == (if row.distanceKm.Some? && row.durationMin.Some? then 1 else 0)
                 + (if row.speedKmh.Some? then 1 else 0) + (if row.avgHr.Some? then 1 else 0)
    ensures row.distanceKm.Some? && row.durationMin.Some? ==>
      d[0] == "Covered " + fmt(row.distanceKm.value, 1) + " km in " + fmt(row.durationMin.value, 0) + " minutes."
    ensures var c := if row.distanceKm.Some? && row.durationMin.Some? then 1 else 0;
      row.speedKmh.Some? ==> d[c] == "Average speed was " + fmt(row.speedKmh.value, 1) + " km/h."
    ensures row.avgHr.Some? ==> d[|d| - 1] == "Average heart rate was " + fmt(row.avgHr.value, 0) + " bpm."
    ensures forall i :: 0 <= i < |d| ==> StartsOtherThanN(d[i])
  {
    var covered := if row.distanceKm.Some? && row.durationMin.Some?
      then ["Covered " + fmt(row.distanceKm.value, 1) + " km in " + fmt(row.durationMin.value, 0) + " minutes."]
      else [];
    var speed := if row.speedKmh.Some? then ["Average speed was " + fmt(row.speedKmh.value, 1) + " km/h."] else [];
    var hr := if row.avgHr.Some? then ["Average heart rate was " + fmt(row.avgHr.value, 0) + " bpm."] else [];
    assert forall i :: 0 <= i < |covered| ==> StartsOtherThanN(covered[i]);
    assert forall i :: 0 <= i < |speed| ==> StartsOtherThanN(speed[i]);
    assert forall i :: 0 <= i < |hr| ==> StartsOtherThanN(hr[i]);
    covered + speed + hr
  }

  /** `build_simple_explanation`: the fallback text exactly when the distance-duration pair,
      the speed and the heart rate are all unavailable. */
  function BuildSimpleExplanation(fmt: Formatter, row: ActivityRow): (r: string)
    ensures r == NotEnoughInformation <==>
      (row.distanceKm.None? || row.durationMin.None?) && row.speedKmh.None? && row.avgHr.None?
    ensures r != NotEnoughInformation ==> r == Join(SimpleDetails(fmt, row), " ")
  {
    var details := SimpleDetails(fmt, row);
    if |details| == 0 then NotEnoughInformation
    else
      JoinedIsNotFallback(details);
      Join(details, " ")
  }

  /** A card's tone. */
  datatype Tone = Negative | Positive | NeutralTone

  /** One rationale card: title, status, text and tone. */
  datatype Card = Card(title: string, status: string, text: string, tone: Tone)

  /** The intensity card for dominant zone index `k`: Z4 and Z5 are a high load, Z1 and Z2
      aerobic, Z3 balanced. */
  function IntensityCard(fmt: Formatter, k: nat, share: real): (c: Card)
    requires k < ZoneCount
    ensures c.title == "Intensity Profile"
    ensures k >= 3 <==> c.status == "High Load" && c.tone == Negative
    ensures k <= 1 <==> c.status == "Aerobic" && c.tone == Positive
    ensures k == 2 <==> c.status == "Balanced" && c.tone == NeutralTone
  {
    var text := "Most of the session was spent in Z" + [ZoneDigit(k)] + " (" + fmt(share, 0) + "%).";
    if k + 1 >= 4 then Card("Intensity Profile", "High Load", text, Negative)
    else if k + 1 <= 2 then Card("Intensity Profile", "Aerobic", text, Positive)
    else Card("Intensity Profile", "Balanced", text, NeutralTone)
  }

  /** The efficiency card: unavailable without a positive heart rate and a speed. */
  function EfficiencyCard(fmt: Formatter, speedKmh: Option<real>, avgHr: Option<real>): (c: Card)
    ensures c.title == "Efficiency"
    ensures EfficiencyOf(speedKmh, avgHr).None? <==> c.status == "Unavailable"
    ensures EfficiencyOf(speedKmh, avgHr).None? ==> c.tone == NeutralTone && c.text == "No efficiency estimate available."
    ensures EfficiencyOf(speedKmh, avgHr) == Some(Strong) <==> c.status == "Strong" && c.tone == Positive
    ensures EfficiencyOf(speedKmh, avgHr) == Some(Moderate) <==> c.status == "Moderate" && c.tone == NeutralTone
    ensures EfficiencyOf(speedKmh, avgHr) == Some(Low) <==> c.status == "Low" && c.tone == Negative
  {
    match EfficiencyOf(speedKmh, avgHr)
    case None => Card("Efficiency", "Unavailable", "No efficiency estimate available.", NeutralTone)
    case Some(e) =>
      var text := "Speed-to-heart-rate efficiency was " + fmt(speedKmh.value / avgHr.value, 3) + " (km/h per bpm).";
      match e
      case Strong => Card("Efficiency", "Strong", text, Positive)
      case Moderate => Card("Efficiency", "Moderate", text, NeutralTone)
      case Low => Card("Efficiency", "Low", text, Negative)
  }

  /** `build_rationale_items` as written: the dominant zone is taken over indices 0..4 and
      its share read from the list, so a list shorter than five (the empty one included,
      which the `if zone_shares else 0` guard was meant to handle) raises IndexError. */
  function BuildRationaleItemsAsWritten(fmt: Formatter, shares: seq<real>, speedKmh: Option<real>, avgHr: Option<real>)
    : (r: Result<seq<Card>>)
    ensures r.Err? <==> |shares| < ZoneCount
    ensures r.Err? ==> r.error == IndexError
    ensures r.Ok? ==> r.value == [IntensityCard(fmt, Dominant(shares[..ZoneCount]), shares[Dominant(shares[..ZoneCount])]),
                                  EfficiencyCard(fmt, speedKmh, avgHr)]
  {
    if |shares| < ZoneCount then Err(IndexError)
    else
      var k := Dominant(shares[..ZoneCount]);
      Ok([IntensityCard(fmt, k, shares[k]), EfficiencyCard(fmt, speedKmh, avgHr)])
  }

  /** The input the guard was written for makes the function raise. */
  lemma RationaleItemsAsWrittenFailsOnEmpty(fmt: Formatter, speedKmh: Option<real>, avgHr: Option<real>)
    ensures BuildRationaleItemsAsWritten(fmt, [], speedKmh, avgHr) == Err(IndexError)
  {
  }

  /** The first five shares, a missing one read as 0. */
  function FiveShares(shares: seq<real>): (r: seq<real>)
    ensures |r| == ZoneCount
    ensures forall k :: 0 <= k < ZoneCount ==> r[k] == if k < |shares| then shares[k] else 0.0
  {
    seq(ZoneCount, k requires 0 <= k < ZoneCount => if k < |shares| then shares[k] else 0.0)
  }

  /** `build_rationale_items` as intended: shares that are not there count as 0, so an empty
      list gives the Z1 card at 0% as the guard meant; five or more shares behave exactly
      as written. Always two cards, intensity first. */
  function BuildRationaleItems(fmt: Formatter, shares: seq<real>, speedKmh: Option<real>, avgHr: Option<real>)
    : (r: seq<Card>)
    ensures |r| == 2 && r[0].title == "Intensity Profile" && r[1].title == "Efficiency"
    ensures r[1] == EfficiencyCard(fmt, speedKmh, avgHr)
    ensures |shares| >= ZoneCount ==> BuildRationaleItemsAsWritten(fmt, shares, speedKmh, avgHr) == Ok(r)
    ensures |shares| == 0 ==> r[0].status == "Aerobic" && r[0].tone == Positive
  {
    var five := FiveShares(shares);
    var k := Dominant(five);
    assert |shares| >= ZoneCount ==> five == shares[..ZoneCount];
    EmptySharesGiveFirstZone(shares);
    [IntensityCard(fmt, k, five[k]), EfficiencyCard(fmt, speedKmh, avgHr)]
  }

  lemma EmptySharesGiveFirstZone(shares: seq<real>)
    ensures |shares| == 0 ==> Dominant(FiveShares(shares)) == 0
  {
    if |shares| == 0 {
      DominantUnique(FiveShares(shares), 0);
    }
  }

  /** Percentages of a positive total are ordered as the seconds are, so the dominant
      zone is the same whether it is read from the seconds or from the shares. */
  lemma DominantOfPercentages(row: ActivityRow)
    requires ZoneTotal(row) > 0.0
    ensures Dominant(ZonePercentages(row)) == Dominant(ZoneSeconds(row))
  {
    var s := ZoneSeconds(row);
    var p := ZonePercentages(row);
    var t := ZoneTotal(row);
    var d := Dominant(s);
    forall j | 0 <= j < ZoneCount ensures p[j] <= p[d] && (j < d ==> p[j] < p[d]) {
      ScaleOrder(s[j], s[d], t);
    }
    DominantUnique(p, d);
  }

  lemma ScaleOrder(a: real, b: real, t: real)
    requires t > 0.0
    ensures a <= b <==> a / t * 100.0 <= b / t * 100.0
    ensures a < b <==> a / t * 100.0 < b / t * 100.0
  {
    var c := 100.0 / t;
    assert c > 0.0;
    assert a / t * 100.0 == a * c && b / t * 100.0 == b * c;
    if a <= b { assert a * c <= b * c; }
    if a < b { assert a * c < b * c; }
    if b < a { assert b * c < a * c; }
    if b <= a { assert b * c <= a * c; }
  }

  /** With the shares `zone_percentages` produces, the intensity card is the card of the
      zone with the most seconds. */
  lemma CardsFollowZoneTime(fmt: Formatter, row: ActivityRow, speedKmh: Option<real>, avgHr: Option<real>)
    requires ZoneTotal(row) > 0.0
    ensures var k := Dominant(ZoneSeconds(row));
      BuildRationaleItems(fmt, ZonePercentages(row), speedKmh, avgHr)[0]
        == IntensityCard(fmt, k, ZonePercentages(row)[k])
  {
    var p := ZonePercentages(row);
    DominantOfPercentages(row);
    assert p[..ZoneCount] == p;
  }

}

=== FILE: ingest.dfy ===
/** Turning one parsed TCX activity and its weather into a per-sample frame
    (`DataParser`, `DataCleaner.to_dataframe` and the frame-building half of
    `ContextTrainer._process_file`), and the directory scans that pick which
    files are read. Reading a TCX file and calling the weather service are
    outside the model: their outcomes are parameters. */
module Ingest {
  import opened Wrappers
  import opened Seqs
  import opened Text

  /** A weather record as the weather library hands it over: a dict (looked up by key)
      or an object (looked up by attribute). A present field may still hold None. */
  datatype WeatherItem =
    | DictItem(entries: map<string, Option<real>>)
    | ObjectItem(attrs: map<string, Option<real>>)
  {
    /** `k in item` for a dict, `hasattr(item, k)` otherwise. */
    predicate Has(k: string) {
      match this
      case DictItem(m) => k in m
      case ObjectItem(a) => k in a
    }

    function Field(k: string): Option<real>
      requires Has(k)
    {
      match this
      case DictItem(m) => m[k]
      case ObjectItem(a) => a[k]
    }
  }

  /** `_get_val`: the value under the first listed alias that the item has, 0.0 when it has none. */
  function GetVal(item: WeatherItem, keys: seq<string>): (r: Option<real>)
    ensures (forall i :: 0 <= i < |keys| ==> !item.Has(keys[i])) ==> r == Some(0.0)
    ensures forall i :: 0 <= i < |keys| && item.Has(keys[i]) && (forall j :: 0 <= j < i ==> !item.Has(keys[j]))
              ==> r == item.Field(keys[i])
  {
    if |keys| == 0 then Some(0.0)
    else if item.Has(keys[0]) then item.Field(keys[0])
    else
      var rest := keys[1..];
      var r := GetVal(item, rest);
      forall i | 1 <= i < |keys| && item.Has(keys[i]) && (forall j :: 0 <= j < i ==> !item.Has(keys[j]))
        ensures r == item.Field(keys[i])
      {
        assert keys[i] == rest[i - 1];
        assert forall j :: 0 <= j < i - 1 ==> rest[j] == keys[j + 1];
      }
      assert (forall i :: 0 <= i < |keys| ==> !item.Has(keys[i])) ==> forall i :: 0 <= i < |rest| ==> !item.Has(rest[i]);
      r
  }

  const TempKeys: seq<string> := ["temp", "temperature"]
  const HumKeys: seq<string> := ["hum", "humidity"]
  const WindSpeedKeys: seq<string> := ["wspd", "wind_speed"]
  const WindDirKeys: seq<string> := ["wdir", "wind_direction"]

  /** The fixed stand-in for real weather: 20 degrees, no wind, 20% humidity. */
  const NeutralItem: WeatherItem :=
    DictItem(map["temp" := Some(20.0), "wspd" := Some(0.0), "wdir" := Some(0.0), "hum" := Some(20.0)])

  function NeutralWeather(n: nat): (w: seq<WeatherItem>)
    ensures |w| == n && forall i :: 0 <= i < n ==> w[i] == NeutralItem
  {
    seq(n, _ => NeutralItem)
  }

  /** What `extract_activity_data` yields: parallel per-sample lists. Heart rates and
      speeds are already through `pd.to_numeric(errors="coerce")`, so a cell that was
      not numeric is missing. A missing `activity_type` key reads as "". */
  datatype Activity = Activity(
    activityType: string,
    timestamps: seq<real>,
    positions: seq<(Option<real>, Option<real>)>,
    altitudes: seq<Option<real>>,
    distances: seq<Option<real>>,
    heartrates: seq<Option<real>>,
    speeds: seq<Option<real>>)

  predicate IsBiking(act: Activity) {
    Contains(act.activityType, "Biking")
  }

  /** Python truthiness of the configured API key. */
  predicate HasKey(apiKey: Option<string>) {
    apiKey.Some? && |apiKey.value| > 0
  }

  /** `DataParser.parse_file`: None for an unreadable (`read == None`) or non-Biking file;
      otherwise the activity and its weather. The weather service is asked only with a key
      outside training mode; its failure (`service == None`) and every other case fall
      back to one neutral record per timestamp. */
  function ParseFile(read: Option<Activity>, isTraining: bool, apiKey: Option<string>,
                     service: Option<seq<WeatherItem>>): (r: Option<(Activity, seq<WeatherItem>)>)
    ensures r.Some? <==> read.Some? && IsBiking(read.value)
    ensures r.Some? ==> r.value.0 == read.value
    ensures r.Some? && (isTraining || !HasKey(apiKey) || service.None?) ==>
      r.value.1 == NeutralWeather(|read.value.timestamps|)
    ensures r.Some? && !isTraining && HasKey(apiKey) && service.Some? ==> r.value.1 == service.value
  {
    match read
    case None => None
    case Some(act) =>
      if !IsBiking(act) then None
      else if HasKey(apiKey) && !isTraining then
        match service
        case Some(w) => Some((act, w))
        case None => Some((act, NeutralWeather(|act.timestamps|)))
      else Some((act, NeutralWeather(|act.timestamps|)))
  }

  /** One row of the ingested frame; `speedMps` and `windSpeedMps` are in metres per second. */
  datatype Sample = Sample(
    time: real,
    lat: Option<real>, lon: Option<real>,
    ele: Option<real>, dist: Option<real>,
    hr: Option<real>, speedMps: Option<real>,
    temp: Option<real>, windSpeedMps: Option<real>, windDir: Option<real>, hum: Option<real>)

  function KmhToMps(x: real): real { x / 3.6 }
  function MpsToKmh(x: real): real { x * 3.6 }

  function Min(a: nat, b: nat): nat { if a <= b then a else b }

  /** Every column the frame is built from is at least `n` long. */
  predicate ColumnsCover(act: Activity, weather: seq<WeatherItem>, n: nat) {
    && n <= |act.positions| && n <= |act.altitudes| && n <= |act.distances|
    && n <= |act.speeds| && n <= |weather|
  }

  /** Some wind speed among the first `n` weather records is None. `np.array` of such a
      list has object type, and dividing it by 3.6 raises TypeError. */
  predicate NoneWindAmong(weather: seq<WeatherItem>, n: nat) {
    exists i :: 0 <= i < Min(n, |weather|) && GetVal(weather[i], WindSpeedKeys).None?
  }

  /** The neutral records always carry a wind speed. */
  lemma NeutralWeatherHasWind(m: nat, n: nat)
    ensures !NoneWindAmong(NeutralWeather(m), n)
  {
    assert GetVal(NeutralItem, WindSpeedKeys) == Some(0.0);
  }

  /** The frame `to_dataframe` / `_process_file` build: every column cut to
      min(#timestamps, #heart rates) rows. The wind column is divided by 3.6 while the
      columns are gathered, so a None wind speed among them raises TypeError first; after
      that, a column shorter than the others makes pandas raise ValueError ("All arrays
      must be of the same length"). */
  function BuildFrame(act: Activity, weather: seq<WeatherItem>): (r: Result<seq<Sample>>)
    ensures r == Err(TypeError) <==> NoneWindAmong(weather, Min(|act.timestamps|, |act.heartrates|))
    ensures r.Ok? <==> !NoneWindAmong(weather, Min(|act.timestamps|, |act.heartrates|))
                       && ColumnsCover(act, weather, Min(|act.timestamps|, |act.heartrates|))
    ensures r.Err? ==> r.error == TypeError || r.error == ValueError("All arrays must be of the same length")
    ensures r.Ok? ==> |r.value| == Min(|act.timestamps|, |act.heartrates|)
    ensures r.Ok? ==> forall i :: 0 <= i < |r.value| ==> r.value[i].windSpeedMps.Some?
    ensures r.Ok? ==> forall i :: 0 <= i < |r.value| ==>
      && r.value[i].time == act.timestamps[i]
      && r.value[i].hr == act.heartrates[i]
      && (r.value[i].lat, r.value[i].lon) == act.positions[i]
      && r.value[i].ele == act.altitudes[i] && r.value[i].dist == act.distances[i]
      && MapOpt(r.value[i].speedMps, MpsToKmh) == act.speeds[i]
      && MapOpt(r.value[i].windSpeedMps, MpsToKmh) == GetVal(weather[i], WindSpeedKeys)
      && r.value[i].temp == GetVal(weather[i], TempKeys)
      && r.value[i].hum == GetVal(weather[i], HumKeys)
      && r.value[i].windDir == GetVal(weather[i], WindDirKeys)
  {
    var n := Min(|act.timestamps|, |act.heartrates|);
    if NoneWindAmong(weather, n) then Err(TypeError)
    else if !ColumnsCover(act, weather, n) then Err(ValueError("All arrays must be of the same length"))
    else
      var rows := seq(n, i requires 0 <= i < n => Sample(
        act.timestamps[i], act.positions[i].0, act.positions[i].1,
        act.altitudes[i], act.distances[i], act.heartrates[i],
        MapOpt(act.speeds[i], KmhToMps),
        GetVal(weather[i], TempKeys),
        MapOpt(GetVal(weather[i], WindSpeedKeys), KmhToMps),
        GetVal(weather[i], WindDirKeys),
        GetVal(weather[i], HumKeys)));
      assert forall i :: 0 <= i < n ==> MapOpt(rows[i].speedMps, MpsToKmh) == act.speeds[i] by {
        forall i | 0 <= i < n ensures MapOpt(rows[i].speedMps, MpsToKmh) == act.speeds[i] {
          if act.speeds[i].Some? {
            assert MpsToKmh(KmhToMps(act.speeds[i].value)) == act.speeds[i].value;
          }
        }
      }
      assert forall i :: 0 <= i < n ==> MapOpt(rows[i].windSpeedMps, MpsToKmh) == GetVal(weather[i], WindSpeedKeys) by {
        forall i | 0 <= i < n ensures MapOpt(rows[i].windSpeedMps, MpsToKmh) == GetVal(weather[i], WindSpeedKeys) {
          var w := GetVal(weather[i], WindSpeedKeys);
          if w.Some? {
            assert MpsToKmh(KmhToMps(w.value)) == w.value;
          }
        }
      }
      Ok(rows)
  }

  /** With neutral weather every row reads 20 degrees, 20% humidity and no wind. */
  lemma NeutralFrame(act: Activity)
    requires BuildFrame(act, NeutralWeather(|act.timestamps|)).Ok?
    ensures forall s :: s in BuildFrame(act, NeutralWeather(|act.timestamps|)).value ==>
      s.temp == Some(20.0) && s.hum == Some(20.0) && s.windSpeedMps == Some(0.0) && s.windDir == Some(0.0)
  {
    var w := NeutralWeather(|act.timestamps|);
    var rows := BuildFrame(act, w).value;
    assert GetVal(NeutralItem, TempKeys) == Some(20.0);
    assert GetVal(NeutralItem, HumKeys) == Some(20.0);
    assert GetVal(NeutralItem, WindDirKeys) == Some(0.0);
    assert GetVal(NeutralItem, WindSpeedKeys) == Some(0.0);
    forall s | s in rows
      ensures s.temp == Some(20.0) && s.hum == Some(20.0) && s.windSpeedMps == Some(0.0) && s.windDir == Some(0.0)
    {
      var i :| 0 <= i < |rows| && rows[i] == s;
      assert w[i] == NeutralItem;
      assert MapOpt(s.windSpeedMps, MpsToKmh) == Some(0.0);
    }
  }

  /** `DataCleaner.to_dataframe`: without a parser it raises ValueError, otherwise it
      builds the frame. */
  function ToDataframe(hasParser: bool, act: Activity, weather: seq<WeatherItem>): (r: Result<seq<Sample>>)
    ensures !hasParser ==> r.Err? && r.error.ValueError?
    ensures hasParser ==> r == BuildFrame(act, weather)
  {
    if !hasParser then Err(ValueError("DataCleaner requires a DataParser instance for weather-aligned dataframes."))
    else BuildFrame(act, weather)
  }

  predicate IsTcxName(name: string) {
    EndsWith(name, ".tcx")
  }

  /** How many directory entries a scan with `readLimit` looks at: it stops after the
      entry whose index reaches the limit. */
  function EntriesVisited(n: nat, readLimit: int): (v: nat)
    ensures v <= n
  {
    if readLimit < 0 then Min(n, 1) else Min(n, readLimit + 1)
  }

  /** `parse_tcx_directory` (and the legacy reader's loop with READ_LIMIT): walks the
      listing in order, reads every ".tcx" entry and stops after index `readLimit`.
      `read` is the TCX reader; None means it raised, which the scan does not catch. */
  method ScanTcxDirectory<E>(names: seq<string>, readLimit: int, read: string -> Option<E>)
    returns (r: Result<seq<E>>)
    ensures var visited := Filter(names[..EntriesVisited(|names|, readLimit)], IsTcxName);
      && (r.Ok? <==> forall i :: 0 <= i < |visited| ==> read(visited[i]).Some?)
      && (r.Ok? ==> |r.value| == |visited| && forall i :: 0 <= i < |visited| ==> r.value[i] == read(visited[i]).value)
  {
    // The loop breaks right after the entry at index `readLimit`, so it looks at
    // `EntriesVisited` entries in all.
    var stop := EntriesVisited(|names|, readLimit);
    ghost var visited := Filter(names[..stop], IsTcxName);
    var out: seq<E> := [];
    ghost var seen: seq<string> := [];
    var idx := 0;
    while idx < stop
      invariant 0 <= idx <= stop
      invariant seen == Filter(names[..idx], IsTcxName)
      invariant ReadsAll(seen, out, read)
      decreases stop - idx
    {
      var name := names[idx];
      ScanStep(names, idx, IsTcxName);
      if IsTcxName(name) {
        var e := read(name);
        if e.None? {
          UnreadableStopsScan(names, idx, stop, seen, read);
          return Err(Raised("unreadable TCX file"));
        }
        ReadsAllAppend(seen, out, name, read);
        out := out + [e.value];
        seen := seen + [name];
      }
      idx := idx + 1;
    }
    assert names[..idx] == names[..stop];
    return Ok(out);
  }

  /** `out` holds what `read` returned for each of `names`, all of which it could read. */
  ghost predicate ReadsAll<E>(names: seq<string>, out: seq<E>, read: string -> Option<E>) {
    |out| == |names| && forall i :: 0 <= i < |names| ==> read(names[i]).Some? && out[i] == read(names[i]).value
  }

  lemma ReadsAllAppend<E>(names: seq<string>, out: seq<E>, name: string, read: string -> Option<E>)
    requires ReadsAll(names, out, read) && read(name).Some?
    ensures ReadsAll(names + [name], out + [read(name).value], read)
  {
  }

  /** An unreadable ".tcx" entry at index `idx` is one of the visited files. */
  lemma UnreadableStopsScan<E>(names: seq<string>, idx: nat, stop: nat, seen: seq<string>, read: string -> Option<E>)
    requires idx < stop <= |names| && IsTcxName(names[idx]) && read(names[idx]).None?
    requires seen == Filter(names[..idx], IsTcxName)
    ensures exists i :: 0 <= i < |Filter(names[..stop], IsTcxName)| && read(Filter(names[..stop], IsTcxName)[i]).None?
  {
    ScanStep(names, idx, IsTcxName);
    FilterPrefix(names, idx + 1, stop, IsTcxName);
    var visited := Filter(names[..stop], IsTcxName);
    assert Filter(names[..idx + 1], IsTcxName) == seen + [names[idx]];
    assert visited[|seen|] == names[idx];
  }

  lemma ScanStep<T>(s: seq<T>, i: nat, keep: T -> bool)
    requires i < |s|
    ensures Filter(s[..i + 1], keep) == Filter(s[..i], keep) + (if keep(s[i]) then [s[i]] else [])
  {
    assert s[..i + 1] == s[..i] + [s[i]];
    FilterSnoc(s[..i], s[i], keep);
  }

  lemma {:induction false} FilterSnoc<T>(s: seq<T>, x: T, keep: T -> bool)
    ensures Filter(s + [x], keep) == Filter(s, keep) + (if keep(x) then [x] else [])
  {
    if |s| == 0 {
      assert s + [x] == [x];
    } else {
      assert (s + [x])[1..] == s[1..] + [x];
      FilterSnoc(s[1..], x, keep);
    }
  }

  /** Filtering a longer prefix keeps the shorter prefix's selection at its front. */
  lemma {:induction false} FilterPrefix<T>(s: seq<T>, i: nat, j: nat, keep: T -> bool)
    requires i <= j <= |s|
    ensures Filter(s[..i], keep) <= Filter(s[..j], keep)
    decreases j - i
  {
    if i < j {
      FilterPrefix(s, i, j - 1, keep);
      assert s[..j] == s[..j - 1] + [s[j - 1]];
      FilterSnoc(s[..j - 1], s[j - 1], keep);
    }
  }

  /** The scan never returns more than `readLimit + 1` exercises (601 with the legacy READ_LIMIT). */
  lemma ScanBound(names: seq<string>, readLimit: int)
    requires readLimit >= 0
    ensures |Filter(names[..EntriesVisited(|names|, readLimit)], IsTcxName)| <= readLimit + 1
  {
  }

  const ReadLimit: int := 600
}

=== FILE: interaction.dfy ===
/** The example pages' request-side helpers: turning a "STATUS: detail" rationale
    string into a card, reading the activity id out of a chart click, the per-file
    cache in front of `ContextTrainer.explain`, and the choice of the example TCX
    file. */
module Interaction {
  import opened Wrappers
  import opened Seqs
  import opened Text
  import opened Explanations

  /** What `format_rationale_item` is handed: a string, or any other value. */
  datatype RawText = Str(s: string) | NotAString

  const NoRationale: string := "No rationale available."
  const NeutralStatus: string := "Neutral"

  /** The stripped text, the status read from its part before the first ':' (title-cased,
      '_' read as a space) and the detail after it; "Neutral" and the whole text when
      there is no ':' or nothing but whitespace before it. */
  datatype Parsed = Parsed(text: string, status: string, detail: string)

  function ParseRationale(raw: RawText): (p: Parsed)
    ensures p.text == (if raw.Str? then Strip(raw.s) else NoRationale)
    ensures !Contains(p.text, ":") ==> p.status == NeutralStatus && p.detail == p.text
    ensures Contains(p.text, ":") ==>
      var (prefix, suffix) := SplitFirst(p.text, ":").value;
      if AllSpace(prefix) then p.status == NeutralStatus && p.detail == p.text
      else
        && p.status == Title(ReplaceChar(Strip(prefix), '_', ' '))
        && p.detail == (if |Strip(suffix)| == 0 then p.text else Strip(suffix))
  {
    var text := if raw.Str? then Strip(raw.s) else NoRationale;
    match SplitFirst(text, ":")
    case None => Parsed(text, NeutralStatus, text)
    case Some((prefix, suffix)) =>
      if |Strip(prefix)| == 0 then Parsed(text, NeutralStatus, text)
      else
        var detail := Strip(suffix);
        Parsed(text, Title(ReplaceChar(Strip(prefix), '_', ' ')), if |detail| == 0 then text else detail)
  }

  const NegativeTokens: seq<string> := ["NEGATIVE", "HIGH RESISTANCE", "HEAT STRESS", "STRUGGLING"]
  const PositiveTokens: seq<string> := ["ASSISTED", "COOLING EFFECT", "PERFECT", "STRONG"]

  predicate HasToken(s: string, tokens: seq<string>) {
    exists i :: 0 <= i < |tokens| && Contains(s, tokens[i])
  }

  /** `any(token in s for token in tokens)`, one token at a time. */
  function AnyToken(s: string, tokens: seq<string>): (b: bool)
    ensures b <==> HasToken(s, tokens)
  {
    if |tokens| == 0 then false
    else
      var b := Contains(s, tokens[0]) || AnyToken(s, tokens[1..]);
      assert forall i :: 1 <= i < |tokens| ==> tokens[i] == tokens[1..][i - 1];
      assert HasToken(s, tokens[1..]) ==> HasToken(s, tokens);
      b
  }

  /** The tone of `upper(status + " " + detail)`: a negative token wins over a positive one. */
  function ToneOf(status: string, detail: string): (t: Tone)
    ensures var src := Upper(status + " " + detail);
      && (t == Negative <==> HasToken(src, NegativeTokens))
      && (t == Positive <==> !HasToken(src, NegativeTokens) && HasToken(src, PositiveTokens))
  {
    var src := Upper(status + " " + detail);
    if AnyToken(src, NegativeTokens) then Negative
    else if AnyToken(src, PositiveTokens) then Positive
    else NeutralTone
  }

  /** `format_rationale_item`: a card whose status is the parsed one, except that a
      "Neutral" status follows the tone ("Challenging" when negative, "Favorable" when
      positive). */
  function FormatRationaleItem(title: string, raw: RawText): (c: Card)
    ensures var p := ParseRationale(raw);
      && c.title == title && c.text == p.detail && c.tone == ToneOf(p.status, p.detail)
      && (p.status != NeutralStatus ==> c.status == p.status)
      && (p.status == NeutralStatus ==>
            c.status == (match c.tone
                         case Negative => "Challenging"
                         case Positive => "Favorable"
                         case NeutralTone => NeutralStatus))
  {
    var p := ParseRationale(raw);
    var tone := ToneOf(p.status, p.detail);
    var status := if p.status != NeutralStatus then p.status
      else match tone
        case Negative => "Challenging"
        case Positive => "Favorable"
        case NeutralTone => NeutralStatus;
    Card(title, status, p.detail, tone)
  }

  /** A string without surrounding whitespace is its own `strip()`. */
  lemma StripTrimmed(s: string)
    requires |s| > 0 && !IsSpace(s[0]) && !IsSpace(s[|s| - 1])
    ensures Strip(s) == s
  {
    assert LeadingSpace(s) == 0;
    assert TrailingSpace(s) == 0;
  }

  /** A text built as "STATUS:detail", with no ':' in the status and neither part blank,
      comes apart into exactly those parts: the card's text is the stripped detail and its
      status is the title-cased status, unless that reads "Neutral". */
  lemma FormatSplitsStatus(title: string, status: string, detail: string)
    requires |status| > 0 && !IsSpace(status[0]) && forall i :: 0 <= i < |status| ==> status[i] != ':'
    requires |detail| > 0 && !IsSpace(detail[|detail| - 1])
    ensures var c := FormatRationaleItem(title, Str(status + ":" + detail));
      && c.text == Strip(detail)
      && (Title(ReplaceChar(Strip(status), '_', ' ')) != NeutralStatus ==>
            c.status == Title(ReplaceChar(Strip(status), '_', ' ')))
  {
    var s := status + ":" + detail;
    assert s[0] == status[0] && s[|s| - 1] == detail[|detail| - 1];
    StripTrimmed(s);
    SplitFirstJoin(status, ":", detail);
    assert !AllSpace(status);
    assert !AllSpace(detail);
  }

  /** Without a ':' the status only reports the tone. */
  lemma NoColonStatusFollowsTone(title: string, raw: RawText)
    requires !Contains(ParseRationale(raw).text, ":")
    ensures var c := FormatRationaleItem(title, raw);
      && (c.tone == Negative <==> c.status == "Challenging")
      && (c.tone == Positive <==> c.status == "Favorable")
      && (c.tone == NeutralTone <==> c.status == NeutralStatus)
  {
  }

  // ---------------------------------------------------------------------------
  // Chart clicks

  /** One `customdata` value as the click payload carries it. */
  datatype Scalar =
    | NoneValue
    | NaN
    | Finite(x: real)
    | Infinite
    | Text(s: string)
    | Unconvertible   // a value `int()` rejects with TypeError, such as a dict

  /** A point's `customdata`: a single value (None when the key is missing) or a list or tuple. */
  datatype CustomData = Single(v: Scalar) | Sequence(items: seq<Scalar>)

  /** The value tried for a point: the first element of a non-empty list, else the data
      itself; an empty list is not a number `int()` accepts. */
  function Candidate(c: CustomData): (v: Scalar)
    ensures c.Single? ==> v == c.v
    ensures c.Sequence? && |c.items| > 0 ==> v == c.items[0]
  {
    match c
    case Single(v) => v
    case Sequence(items) => if |items| > 0 then items[0] else Unconvertible
  }

  /** `int(x)` on a finite float: truncation toward zero. */
  function Trunc(x: real): (n: int)
    ensures n as real <= x < n as real + 1.0 || n as real - 1.0 < x <= n as real
    ensures Abs(n as real) <= Abs(x) < Abs(n as real) + 1.0
    ensures x >= 0.0 ==> n >= 0
    ensures x <= 0.0 ==> n <= 0
  {
    if x >= 0.0 then x.Floor else -((-x).Floor)
  }

  /** A whole number converts to itself. */
  lemma TruncWhole(n: int)
    ensures Trunc(n as real) == n
  {
  }

  predicate IsDigit(c: char) { '0' <= c <= '9' }

  predicate AllDigits(s: string) {
    forall i :: 0 <= i < |s| ==> IsDigit(s[i])
  }

  /** The value of a decimal numeral, most significant digit first. */
  function DigitsValue(s: string): (n: nat)
    requires AllDigits(s)
  {
    if |s| == 0 then 0
    else DigitsValue(s[..|s| - 1]) * 10 + (s[|s| - 1] as int - '0' as int)
  }

  /** The decimal numeral of `n`, without leading zeros. */
  function ShowNat(n: nat): (s: string)
    ensures |s| > 0 && AllDigits(s)
    ensures |s| > 1 ==> s[0] != '0'
  {
    var d := ('0' as int + n % 10) as char;
    if n < 10 then [d]
    else
      var init := ShowNat(n / 10);
      var s := init + [d];
      assert s[0] == init[0];
      s
  }

  lemma {:induction false} ShowNatValue(n: nat)
    ensures DigitsValue(ShowNat(n)) == n
  {
    if n >= 10 {
      ShowNatValue(n / 10);
      var s := ShowNat(n);
      assert s[..|s| - 1] == ShowNat(n / 10);
    }
  }

  /** An optional sign followed by one or more ASCII digits. */
  predicate IsNumeral(t: string) {
    |t| > 0 && var d := if t[0] == '-' || t[0] == '+' then t[1..] else t; |d| > 0 && AllDigits(d)
  }

  /** Python's `int(s)` for a string: optional surrounding whitespace, an optional sign
      and one or more ASCII digits. */
  function ParseInt(s: string): (r: Option<int>)
    ensures r.Some? <==> IsNumeral(Strip(s))
    ensures r.Some? ==> |Strip(s)| > 0
  {
    var t := Strip(s);
    if |t| == 0 then None
    else
      var negative := t[0] == '-';
      var digits := if t[0] == '-' || t[0] == '+' then t[1..] else t;
      if |digits| == 0 || !AllDigits(digits) then None
      else Some(if negative then -(DigitsValue(digits) as int) else DigitsValue(digits))
  }

  function ShowInt(n: int): (s: string) {
    if n < 0 then "-" + ShowNat(-n) else ShowNat(n)
  }

  /** What `str(n)` prints, `int()` reads back. */
  lemma ParseShowInt(n: int)
    ensures ParseInt(ShowInt(n)) == Some(n)
  {
    var s := ShowInt(n);
    var digits := if n < 0 then ShowNat(-n) else ShowNat(n);
    ShowNatValue(if n < 0 then -n else n);
    assert !IsSpace(s[0]) && !IsSpace(s[|s| - 1]);
    StripTrimmed(s);
    if n < 0 {
      assert s[1..] == digits;
    }
  }

  /** A numeral followed by a letter is not a number: `int("12x")` raises ValueError. */
  lemma ParseRejectsTrailingLetter(n: int)
    ensures ParseInt(ShowInt(n) + "x") == None
  {
    var s := ShowInt(n) + "x";
    assert !IsSpace(s[0]) && !IsSpace(s[|s| - 1]);
    StripTrimmed(s);
    assert !IsDigit(s[|s| - 1]);
  }

  /** The outcome of trying one point. */
  datatype Conversion = Skip | Id(n: int) | Overflow

  /** None and NaN are skipped; `int()` truncates a finite float, overflows on an infinite
      one (OverflowError is not caught), parses a string, and a TypeError or ValueError
      skips the point. */
  function Convert(v: Scalar): (c: Conversion)
    ensures c == Overflow <==> v.Infinite?
    ensures v.Finite? ==> c == Id(Trunc(v.x))
    ensures v.Text? ==> (c.Id? <==> ParseInt(v.s).Some?)
    ensures v.NoneValue? || v.NaN? || v.Unconvertible? ==> c == Skip
  {
    match v
    case NoneValue => Skip
    case NaN => Skip
    case Finite(x) => Id(Trunc(x))
    case Infinite => Overflow
    case Text(s) => if ParseInt(s).Some? then Id(ParseInt(s).value) else Skip
    case Unconvertible => Skip
  }

  predicate Skipped(points: seq<CustomData>, i: int)
    requires 0 <= i < |points|
  {
    Convert(Candidate(points[i])) == Skip
  }

  /** Point `i` is the first one that is not skipped. */
  predicate FirstTried(points: seq<CustomData>, i: int) {
    0 <= i < |points| && !Skipped(points, i) && forall j :: 0 <= j < i ==> Skipped(points, j)
  }

  /** `extract_activity_id_from_click`, with the points list of the click (empty when there
      is no click, no "points" key or no point): the id from the first point that is not
      skipped, None when every point is skipped, OverflowError when that first point holds
      an infinite value. */
  function ExtractActivityId(points: seq<CustomData>): (r: Result<Option<int>>)
    ensures r == Ok(None) <==> forall i :: 0 <= i < |points| ==> Skipped(points, i)
    ensures r.Ok? && r.value.Some? ==>
      exists i :: FirstTried(points, i) && Convert(Candidate(points[i])) == Id(r.value.value)
    ensures r.Err? ==>
      r.error == OverflowError && exists i :: FirstTried(points, i) && Convert(Candidate(points[i])) == Overflow
  {
    if |points| == 0 then Ok(None)
    else
      match Convert(Candidate(points[0]))
      case Id(n) =>
        assert FirstTried(points, 0);
        Ok(Some(n))
      case Overflow =>
        assert FirstTried(points, 0);
        Err(OverflowError)
      case Skip =>
        var rest := points[1..];
        var r := ExtractActivityId(rest);
        assert forall i :: 1 <= i < |points| ==> points[i] == rest[i - 1];
        forall i | 1 <= i < |points| ensures Skipped(points, i) <==> Skipped(rest, i - 1) {
        }
        forall i | FirstTried(rest, i) ensures FirstTried(points, i + 1) {
          forall j | 1 <= j < i + 1 ensures Skipped(points, j) {
            assert Skipped(rest, j - 1);
          }
        }
        r
  }

  /** A click on a point whose customdata list starts with a whole number yields that number. */
  lemma ClickOnActivityRow(n: int, more: seq<Scalar>, others: seq<CustomData>)
    ensures ExtractActivityId([Sequence([Finite(n as real)] + more)] + others) == Ok(Some(n))
  {
    TruncWhole(n);
  }

  // ---------------------------------------------------------------------------
  // The explain-report cache

  /** The part of the pipeline state the report lookup uses: the trainer (absent when
      initialisation failed), the initialisation error message, and the cached reports by
      file path. */
  datatype ContextState<T, R> = ContextState(trainer: Option<T>, error: Option<string>, cache: map<string, R>)

  datatype Lookup<R> = Report(report: R) | Unavailable(message: string) | ExplainFailed(error: Error)

  const TwinUnavailable: string := "Digital twin model is not available."

  /** `get_context_activity_report`: the lookup's outcome and the state after it. `explain`
      is `trainer.explain(file_path)`; it is consulted only on a cache miss, and only a
      report it returns is cached. */
  function GetContextActivityReport<T, R>(st: ContextState<T, R>, file: string, explain: (T, string) -> Result<R>)
    : (r: (Lookup<R>, ContextState<T, R>))
    ensures st.trainer.None? ==> r.1 == st && r.0 == Unavailable(
      if st.error.Some? && |st.error.value| > 0 then st.error.value else TwinUnavailable)
    ensures st.trainer.Some? && file in st.cache ==> r == (Report(st.cache[file]), st)
    ensures r.0.ExplainFailed? ==> r.1 == st
    ensures r.0.Report? ==> file in r.1.cache && r.1.cache[file] == r.0.report
    ensures r.1.trainer == st.trainer && r.1.error == st.error
    ensures st.cache.Keys <= r.1.cache.Keys
    ensures forall f :: f in st.cache ==> r.1.cache[f] == st.cache[f]
    ensures r.1.cache.Keys <= st.cache.Keys + {file}
    ensures st.trainer.Some? && file !in st.cache && explain(st.trainer.value, file).Ok? ==>
      r.0 == Report(explain(st.trainer.value, file).value)
    ensures st.trainer.Some? && file !in st.cache && explain(st.trainer.value, file).Err? ==>
      r == (ExplainFailed(explain(st.trainer.value, file).error), st)
  {
    match st.trainer
    case None =>
      (Unavailable(if st.error.Some? && |st.error.value| > 0 then st.error.value else TwinUnavailable), st)
    case Some(trainer) =>
      if file in st.cache then (Report(st.cache[file]), st)
      else
        match explain(trainer, file)
        case Ok(report) => (Report(report), st.(cache := st.cache[file := report]))
        case Err(e) => (ExplainFailed(e), st)
  }

  /** Asking twice gives the same report, and the second time neither the state nor the
      explanation function matters: the report comes from the cache. */
  lemma SecondLookupHitsCache<T, R>(st: ContextState<T, R>, file: string,
                                    explain: (T, string) -> Result<R>, other: (T, string) -> Result<R>)
    requires GetContextActivityReport(st, file, explain).0.Report?
    ensures var (first, st1) := GetContextActivityReport(st, file, explain);
      GetContextActivityReport(st1, file, other) == (first, st1)
  {
  }

  /** A failed explanation is retried on the next request. */
  lemma FailureIsRetried<T, R>(st: ContextState<T, R>, file: string, explain: (T, string) -> Result<R>)
    requires GetContextActivityReport(st, file, explain).0.ExplainFailed?
    ensures var st1 := GetContextActivityReport(st, file, explain).1;
      st1.trainer.Some? && file !in st1.cache
  {
  }

  // ---------------------------------------------------------------------------
  // The example file

  const DefaultTcxFile: string := "1.tcx"

  /** `name.lower().endswith(".tcx")`. */
  predicate IsTcxListing(name: string) {
    EndsWith(Lower(name), ".tcx")
  }

  /** The first of `names` in string order (`sorted(names)[0]`). */
  function LeastName(names: seq<string>): (m: string)
    requires |names| > 0
    ensures m in names
    ensures forall n :: n in names ==> LexLe(m, n)
  {
    LexLeTotal(names[0], names[0]);
    if |names| == 1 then names[0]
    else
      var rest := LeastName(names[1..]);
      assert forall n :: n in names ==> n == names[0] || n in names[1..];
      LexLeTotal(names[0], rest);
      if LexLe(names[0], rest) then
        forall n | n in names[1..] ensures LexLe(names[0], n) {
          LexLeTransitive(names[0], rest, n);
        }
        names[0]
      else
        rest
  }

  /** `find_example_tcx_file`, without the directory join: FileNotFoundError when no name
      ends in ".tcx" (in any case), else the preferred file if it is one of them, else the
      first of them in string order. */
  function FindExampleTcxFile(names: seq<string>, preferred: string): (r: Result<string>)
    ensures r.Err? <==> forall n :: n in names ==> !IsTcxListing(n)
    ensures r.Err? ==> r.error.FileNotFoundError?
    ensures r.Ok? ==> r.value in names && IsTcxListing(r.value)
    ensures r.Ok? && preferred in names && IsTcxListing(preferred) ==> r.value == preferred
    ensures r.Ok? && !(preferred in names && IsTcxListing(preferred)) ==>
      forall n :: n in names && IsTcxListing(n) ==> LexLe(r.value, n)
  {
    var tcx := Filter(names, IsTcxListing);
    if |tcx| == 0 then
      assert forall n :: n in names ==> !IsTcxListing(n);
      Err(FileNotFoundError("No TCX files found"))
    else if preferred in tcx then Ok(preferred)
    else Ok(LeastName(tcx))
  }
}

=== FILE: mining.dfy ===
/** `PatternMiner`: labels each history row with wind, terrain and status
    categories, hands the labelled table to an association-rule search, and keeps
    the rules whose consequent is "Struggling". The search itself (NiaARM with
    Differential Evolution) is a parameter that returns rule strings or fails. */
module Mining {
  import opened Wrappers
  import opened Seqs
  import opened Text

  predicate StrictlyIncreasing(edges: seq<real>) {
    forall i, j :: 0 <= i < j < |edges| ==> edges[i] < edges[j]
  }

  /** pandas `cut(x, bins=edges, labels=labels)`: label k for x in (edges[k], edges[k+1]];
      a missing value or one outside (edges[0], edges[last]] has no label. */
  function Cut(x: Option<real>, edges: seq<real>, labels: seq<string>): (r: Option<string>)
    requires |edges| == |labels| + 1 && StrictlyIncreasing(edges)
    ensures r.Some? <==> x.Some? && edges[0] < x.value <= edges[|edges| - 1]
    ensures forall k :: 0 <= k < |labels| && x.Some? && edges[k] < x.value <= edges[k + 1] ==> r == Some(labels[k])
    ensures r.Some? ==> r.value in labels
    decreases |labels|
  {
    if x.None? || |labels| == 0 then None
    else if edges[0] < x.value <= edges[1] then Some(labels[0])
    else
      var r := Cut(x, edges[1..], labels[1..]);
      assert forall k :: 1 <= k < |labels| ==> edges[k] == edges[1..][k - 1] && edges[k + 1] == edges[1..][k];
      r
  }

  const WindEdges: seq<real> := [-50.0, -1.0, 1.0, 50.0]
  const WindLabels: seq<string> := ["Tailwind", "Neutral", "Headwind"]
  const TerrainEdges: seq<real> := [-1.0, 0.02, 1.0]
  const TerrainLabels: seq<string> := ["Flat", "Climb"]
  const StatusEdges: seq<real> := [-100.0, -5.0, 5.0, 100.0]
  const StatusLabels: seq<string> := ["High_Performance", "Normal", "Struggling"]

  /** The history cells the miner reads from one row. */
  datatype MinerRow = MinerRow(headwind: Option<real>, grad: Option<real>, drift: Option<real>)

  /** The history frame: its rows, and whether it has a `drift` column. */
  datatype MinerFrame = MinerFrame(rows: seq<MinerRow>, hasDrift: bool)

  /** One row of the labelled table. */
  datatype Transaction = Transaction(wind: string, terrain: string, status: string)

  function WindLabel(x: Option<real>): (r: Option<string>)
    ensures x.Some? && -50.0 < x.value <= -1.0 ==> r == Some("Tailwind")
    ensures x.Some? && -1.0 < x.value <= 1.0 ==> r == Some("Neutral")
    ensures x.Some? && 1.0 < x.value <= 50.0 ==> r == Some("Headwind")
    ensures r.Some? <==> x.Some? && -50.0 < x.value <= 50.0
  {
    Cut(x, WindEdges, WindLabels)
  }

  function TerrainLabel(x: Option<real>): (r: Option<string>)
    ensures x.Some? && -1.0 < x.value <= 0.02 ==> r == Some("Flat")
    ensures x.Some? && 0.02 < x.value <= 1.0 ==> r == Some("Climb")
    ensures r.Some? <==> x.Some? && -1.0 < x.value <= 1.0
  {
    Cut(x, TerrainEdges, TerrainLabels)
  }

  /** Without a drift column every row is "Normal". */
  function StatusLabel(x: Option<real>, hasDrift: bool): (r: Option<string>)
    ensures !hasDrift ==> r == Some("Normal")
    ensures hasDrift && x.Some? && -100.0 < x.value <= -5.0 ==> r == Some("High_Performance")
    ensures hasDrift && x.Some? && -5.0 < x.value <= 5.0 ==> r == Some("Normal")
    ensures hasDrift && x.Some? && 5.0 < x.value <= 100.0 ==> r == Some("Struggling")
    ensures hasDrift ==> (r.Some? <==> x.Some? && -100.0 < x.value <= 100.0)
  {
    if hasDrift then Cut(x, StatusEdges, StatusLabels) else Some("Normal")
  }

  /** The labelled row, or nothing when any of its three labels is undefined (`dropna`). */
  function Label(row: MinerRow, hasDrift: bool): (r: Option<Transaction>)
    ensures r.Some? <==> WindLabel(row.headwind).Some? && TerrainLabel(row.grad).Some?
                         && StatusLabel(row.drift, hasDrift).Some?
    ensures r.Some? ==> r.value == Transaction(WindLabel(row.headwind).value, TerrainLabel(row.grad).value,
                                               StatusLabel(row.drift, hasDrift).value)
  {
    match (WindLabel(row.headwind), TerrainLabel(row.grad), StatusLabel(row.drift, hasDrift))
    case (Some(w), Some(t), Some(s)) => Some(Transaction(w, t, s))
    case _ => None
  }

  /** `_discretize`: the labelled table, rows in their original order. */
  function Discretize(df: MinerFrame): (r: seq<Transaction>)
    ensures |r| <= |df.rows|
    ensures forall t :: t in r ==> exists i :: 0 <= i < |df.rows| && Label(df.rows[i], df.hasDrift) == Some(t)
    ensures forall i :: 0 <= i < |df.rows| && Label(df.rows[i], df.hasDrift).Some? ==>
      Label(df.rows[i], df.hasDrift).value in r
    ensures |r| == Count(df.rows, (row: MinerRow) => Label(row, df.hasDrift).Some?)
    ensures |df.rows| == 1 ==> r == if Label(df.rows[0], df.hasDrift).Some? then [Label(df.rows[0], df.hasDrift).value] else []
  {
    var f := (row: MinerRow) => Label(row, df.hasDrift);
    FilterMapLength(df.rows, f, (row: MinerRow) => Label(row, df.hasDrift).Some?);
    FilterMap(df.rows, f)
  }

  /** Labelling a frame split in two labels each part, and the parts stay in order, so
      a transaction appears as often as rows labelled with it. */
  lemma DiscretizeAppend(a: seq<MinerRow>, b: seq<MinerRow>, hasDrift: bool)
    ensures Discretize(MinerFrame(a + b, hasDrift)) == Discretize(MinerFrame(a, hasDrift)) + Discretize(MinerFrame(b, hasDrift))
  {
    FilterMapAppend(a, b, (row: MinerRow) => Label(row, hasDrift));
  }

  /** Every label in the table comes from its category's label list. */
  lemma DiscretizedLabelsValid(df: MinerFrame)
    ensures forall t :: t in Discretize(df) ==>
      t.wind in WindLabels && t.terrain in TerrainLabels && t.status in StatusLabels
  {
    forall t | t in Discretize(df)
      ensures t.wind in WindLabels && t.terrain in TerrainLabels && t.status in StatusLabels
    {
      var i :| 0 <= i < |df.rows| && Label(df.rows[i], df.hasDrift) == Some(t);
    }
  }

  /** `rule` is `before + "THEN" + segment + rest`, where `before` has no "THEN" and
      `rest` is empty or starts the next "THEN": `segment` is the second piece of
      `rule.split("THEN")`. */
  predicate SecondPiece(rule: string, before: string, segment: string, rest: string) {
    && rule == before + "THEN" + segment + rest
    && !Contains(before, "THEN") && !Contains(segment, "THEN")
    && (rest == [] || (|rest| >= 4 && rest[..4] == "THEN"))
  }

  /** `segment` is the second piece of `rule.split("THEN")`. */
  ghost predicate IsSecondPiece(rule: string, segment: string) {
    exists before, rest :: SecondPiece(rule, before, segment, rest)
  }

  /** The pieces SplitFirst finds around the first and second "THEN" make `segment` the
      second piece. */
  lemma SecondPieceOfSplits(rule: string, before: string, segment: string, rest: string)
    requires SplitFirst(rule, "THEN") == Some((before, segment + rest))
    requires rest == [] ==> !Contains(segment, "THEN")
    requires rest != [] ==> |rest| >= 4 && SplitFirst(segment + rest, "THEN") == Some((segment, rest[4..]))
    ensures IsSecondPiece(rule, segment)
  {
    if rest != [] {
      assert segment + rest == segment + "THEN" + rest[4..];
      assert rest == "THEN" + rest[4..];
    }
    assert SecondPiece(rule, before, segment, rest);
  }

  /** The text of a rule between its first "THEN" and the next one (or the end);
      None when there is no "THEN". This is `rule_str.split("THEN")[1]`. */
  function Consequent(rule: string): (r: Option<string>)
    ensures r.Some? <==> Contains(rule, "THEN")
    ensures r.Some? ==> !Contains(r.value, "THEN")
    ensures r.Some? ==> IsSecondPiece(rule, r.value)
  {
    match SplitFirst(rule, "THEN")
    case None => None
    case Some((before, after)) =>
      match SplitFirst(after, "THEN")
      case Some((segment, tail)) =>
        assert after == segment + ("THEN" + tail);
        SecondPieceOfSplits(rule, before, segment, "THEN" + tail);
        Some(segment)
      case None =>
        assert after == after + [];
        SecondPieceOfSplits(rule, before, after, []);
        Some(after)
  }

  /** The filter on one rule string, with both of the source's checks. */
  predicate KeepRule(rule: string) {
    && Contains(rule, "Struggling") && Contains(rule, "THEN")
    && Consequent(rule).Some? && Contains(Consequent(rule).value, "Struggling")
  }

  /** The first check is implied by the second: only the consequent decides. */
  lemma KeepRuleConsequentDecides(rule: string)
    ensures KeepRule(rule) <==> Consequent(rule).Some? && Contains(Consequent(rule).value, "Struggling")
  {
    if Consequent(rule).Some? && Contains(Consequent(rule).value, "Struggling") {
      var after := SplitFirst(rule, "THEN").value.1;
      var before := SplitFirst(rule, "THEN").value.0;
      var seg := Consequent(rule).value;
      if SplitFirst(after, "THEN").Some? {
        ContainedInPart(seg, "THEN" + SplitFirst(after, "THEN").value.1, "Struggling");
        assert after == seg + ("THEN" + SplitFirst(after, "THEN").value.1);
      }
      ContainedInPart(before + "THEN", after, "Struggling");
      assert rule == (before + "THEN") + after;
    }
  }

  /** For a rule with a single "THEN", the filter keeps it exactly when "Struggling"
      occurs after the "THEN". */
  lemma KeepRuleSingleThen(a: string, b: string)
    requires !Contains(a, "THEN") && !Contains(b, "THEN")
    ensures KeepRule(a + "THEN" + b) <==> Contains(b, "Struggling")
  {
    SplitFirstJoinUnbordered(a, "THEN", b);
    assert Consequent(a + "THEN" + b) == Some(b);
    KeepRuleConsequentDecides(a + "THEN" + b);
  }

  /** A rule with "Struggling" after its "THEN" is kept. */
  lemma KeptRuleExample()
    ensures KeepRule("Wind(Headwind) " + "THEN" + " Status(Struggling)")
  {
    var a, b := "Wind(Headwind) ", " Status(Struggling)";
    MissingCharExcludes(a, "THEN", 'T');
    MissingCharExcludes(b, "THEN", 'T');
    assert b[8..18] == "Struggling";
    assert OccursAt(b, "Struggling", 8);
    KeepRuleSingleThen(a, b);
    var r := a + "THEN" + b;
    assert KeepRule(r);
  }

  /** A rule with "Struggling" only before its "THEN" is dropped. */
  lemma DroppedRuleExample()
    ensures !KeepRule("Status(Struggling) " + "THEN" + " Wind(Headwind)")
  {
    var a, b := "Status(Struggling) ", " Wind(Headwind)";
    MissingCharExcludes(a, "THEN", 'T');
    MissingCharExcludes(b, "THEN", 'T');
    MissingCharExcludes(b, "Struggling", 'S');
    KeepRuleSingleThen(a, b);
    var r := a + "THEN" + b;
    assert !KeepRule(r);
  }

  const TempFile: string := "temp_mining_data.csv"

  /** `discover_rules`. The working directory is the set of file names in it; `search`
      is the rule search over the labelled table, None when it raises. An empty table
      returns [] without touching the directory; otherwise the temporary CSV is written
      and is gone again on every exit. */
  function DiscoverRules(cwd: set<string>, df: MinerFrame, search: seq<Transaction> -> Option<seq<string>>)
    : (r: (seq<string>, set<string>))
    ensures |Discretize(df)| == 0 ==> r == ([], cwd)
    ensures |Discretize(df)| > 0 ==> r.1 == cwd - {TempFile}
    ensures |Discretize(df)| > 0 && search(Discretize(df)).None? ==> r.0 == []
    ensures |Discretize(df)| > 0 && search(Discretize(df)).Some? ==> r.0 == Filter(search(Discretize(df)).value, KeepRule)
    ensures forall s :: s in r.0 ==> KeepRule(s)
  {
    var table := Discretize(df);
    if |table| == 0 then ([], cwd)
    else
      var withTemp := cwd + {TempFile};
      var rules := match search(table)
        case None => []
        case Some(found) => Filter(found, KeepRule);
      (rules, withTemp - {TempFile})
  }

  /** The kept rules are in the order the search returned them. */
  lemma DiscoverRulesKeepsOrder(cwd: set<string>, df: MinerFrame, search: seq<Transaction> -> Option<seq<string>>)
    requires |Discretize(df)| > 0 && search(Discretize(df)).Some?
    ensures IsSubsequence(DiscoverRules(cwd, df, search).0, search(Discretize(df)).value)
  {
    FilterIsSubsequence(search(Discretize(df)).value, KeepRule);
  }
}

=== FILE: physics.dfy ===
/** `PhysicsEngine.calculate_virtual_power`: adds travel bearing, headwind,
    smoothed elevation, gradient and the three power terms to an ingested frame.
    numpy's trigonometric functions are not computed here; they come in as a
    `Trig` record whose types carry the only facts the model uses (their ranges). */
module Physics {
  import opened Wrappers
  import opened Seqs
  import opened Ingest

  const Pi: real := 3.141592653589793

  function Radians(d: real): real { d * Pi / 180.0 }
  function Degrees(x: real): real { x * 180.0 / Pi }

  type Unit = x: real | -1.0 <= x <= 1.0
  type PosUnit = x: real | 0.0 < x <= 1.0 witness 1.0

  /** `np.sin`, `np.cos` and `np.arctan2` on radians, and sine and cosine of
      `np.arctan(grad)` (the latter is positive for every finite gradient). */
  datatype Trig = Trig(
    sin: real -> Unit,
    cos: real -> Unit,
    atan2: (real, real) -> real,
    sinAtan: real -> Unit,
    cosAtan: real -> PosUnit)

  const G: real := 9.81
  const Rho: real := 1.225
  const CdA: real := 0.32
  const RollingCoefficient: real := 0.005

  /** The engine's only free parameter: rider plus bike mass in kg. */
  datatype Engine = Engine(mass: real)

  function NewEngine(riderMass: real, bikeMass: real): (e: Engine)
    ensures e.mass == riderMass + bikeMass
  {
    Engine(riderMass + bikeMass)
  }

  /** The defaults: a 75 kg rider on a 10 kg bike. */
  const DefaultEngine: Engine := NewEngine(75.0, 10.0)

  /** Python's float `v % 360`: the remainder with the sign of the divisor. */
  function FMod360(v: real): (r: real)
    ensures 0.0 <= r < 360.0
    ensures 0.0 <= v < 360.0 ==> r == v
    ensures ((v - r) / 360.0).Floor as real == (v - r) / 360.0
  {
    var k := (v / 360.0).Floor;
    var r := v - 360.0 * k as real;
    assert (v - r) / 360.0 == k as real;
    r
  }

  /** The initial compass bearing from the previous fix to this one, in degrees in
      [0, 360); missing when either fix lacks a coordinate. */
  function RawBearing(t: Trig, lat1: Option<real>, lon1: Option<real>, lat2: Option<real>, lon2: Option<real>): (r: Option<real>)
    ensures r.Some? <==> lat1.Some? && lon1.Some? && lat2.Some? && lon2.Some?
    ensures r.Some? ==> 0.0 <= r.value < 360.0
  {
    if lat1.Some? && lon1.Some? && lat2.Some? && lon2.Some? then
      var p1 := Radians(lat1.value);
      var p2 := Radians(lat2.value);
      var dLon := Radians(lon2.value) - Radians(lon1.value);
      var x := t.sin(dLon) * t.cos(p2);
      var y := t.cos(p1) * t.sin(p2) - t.sin(p1) * t.cos(p2) * t.cos(dLon);
      Some(FMod360(Degrees(t.atan2(x, y)) + 360.0))
    else None
  }

  /** Both fix `i - 1` and fix `i` have a latitude and a longitude. */
  predicate FixesAt(lats: seq<Option<real>>, lons: seq<Option<real>>, i: int)
    requires |lats| == |lons| && 1 <= i < |lats|
  {
    lats[i - 1].Some? && lons[i - 1].Some? && lats[i].Some? && lons[i].Some?
  }

  /** How the bearing column follows the fixes: a row whose fix and previous fix are both
      complete has the bearing between them; any other row takes the next row's value
      (the last such row has none); row 0 has no previous fix and takes row 1's value. */
  predicate BackFilledBearings(t: Trig, lats: seq<Option<real>>, lons: seq<Option<real>>, r: seq<Option<real>>)
    requires |lats| == |lons| == |r|
  {
    && (forall i :: 1 <= i < |r| && FixesAt(lats, lons, i) ==>
          r[i] == RawBearing(t, lats[i - 1], lons[i - 1], lats[i], lons[i]))
    && (|r| >= 2 ==> r[0] == r[1])
    && (forall i :: 1 <= i < |r| - 1 && !FixesAt(lats, lons, i) ==> r[i] == r[i + 1])
    && (|r| > 0 && (|r| == 1 || !FixesAt(lats, lons, |r| - 1)) ==> r[|r| - 1].None?)
  }

  /** The `bearing` column: raw bearings from the shifted coordinates, back-filled. */
  function Bearings(t: Trig, lats: seq<Option<real>>, lons: seq<Option<real>>): (r: seq<Option<real>>)
    requires |lats| == |lons|
    ensures |r| == |lats|
    ensures forall i :: 0 <= i < |r| && r[i].Some? ==> 0.0 <= r[i].value < 360.0
    ensures BackFilledBearings(t, lats, lons, r)
  {
    var raw := RawBearings(t, lats, lons);
    var r := BFill(raw);
    forall i | 0 <= i < |r| && r[i].Some? ensures 0.0 <= r[i].value < 360.0 {
      BearingFilledInRange(raw, i);
    }
    forall i | 1 <= i < |r| && FixesAt(lats, lons, i)
      ensures r[i] == RawBearing(t, lats[i - 1], lons[i - 1], lats[i], lons[i])
    {
      assert raw[i].Some?;
    }
    forall i | 1 <= i < |r| - 1 && !FixesAt(lats, lons, i) ensures r[i] == r[i + 1] {
      assert raw[i].None?;
    }
    r
  }

  /** The bearing of every row from the previous row's fix, before back-filling. */
  function RawBearings(t: Trig, lats: seq<Option<real>>, lons: seq<Option<real>>): (raw: seq<Option<real>>)
    requires |lats| == |lons|
    ensures |raw| == |lats|
    ensures |raw| > 0 ==> raw[0].None?
    ensures forall i :: 1 <= i < |raw| ==> raw[i] == RawBearing(t, lats[i - 1], lons[i - 1], lats[i], lons[i])
    ensures forall i :: 1 <= i < |raw| ==> (raw[i].Some? <==> FixesAt(lats, lons, i))
    ensures forall k :: 0 <= k < |raw| && raw[k].Some? ==> 0.0 <= raw[k].value < 360.0
  {
    var prevLat := Shift(lats);
    var prevLon := Shift(lons);
    seq(|lats|, i requires 0 <= i < |lats| => RawBearing(t, prevLat[i], prevLon[i], lats[i], lons[i]))
  }

  /** Back-filling only copies values already in the column, so it keeps them in [0, 360). */
  lemma {:induction false} BearingFilledInRange(raw: seq<Option<real>>, i: nat)
    requires i < |raw|
    requires forall k :: 0 <= k < |raw| && raw[k].Some? ==> 0.0 <= raw[k].value < 360.0
    requires BFill(raw)[i].Some?
    ensures 0.0 <= BFill(raw)[i].value < 360.0
    decreases |raw| - i
  {
    if raw[i].None? {
      BearingFilledInRange(raw, i + 1);
    }
  }

  lemma ScaledByUnit(a: real, c: real)
    requires -1.0 <= c <= 1.0
    ensures Abs(a * c) <= Abs(a)
  {
    if a >= 0.0 {
      assert a * c <= a * 1.0;
      assert a * c >= a * -1.0;
    } else {
      assert a * c >= a * 1.0;
      assert a * c <= a * -1.0;
    }
  }

  /** The wind component along the direction of travel; never stronger than the wind. */
  function Headwind(t: Trig, windSpeed: Option<real>, windDir: Option<real>, bearing: Option<real>): (r: Option<real>)
    ensures r.Some? <==> windSpeed.Some? && windDir.Some? && bearing.Some?
    ensures r.Some? ==> Abs(r.value) <= Abs(windSpeed.value)
  {
    if windSpeed.Some? && windDir.Some? && bearing.Some? then
      var c := t.cos(Radians(windDir.value - bearing.value));
      ScaledByUnit(windSpeed.value, c);
      Some(windSpeed.value * c)
    else None
  }

  const MaxGrad: real := 0.25

  /** `ele_smooth.diff() / dist.diff()` in floating point, then `fillna(0).clip(-0.25, 0.25)`:
      a missing difference or 0/0 gives 0, a climb or drop over no distance is an infinite
      ratio and saturates at the bound, and any other ratio is clipped. */
  function GradAt(dEle: Option<real>, dDist: Option<real>): (r: real)
    ensures -MaxGrad <= r <= MaxGrad
    ensures r > 0.0 <==> (dEle.Some? && dDist.Some? &&
                          if dDist.value == 0.0 then dEle.value > 0.0 else dEle.value / dDist.value > 0.0)
    ensures r < 0.0 <==> (dEle.Some? && dDist.Some? &&
                          if dDist.value == 0.0 then dEle.value < 0.0 else dEle.value / dDist.value < 0.0)
    ensures dEle.Some? && dDist.Some? && dDist.value != 0.0 && -MaxGrad <= dEle.value / dDist.value <= MaxGrad
      ==> r == dEle.value / dDist.value
    ensures dEle.Some? && dDist.Some? && (dDist.value == 0.0 || Abs(dEle.value / dDist.value) >= MaxGrad)
      ==> Abs(r) == MaxGrad || (dEle.value == 0.0 && r == 0.0)
  {
    if dEle.None? || dDist.None? then 0.0
    else if dDist.value == 0.0 then
      (if dEle.value > 0.0 then MaxGrad else if dEle.value < 0.0 then -MaxGrad else 0.0)
    else Clip(dEle.value / dDist.value, -MaxGrad, MaxGrad)
  }

  /** The `grad` column; the first row has no predecessor and reads 0. */
  function Grads(eleSmooth: seq<Option<real>>, dist: seq<Option<real>>): (r: seq<real>)
    requires |eleSmooth| == |dist|
    ensures |r| == |dist|
    ensures |r| > 0 ==> r[0] == 0.0
    ensures forall i :: 0 <= i < |r| ==> -MaxGrad <= r[i] <= MaxGrad
    ensures forall i :: 1 <= i < |r| ==> r[i] == GradAt(Diff(eleSmooth)[i], Diff(dist)[i])
  {
    var dEle := Diff(eleSmooth);
    var dDist := Diff(dist);
    seq(|dist|, i requires 0 <= i < |dist| => GradAt(dEle[i], dDist[i]))
  }

  /** The power terms of one row, in watts; a term is missing when an input it needs is. */
  datatype Powers = Powers(aero: Option<real>, grav: Option<real>, roll: Option<real>, total: Option<real>)

  /** `0.5 * rho * cd_a * airspeed**2 * speed`: never negative while moving forward. */
  function AeroPower(v: real, h: real): (p: real)
    ensures v >= 0.0 ==> p >= 0.0
    ensures v == 0.0 ==> p == 0.0
  {
    var air := v + h;
    AeroNonNegative(air, v);
    0.5 * Rho * CdA * (air * air) * v
  }

  /** `mass * g * sin(arctan(grad)) * speed`: at most the full weight times the speed. */
  function GravPower(e: Engine, t: Trig, v: real, grad: real): (p: real)
    ensures e.mass >= 0.0 && v >= 0.0 ==> Abs(p) <= e.mass * G * v
  {
    var k := e.mass * G;
    GravBound(k, t.sinAtan(grad), v);
    k * t.sinAtan(grad) * v
  }

  /** `mass * g * 0.005 * cos(arctan(grad)) * speed`: between zero and its flat-road value. */
  function RollPower(e: Engine, t: Trig, v: real, grad: real): (p: real)
    ensures e.mass >= 0.0 && v >= 0.0 ==> 0.0 <= p <= e.mass * G * RollingCoefficient * v
  {
    RollBound(e.mass, t.cosAtan(grad), v);
    e.mass * G * RollingCoefficient * t.cosAtan(grad) * v
  }

  /** The power terms of one row and `(p_aero + p_grav + p_roll).clip(lower=0)`. */
  function PowersAt(e: Engine, t: Trig, speed: Option<real>, headwind: Option<real>, grad: real): (p: Powers)
    ensures p.aero.Some? <==> speed.Some? && headwind.Some?
    ensures p.grav.Some? <==> speed.Some?
    ensures p.roll.Some? <==> speed.Some?
    ensures p.total.Some? <==> p.aero.Some?
    ensures p.total.Some? ==> p.total.value >= 0.0
    ensures p.total.Some? ==>
      var sum := p.aero.value + p.grav.value + p.roll.value;
      (sum >= 0.0 ==> p.total.value == sum) && (sum < 0.0 ==> p.total.value == 0.0)
    ensures speed.Some? && speed.value >= 0.0 && e.mass >= 0.0 ==>
      0.0 <= p.roll.value <= e.mass * G * RollingCoefficient * speed.value
    ensures speed.Some? && speed.value >= 0.0 && e.mass >= 0.0 ==>
      Abs(p.grav.value) <= e.mass * G * speed.value
    ensures p.aero.Some? && speed.value >= 0.0 ==> p.aero.value >= 0.0
  {
    match speed
    case None => Powers(None, None, None, None)
    case Some(v) =>
      var grav := GravPower(e, t, v, grad);
      var roll := RollPower(e, t, v, grad);
      match headwind
      case None => Powers(None, Some(grav), Some(roll), None)
      case Some(h) =>
        var aero := AeroPower(v, h);
        var sum := aero + grav + roll;
        Powers(Some(aero), Some(grav), Some(roll), Some(if sum < 0.0 then 0.0 else sum))
  }

  lemma GravBound(k: real, s: real, v: real)
    requires -1.0 <= s <= 1.0
    ensures k >= 0.0 && v >= 0.0 ==> Abs(k * s * v) <= k * v
  {
    ScaledByUnit(k * v, s);
    assert k * s * v == (k * v) * s;
  }

  lemma RollBound(m: real, c: real, v: real)
    requires 0.0 < c <= 1.0
    ensures m >= 0.0 && v >= 0.0 ==>
      0.0 <= m * G * RollingCoefficient * c * v <= m * G * RollingCoefficient * v
  {
    if m >= 0.0 && v >= 0.0 {
      var k := m * G * RollingCoefficient;
      assert k >= 0.0;
      assert k * c >= 0.0;
      assert k * c <= k;
      assert k * c * v <= k * v;
    }
  }

  lemma AeroNonNegative(air: real, v: real)
    ensures v >= 0.0 ==> 0.5 * Rho * CdA * (air * air) * v >= 0.0
  {
    assert air * air >= 0.0;
  }

  /** A frame row after `calculate_virtual_power`: the ingested sample, untouched, plus
      the columns the engine adds. */
  datatype PhysRow = PhysRow(
    raw: Sample,
    prevLat: Option<real>, prevLon: Option<real>,
    bearing: Option<real>, headwind: Option<real>,
    eleSmooth: Option<real>, grad: real,
    pAero: Option<real>, pGrav: Option<real>, pRoll: Option<real>,
    virtualPower: Option<real>)

  /** One output row from its input sample and the column values computed for it. */
  function RowAt(e: Engine, t: Trig, s: Sample, prevLat: Option<real>, prevLon: Option<real>,
                 bearing: Option<real>, eleSmooth: Option<real>, grad: real): (r: PhysRow)
    requires bearing.Some? ==> 0.0 <= bearing.value < 360.0
    ensures RowPhysics(e, t, r)
    ensures r.raw == s && r.prevLat == prevLat && r.prevLon == prevLon
    ensures r.bearing == bearing && r.eleSmooth == eleSmooth && r.grad == grad
    ensures r.headwind.Some? ==> s.windSpeedMps.Some? && Abs(r.headwind.value) <= Abs(s.windSpeedMps.value)
    ensures r.virtualPower.Some? <==> s.speedMps.Some? && r.headwind.Some?
    ensures r.virtualPower.Some? ==> r.virtualPower.value >= 0.0
  {
    var hw := Headwind(t, s.windSpeedMps, s.windDir, bearing);
    var p := PowersAt(e, t, s.speedMps, hw, grad);
    PhysRow(s, prevLat, prevLon, bearing, hw, eleSmooth, grad, p.aero, p.grav, p.roll, p.total)
  }

  function Lats(df: seq<Sample>): (c: seq<Option<real>>)
    ensures |c| == |df| && forall i :: 0 <= i < |df| ==> c[i] == df[i].lat
  {
    seq(|df|, i requires 0 <= i < |df| => df[i].lat)
  }

  function Lons(df: seq<Sample>): (c: seq<Option<real>>)
    ensures |c| == |df| && forall i :: 0 <= i < |df| ==> c[i] == df[i].lon
  {
    seq(|df|, i requires 0 <= i < |df| => df[i].lon)
  }

  function Eles(df: seq<Sample>): (c: seq<Option<real>>)
    ensures |c| == |df| && forall i :: 0 <= i < |df| ==> c[i] == df[i].ele
  {
    seq(|df|, i requires 0 <= i < |df| => df[i].ele)
  }

  function Dists(df: seq<Sample>): (c: seq<Option<real>>)
    ensures |c| == |df| && forall i :: 0 <= i < |df| ==> c[i] == df[i].dist
  {
    seq(|df|, i requires 0 <= i < |df| => df[i].dist)
  }

  /** The column values row `i` of the output takes from the frame-wide columns: the
      back-filled bearing, the smoothed elevation and the clipped gradient. */
  predicate ColumnsAt(t: Trig, df: seq<Sample>, i: int, r: PhysRow)
    requires 0 <= i < |df|
  {
    && r.bearing == Bearings(t, Lats(df), Lons(df))[i]
    && r.eleSmooth == RollingMean10(Eles(df))[i]
    && r.grad == Grads(RollingMean10(Eles(df)), Dists(df))[i]
  }

  /** `calculate_virtual_power`: only adds columns, row for row. */
  function CalculateVirtualPower(e: Engine, t: Trig, df: seq<Sample>): (r: seq<PhysRow>)
    ensures |r| == |df|
    ensures forall i :: 0 <= i < |r| ==> RowFacts(df[i], r[i])
    ensures forall i :: 0 <= i < |r| ==> RowPhysics(e, t, r[i]) && ColumnsAt(t, df, i, r[i])
    ensures |r| > 0 ==> r[0].prevLat.None? && r[0].prevLon.None? && r[0].grad == 0.0
    ensures forall i :: 1 <= i < |r| ==> r[i].prevLat == df[i - 1].lat && r[i].prevLon == df[i - 1].lon
  {
    var lats := Lats(df);
    var lons := Lons(df);
    var bearing := Bearings(t, lats, lons);
    var eleSmooth := RollingMean10(Eles(df));
    var grad := Grads(eleSmooth, Dists(df));
    var r := Assemble(e, t, df, Shift(lats), Shift(lons), bearing, eleSmooth, grad);
    forall i | 0 <= i < |r| ensures RowPhysics(e, t, r[i]) && ColumnsAt(t, df, i, r[i]) {
      assert r[i].bearing == bearing[i] && r[i].eleSmooth == eleSmooth[i] && r[i].grad == grad[i];
    }
    forall i | 1 <= i < |r| ensures r[i].prevLat == df[i - 1].lat && r[i].prevLon == df[i - 1].lon {
      assert Shift(lats)[i] == lats[i - 1] && Shift(lons)[i] == lons[i - 1];
    }
    r
  }

  /** A frame recorded standing still needs no power: every defined virtual power is 0,
      whatever the wind, the gradient or the mass. */
  lemma NoPowerAtRest(e: Engine, t: Trig, df: seq<Sample>)
    requires forall i :: 0 <= i < |df| ==> df[i].speedMps == Some(0.0)
    ensures forall i :: 0 <= i < |df| ==> var r := CalculateVirtualPower(e, t, df)[i];
      r.virtualPower.Some? ==> r.virtualPower.value == 0.0
  {
    var r := CalculateVirtualPower(e, t, df);
    forall i | 0 <= i < |df| && r[i].virtualPower.Some? ensures r[i].virtualPower.value == 0.0 {
      assert RowPhysics(e, t, r[i]);
      PowerAtRest(e, t, r[i].headwind, r[i].grad);
    }
  }

  lemma PowerAtRest(e: Engine, t: Trig, headwind: Option<real>, grad: real)
    ensures var p := PowersAt(e, t, Some(0.0), headwind, grad);
      p.total.Some? ==> p.total.value == 0.0
  {
    assert GravPower(e, t, 0.0, grad) == 0.0;
    assert RollPower(e, t, 0.0, grad) == 0.0;
  }

  /** How a row's headwind and power columns follow from its own cells: the wind
      component along its bearing, and the three terms and their clipped sum at its
      speed, headwind and gradient. */
  predicate RowPhysics(e: Engine, t: Trig, r: PhysRow) {
    && r.headwind == Headwind(t, r.raw.windSpeedMps, r.raw.windDir, r.bearing)
    && var p := PowersAt(e, t, r.raw.speedMps, r.headwind, r.grad);
       r.pAero == p.aero && r.pGrav == p.grav && r.pRoll == p.roll && r.virtualPower == p.total
  }

  /** What every output row keeps of its input sample. */
  predicate RowFacts(s: Sample, r: PhysRow) {
    && r.raw == s
    && (r.bearing.Some? ==> 0.0 <= r.bearing.value < 360.0)
    && (r.headwind.Some? ==> s.windSpeedMps.Some? && Abs(r.headwind.value) <= Abs(s.windSpeedMps.value))
    && -MaxGrad <= r.grad <= MaxGrad
    && (r.virtualPower.Some? <==> s.speedMps.Some? && r.headwind.Some?)
    && (r.virtualPower.Some? ==> r.virtualPower.value >= 0.0)
  }

  function Assemble(e: Engine, t: Trig, df: seq<Sample>, prevLat: seq<Option<real>>, prevLon: seq<Option<real>>,
                    bearing: seq<Option<real>>, eleSmooth: seq<Option<real>>, grad: seq<real>): (r: seq<PhysRow>)
    requires |prevLat| == |prevLon| == |bearing| == |eleSmooth| == |grad| == |df|
    requires forall i :: 0 <= i < |df| && bearing[i].Some? ==> 0.0 <= bearing[i].value < 360.0
    requires forall i :: 0 <= i < |df| ==> -MaxGrad <= grad[i] <= MaxGrad
    ensures |r| == |df|
    ensures forall i :: 0 <= i < |df| ==> RowFacts(df[i], r[i])
    ensures forall i :: 0 <= i < |df| ==> r[i].prevLat == prevLat[i] && r[i].prevLon == prevLon[i] && r[i].grad == grad[i]
    ensures forall i :: 0 <= i < |df| ==> r[i].bearing == bearing[i] && r[i].eleSmooth == eleSmooth[i]
    ensures forall i :: 0 <= i < |df| ==> RowPhysics(e, t, r[i])
  {
    seq(|df|, i requires 0 <= i < |df| =>
      RowAt(e, t, df[i], prevLat[i], prevLon[i], bearing[i], eleSmooth[i], grad[i]))
  }
}

=== FILE: rationale.dfy ===
/** The wording of `explain`'s three rationales and of `_generate_conclusion`,
    which picks the rationales that name a negative factor by searching their
    text for "NEGATIVE", "HIGH" or "STRESS". */
module Rationale {
  import opened Wrappers
  import opened Seqs
  import opened Text

  /** `f"{x:.{d}f}"`, which is outside the model. */
  type Formatter = (real, nat) -> string

  /** Python float formatting writes digits, a sign, a point, "inf" or "nan": never an
      upper-case letter, and never nothing. */
  ghost predicate PlainNumbers(fmt: Formatter) {
    forall x: real, d: nat :: |fmt(x, d)| > 0 && forall i :: 0 <= i < |fmt(x, d)| ==> !IsUpperAscii(fmt(x, d)[i])
  }

  const WindAssisted: string := "ASSISTED: Mostly tailwinds."
  const WindNeutral: string := "NEUTRAL: Mostly calm winds."
  const TerrainNeutral: string := "NEUTRAL: Terrain was mostly flat/rolling."
  const AtmosphereNeutral: string := "NEUTRAL: Optimal temperatures."
  const Perfect: string := "Perfect Conditions. " + "Performance reflects raw fitness."

  function HeadwindText(fmt: Formatter, minutes: real, pct: real): string {
    "NEGATIVE" + ": Battled Headwinds for " + fmt(minutes, 0) + " mins (" + fmt(pct, 0) + "% of ride)."
  }

  function ClimbText(fmt: Formatter, minutes: real): string {
    "HIGH" + " RESISTANCE: " + fmt(minutes, 0) + " mins of steep climbing."
  }

  function HeatText(fmt: Formatter, penalty: real): string {
    "HEAT " + "STRESS" + (": High Temp/Humidity raised HR by " + fmt(penalty, 1) + " bpm.")
  }

  function CoolingText(fmt: Formatter, penalty: real): string {
    "COOLING EFFECT:" + " " + "Low Temps lowered HR by " + fmt(Abs(penalty), 1) + " bpm."
  }

  /** The wind rationale: NEGATIVE above 25% headwind, ASSISTED under 5% with a mean
      headwind below -1 m/s (a NaN mean compares false), NEUTRAL otherwise. */
  function WindRationale(fmt: Formatter, minutes: real, pct: real, meanHeadwind: Option<real>): (v: string)
    ensures pct > 25.0 ==> StartsWith(v, "NEGATIVE") && v == HeadwindText(fmt, minutes, pct)
    ensures pct <= 25.0 ==> v == WindAssisted || v == WindNeutral
    ensures v == WindAssisted <==> pct < 5.0 && meanHeadwind.Some? && meanHeadwind.value < -1.0
  {
    if pct > 25.0 then HeadwindText(fmt, minutes, pct)
    else if pct < 5.0 && meanHeadwind.Some? && meanHeadwind.value < -1.0 then WindAssisted
    else WindNeutral
  }

  /** The terrain rationale: HIGH RESISTANCE above 20 minutes of climbing. */
  function TerrainRationale(fmt: Formatter, minutes: real): (v: string)
    ensures minutes > 20.0 ==> StartsWith(v, "HIGH") && v == ClimbText(fmt, minutes)
    ensures minutes <= 20.0 <==> v == TerrainNeutral
  {
    if minutes > 20.0 then HighStartsText(fmt, minutes); ClimbText(fmt, minutes) else TerrainNeutral
  }

  lemma HighStartsText(fmt: Formatter, minutes: real)
    ensures StartsWith(ClimbText(fmt, minutes), "HIGH")
    ensures ClimbText(fmt, minutes) != TerrainNeutral
  {
    assert ClimbText(fmt, minutes)[0] == 'H';
  }

  /** The atmosphere rationale: HEAT STRESS above +3 bpm, COOLING EFFECT below -3 bpm. */
  function AtmosphereRationale(fmt: Formatter, penalty: real): (v: string)
    ensures penalty > 3.0 ==> v == HeatText(fmt, penalty)
    ensures penalty < -3.0 ==> v == CoolingText(fmt, penalty)
    ensures -3.0 <= penalty <= 3.0 ==> v == AtmosphereNeutral
  {
    if penalty > 3.0 then HeatText(fmt, penalty)
    else if penalty < -3.0 then CoolingText(fmt, penalty)
    else AtmosphereNeutral
  }

  /** The keywords `_generate_conclusion` looks for. */
  predicate Flagged(v: string) {
    Contains(v, "NEGATIVE") || Contains(v, "HIGH") || Contains(v, "STRESS")
  }

  /** `_generate_conclusion`: the flagged rationales joined with " | ", or the "perfect
      conditions" sentence when none is flagged. */
  function GenerateConclusion(rationales: seq<string>): (r: string)
    ensures r == Perfect <==> forall i :: 0 <= i < |rationales| ==> !Flagged(rationales[i])
    ensures forall i :: 0 <= i < |rationales| && Flagged(rationales[i]) ==> Flagged(r)
    ensures r != Perfect ==> r == Join(Filter(rationales, Flagged), " | ")
  {
    var factors := Filter(rationales, Flagged);
    PerfectUnflagged();
    if |factors| == 0 then
      assert forall i :: 0 <= i < |rationales| ==> !Flagged(rationales[i]) by {
        forall i | 0 <= i < |rationales| ensures !Flagged(rationales[i]) {
          assert rationales[i] in rationales;
        }
      }
      Perfect
    else
      var r := Join(factors, " | ");
      assert factors[0] in factors;
      FlaggedPrefix(r, factors[0]);
      r
  }

  /** Adding one more rationale at the end: an unflagged one changes nothing, a flagged
      one is appended after " | ", or becomes the whole conclusion when it is the first
      factor. With the empty case this determines the conclusion of every list. */
  lemma ConclusionAppend(rationales: seq<string>, x: string)
    ensures GenerateConclusion([]) == Perfect
    ensures !Flagged(x) ==> GenerateConclusion(rationales + [x]) == GenerateConclusion(rationales)
    ensures Flagged(x) && GenerateConclusion(rationales) == Perfect ==> GenerateConclusion(rationales + [x]) == x
    ensures Flagged(x) && GenerateConclusion(rationales) != Perfect ==>
      GenerateConclusion(rationales + [x]) == GenerateConclusion(rationales) + " | " + x
  {
    if Flagged(x) {
      AppendFactor(rationales, x);
    } else {
      AppendNonFactor(rationales, x);
    }
  }

  lemma AppendNonFactor(rationales: seq<string>, x: string)
    requires !Flagged(x)
    ensures GenerateConclusion(rationales + [x]) == GenerateConclusion(rationales)
  {
    FilterAppend(rationales, [x], Flagged);
    assert Filter([x], Flagged) == [];
    assert Filter(rationales + [x], Flagged) == Filter(rationales, Flagged);
    ConclusionOfFactors(rationales);
    ConclusionOfFactors(rationales + [x]);
  }

  lemma AppendFactor(rationales: seq<string>, x: string)
    requires Flagged(x)
    ensures GenerateConclusion(rationales) == Perfect ==> GenerateConclusion(rationales + [x]) == x
    ensures GenerateConclusion(rationales) != Perfect ==>
      GenerateConclusion(rationales + [x]) == GenerateConclusion(rationales) + " | " + x
  {
    var factors := Filter(rationales, Flagged);
    FilterAppend(rationales, [x], Flagged);
    assert Filter([x], Flagged) == [x];
    assert Filter(rationales + [x], Flagged) == factors + [x];
    ConclusionOfFactors(rationales);
    ConclusionOfFactors(rationales + [x]);
    PerfectIffNoFactors(rationales);
    if |factors| > 0 {
      JoinAppend(factors, x, " | ");
    } else {
      assert factors + [x] == [x];
      JoinAppend([x], x, " | ");
    }
  }

  lemma ConclusionOfFactors(rationales: seq<string>)
    ensures var factors := Filter(rationales, Flagged);
      GenerateConclusion(rationales) == if |factors| == 0 then Perfect else Join(factors, " | ")
  {
  }

  lemma PerfectIffNoFactors(rationales: seq<string>)
    ensures GenerateConclusion(rationales) == Perfect <==> |Filter(rationales, Flagged)| == 0
  {
    var factors := Filter(rationales, Flagged);
    if |factors| > 0 {
      assert factors[0] in rationales;
      var k :| 0 <= k < |rationales| && rationales[k] == factors[0];
      assert Flagged(rationales[k]);
    }
  }

  lemma FlaggedPrefix(r: string, p: string)
    requires StartsWith(r, p) && Flagged(p)
    ensures Flagged(r)
  {
    assert r == p + r[|p|..];
    if Contains(p, "NEGATIVE") {
      ContainedInPart(p, r[|p|..], "NEGATIVE");
    } else if Contains(p, "HIGH") {
      ContainedInPart(p, r[|p|..], "HIGH");
    } else {
      ContainedInPart(p, r[|p|..], "STRESS");
    }
  }

  lemma PerfectUnflagged()
    ensures !Flagged(Perfect)
  {
    PerfectLacksNegative();
    PerfectLacksHigh();
    PerfectLacksStress();
  }

  lemma PerfectLacksNegative() ensures !Contains(Perfect, "NEGATIVE") { MissingCharExcludes(Perfect, "NEGATIVE", 'N'); }
  lemma PerfectLacksHigh() ensures !Contains(Perfect, "HIGH") { MissingCharExcludes(Perfect, "HIGH", 'H'); }
  lemma PerfectLacksStress() ensures !Contains(Perfect, "STRESS") { MissingCharExcludes(Perfect, "STRESS", 'S'); }

  /** The calm rationales carry none of the keywords. */
  lemma CalmTextsUnflagged()
    ensures !Flagged(WindAssisted) && !Flagged(WindNeutral)
    ensures !Flagged(TerrainNeutral) && !Flagged(AtmosphereNeutral)
  {
    WindAssistedUnflagged();
    WindNeutralUnflagged();
    TerrainNeutralUnflagged();
    AtmosphereNeutralUnflagged();
  }

  lemma WindAssistedUnflagged() ensures !Flagged(WindAssisted) {
    WindAssistedLacksNegative();
    WindAssistedLacksHigh();
    WindAssistedLacksStress();
  }

  lemma WindAssistedLacksNegative() ensures !Contains(WindAssisted, "NEGATIVE") { MissingCharExcludes(WindAssisted, "NEGATIVE", 'N'); }
  lemma WindAssistedLacksHigh() ensures !Contains(WindAssisted, "HIGH") { MissingCharExcludes(WindAssisted, "HIGH", 'H'); }
  lemma WindAssistedLacksStress() ensures !Contains(WindAssisted, "STRESS") { MissingCharExcludes(WindAssisted, "STRESS", 'R'); }

  lemma WindNeutralUnflagged() ensures !Flagged(WindNeutral) {
    WindNeutralLacksNegative();
    WindNeutralLacksHigh();
    WindNeutralLacksStress();
  }

  lemma WindNeutralLacksNegative() ensures !Contains(WindNeutral, "NEGATIVE") { MissingCharExcludes(WindNeutral, "NEGATIVE", 'G'); }
  lemma WindNeutralLacksHigh() ensures !Contains(WindNeutral, "HIGH") { MissingCharExcludes(WindNeutral, "HIGH", 'H'); }
  lemma WindNeutralLacksStress() ensures !Contains(WindNeutral, "STRESS") { MissingCharExcludes(WindNeutral, "STRESS", 'S'); }

  lemma TerrainNeutralUnflagged() ensures !Flagged(TerrainNeutral) {
    TerrainNeutralLacksNegative();
    TerrainNeutralLacksHigh();
    TerrainNeutralLacksStress();
  }

  lemma TerrainNeutralLacksNegative() ensures !Contains(TerrainNeutral, "NEGATIVE") { MissingCharExcludes(TerrainNeutral, "NEGATIVE", 'G'); }
  lemma TerrainNeutralLacksHigh() ensures !Contains(TerrainNeutral, "HIGH") { MissingCharExcludes(TerrainNeutral, "HIGH", 'H'); }
  lemma TerrainNeutralLacksStress() ensures !Contains(TerrainNeutral, "STRESS") { MissingCharExcludes(TerrainNeutral, "STRESS", 'S'); }

  lemma AtmosphereNeutralUnflagged() ensures !Flagged(AtmosphereNeutral) {
    AtmosphereNeutralLacksNegative();
    AtmosphereNeutralLacksHigh();
    AtmosphereNeutralLacksStress();
  }

  lemma AtmosphereNeutralLacksNegative() ensures !Contains(AtmosphereNeutral, "NEGATIVE") { MissingCharExcludes(AtmosphereNeutral, "NEGATIVE", 'G'); }
  lemma AtmosphereNeutralLacksHigh() ensures !Contains(AtmosphereNeutral, "HIGH") { MissingCharExcludes(AtmosphereNeutral, "HIGH", 'H'); }
  lemma AtmosphereNeutralLacksStress() ensures !Contains(AtmosphereNeutral, "STRESS") { MissingCharExcludes(AtmosphereNeutral, "STRESS", 'S'); }

  /** The cooling rationale is not a negative factor, whatever number it prints. */
  lemma CoolingUnflagged(fmt: Formatter, penalty: real)
    requires PlainNumbers(fmt)
    ensures !Flagged(CoolingText(fmt, penalty))
  {
    CoolingLacksNegative(fmt, penalty);
    CoolingLacksHigh(fmt, penalty);
    CoolingLacksStress(fmt, penalty);
  }

  lemma CoolingLacksNegative(fmt: Formatter, penalty: real)
    requires PlainNumbers(fmt)
    ensures !Contains(CoolingText(fmt, penalty), "NEGATIVE")
  {
    var n := fmt(Abs(penalty), 1);
    assert forall i :: 0 <= i < |n| ==> !IsUpperAscii(n[i]);
    assert 'V' !in n;
    MissingCharExcludes(CoolingText(fmt, penalty), "NEGATIVE", 'V');
  }

  lemma CoolingLacksStress(fmt: Formatter, penalty: real)
    requires PlainNumbers(fmt)
    ensures !Contains(CoolingText(fmt, penalty), "STRESS")
  {
    var n := fmt(Abs(penalty), 1);
    assert forall i :: 0 <= i < |n| ==> !IsUpperAscii(n[i]);
    assert 'S' !in n;
    MissingCharExcludes(CoolingText(fmt, penalty), "STRESS", 'S');
  }

  /** "HIGH" would have to cross the number, which has no upper-case letters, or lie in
      one of the fixed parts, which lack an 'H' or an 'I'. */
  lemma CoolingLacksHigh(fmt: Formatter, penalty: real)
    requires PlainNumbers(fmt)
    ensures !Contains(CoolingText(fmt, penalty), "HIGH")
  {
    var n := fmt(Abs(penalty), 1);
    var a1, a2, b := "COOLING EFFECT:", "Low Temps lowered HR by ", " bpm.";
    assert forall i :: 0 <= i < |n| ==> !IsUpperAscii(n[i]);
    CoolingPartsLackHigh();
    SeparatedBy(a1, " ", a2, "HIGH", IsUpperAscii);
    SeparatedBy(a1 + " " + a2, n, b, "HIGH", IsUpperAscii);
    assert CoolingText(fmt, penalty) == a1 + " " + a2 + n + b;
  }

  lemma CoolingPartsLackHigh()
    ensures !Contains("COOLING EFFECT:", "HIGH") && !Contains("Low Temps lowered HR by ", "HIGH")
    ensures !Contains(" bpm.", "HIGH")
  {
    MissingCharExcludes("COOLING EFFECT:", "HIGH", 'H');
    MissingCharExcludes("Low Temps lowered HR by ", "HIGH", 'I');
    MissingCharExcludes(" bpm.", "HIGH", 'H');
  }

  lemma FlaggedTexts(fmt: Formatter, minutes: real, pct: real, penalty: real)
    ensures Flagged(HeadwindText(fmt, minutes, pct))
    ensures Flagged(ClimbText(fmt, minutes))
    ensures Flagged(HeatText(fmt, penalty))
  {
    HeadwindFlagged(fmt, minutes, pct);
    ClimbFlagged(fmt, minutes);
    HeatFlagged(fmt, penalty);
  }

  lemma HeadwindFlagged(fmt: Formatter, minutes: real, pct: real)
    ensures Contains(HeadwindText(fmt, minutes, pct), "NEGATIVE")
  {
    ContainsMiddle("", "NEGATIVE", ": Battled Headwinds for " + fmt(minutes, 0) + " mins (" + fmt(pct, 0) + "% of ride).");
    assert HeadwindText(fmt, minutes, pct)
      == "" + "NEGATIVE" + (": Battled Headwinds for " + fmt(minutes, 0) + " mins (" + fmt(pct, 0) + "% of ride).");
  }

  lemma ClimbFlagged(fmt: Formatter, minutes: real)
    ensures Contains(ClimbText(fmt, minutes), "HIGH")
  {
    ContainsMiddle("", "HIGH", " RESISTANCE: " + fmt(minutes, 0) + " mins of steep climbing.");
    assert ClimbText(fmt, minutes) == "" + "HIGH" + (" RESISTANCE: " + fmt(minutes, 0) + " mins of steep climbing.");
  }

  lemma HeatFlagged(fmt: Formatter, penalty: real)
    ensures Contains(HeatText(fmt, penalty), "STRESS")
  {
    ContainsMiddle("HEAT ", "STRESS", ": High Temp/Humidity raised HR by " + fmt(penalty, 1) + " bpm.");
  }

  /** The conclusion is the "perfect conditions" sentence exactly when the headwind share is
      at most 25%, the climbing at most 20 minutes and the mean penalty at most +3 bpm. */
  lemma PerfectExactlyWhenCalm(fmt: Formatter, windMinutes: real, pct: real, meanHeadwind: Option<real>,
                               climbing: real, penalty: real)
    requires PlainNumbers(fmt)
    ensures GenerateConclusion([WindRationale(fmt, windMinutes, pct, meanHeadwind), TerrainRationale(fmt, climbing),
                                AtmosphereRationale(fmt, penalty)]) == Perfect
        <==> pct <= 25.0 && climbing <= 20.0 && penalty <= 3.0
  {
    var rs := [WindRationale(fmt, windMinutes, pct, meanHeadwind), TerrainRationale(fmt, climbing),
               AtmosphereRationale(fmt, penalty)];
    CalmTextsUnflagged();
    CoolingUnflagged(fmt, penalty);
    FlaggedTexts(fmt, windMinutes, pct, penalty);
    HighStartsText(fmt, climbing);
    if pct > 25.0 {
      assert rs[0] == HeadwindText(fmt, windMinutes, pct);
    }
    if climbing > 20.0 {
      FlaggedTexts(fmt, climbing, pct, penalty);
      assert rs[1] == ClimbText(fmt, climbing);
    }
  }

}

=== FILE: seqs.dfy ===
/** Column arithmetic the way pandas does it: sums and means skip missing
    cells, boolean masks keep rows in order, `iloc[::30]` strides, and
    `shift`, `diff`, `bfill`, `rolling(...).mean()` and `clip` work cell by cell. */
module Seqs {
  import opened Wrappers

  /** Order-preserving selection of the elements that satisfy `keep`. */
  function Filter<T>(s: seq<T>, keep: T -> bool): (r: seq<T>)
    ensures |r| <= |s|
    ensures forall x :: x in r ==> x in s && keep(x)
    ensures forall x :: x in s && keep(x) ==> x in r
  {
    if |s| == 0 then []
    else if keep(s[0]) then [s[0]] + Filter(s[1..], keep)
    else Filter(s[1..], keep)
  }

  /** `r` is `s` with some elements deleted and the rest kept in their original order. */
  ghost predicate IsSubsequence<T>(r: seq<T>, s: seq<T>)
    decreases |s|
  {
    if |r| == 0 then true
    else if |s| == 0 then false
    else (r[0] == s[0] && IsSubsequence(r[1..], s[1..])) || IsSubsequence(r, s[1..])
  }

  lemma {:induction false} FilterIsSubsequence<T>(s: seq<T>, keep: T -> bool)
    ensures IsSubsequence(Filter(s, keep), s)
  {
    if |s| > 0 {
      FilterIsSubsequence(s[1..], keep);
      if keep(s[0]) {
        assert Filter(s, keep)[1..] == Filter(s[1..], keep);
      }
    }
  }

  /** Concatenation is associative. */
  lemma AppendAssociative<T>(a: seq<T>, b: seq<T>, c: seq<T>)
    ensures a + (b + c) == (a + b) + c
  {
    assert |a + (b + c)| == |(a + b) + c|;
    forall k | 0 <= k < |a| + |b| + |c| ensures (a + (b + c))[k] == ((a + b) + c)[k] {
    }
  }

  /** Filtering a concatenation filters each part: the kept elements stay in order. */
  lemma {:induction false} FilterAppend<T>(a: seq<T>, b: seq<T>, keep: T -> bool)
    ensures Filter(a + b, keep) == Filter(a, keep) + Filter(b, keep)
  {
    if |a| > 0 {
      assert (a + b)[1..] == a[1..] + b;
      FilterAppend(a[1..], b, keep);
    } else {
      assert a + b == b;
    }
  }

  /** Like `Filter`, but each kept element is transformed: `f` returns None for rows to drop. */
  function FilterMap<A, B>(s: seq<A>, f: A -> Option<B>): (r: seq<B>)
    ensures |r| <= |s|
    ensures forall y :: y in r ==> exists i :: 0 <= i < |s| && f(s[i]) == Some(y)
    ensures forall i :: 0 <= i < |s| && f(s[i]).Some? ==> f(s[i]).value in r
  {
    if |s| == 0 then []
    else
      var rest := FilterMap(s[1..], f);
      assert forall i :: 1 <= i < |s| ==> s[i] == s[1..][i - 1];
      if f(s[0]).Some? then [f(s[0]).value] + rest else rest
  }

  /** FilterMap of a concatenation is the FilterMaps of the parts, in order. */
  lemma {:induction false} FilterMapAppend<A, B>(a: seq<A>, b: seq<A>, f: A -> Option<B>)
    ensures FilterMap(a + b, f) == FilterMap(a, f) + FilterMap(b, f)
  {
    if |a| > 0 {
      assert (a + b)[1..] == a[1..] + b;
      FilterMapAppend(a[1..], b, f);
    } else {
      assert a + b == b;
    }
  }

  /** Number of elements that satisfy `p`. */
  function Count<T>(s: seq<T>, p: T -> bool): (n: nat)
    ensures n <= |s|
  {
    if |s| == 0 then 0 else (if p(s[0]) then 1 else 0) + Count(s[1..], p)
  }

  /** FilterMap keeps exactly the elements that `f` maps to a value. */
  lemma {:induction false} FilterMapLength<A, B>(s: seq<A>, f: A -> Option<B>, kept: A -> bool)
    requires forall a :: kept(a) == f(a).Some?
    ensures |FilterMap(s, f)| == Count(s, kept)
  {
    if |s| > 0 {
      FilterMapLength(s[1..], f, kept);
    }
  }

  function Sum(s: seq<real>): real {
    if |s| == 0 then 0.0 else s[0] + Sum(s[1..])
  }

  /** pandas `Series.sum()`: missing cells are skipped, an all-missing column sums to 0. */
  function SumPresent(s: seq<Option<real>>): real {
    if |s| == 0 then 0.0 else s[0].GetOr(0.0) + SumPresent(s[1..])
  }

  function CountPresent(s: seq<Option<real>>): (n: nat)
    ensures n <= |s|
  {
    if |s| == 0 then 0 else (if s[0].Some? then 1 else 0) + CountPresent(s[1..])
  }

  /** pandas `Series.mean()`: the mean of the present cells, NaN when there are none. */
  function MeanPresent(s: seq<Option<real>>): (r: Option<real>)
    ensures r.Some? <==> CountPresent(s) > 0
  {
    if CountPresent(s) == 0 then None else Some(SumPresent(s) / CountPresent(s) as real)
  }

  lemma {:induction false} SumPresentNonNegative(s: seq<Option<real>>)
    requires forall i :: 0 <= i < |s| && s[i].Some? ==> s[i].value >= 0.0
    ensures SumPresent(s) >= 0.0
  {
    if |s| > 0 {
      SumPresentNonNegative(s[1..]);
    }
  }

  lemma {:induction false} SumPresentAppend(a: seq<Option<real>>, b: seq<Option<real>>)
    ensures SumPresent(a + b) == SumPresent(a) + SumPresent(b)
  {
    if |a| == 0 {
      assert a + b == b;
    } else {
      assert (a + b)[1..] == a[1..] + b;
      SumPresentAppend(a[1..], b);
    }
  }

  lemma {:induction false} CountPresentAppend(a: seq<Option<real>>, b: seq<Option<real>>)
    ensures CountPresent(a + b) == CountPresent(a) + CountPresent(b)
  {
    if |a| == 0 {
      assert a + b == b;
    } else {
      assert (a + b)[1..] == a[1..] + b;
      CountPresentAppend(a[1..], b);
    }
  }

  /** The mean of the present cells lies between their minimum and maximum. */
  lemma {:induction false} MeanPresentBounded(s: seq<Option<real>>, lo: real, hi: real)
    requires forall i :: 0 <= i < |s| && s[i].Some? ==> lo <= s[i].value <= hi
    requires CountPresent(s) > 0
    ensures lo <= MeanPresent(s).value <= hi
  {
    SumPresentBounds(s, lo, hi);
    QuotientBounds(SumPresent(s), CountPresent(s) as real, lo, hi);
  }

  lemma QuotientBounds(sum: real, n: real, lo: real, hi: real)
    requires n > 0.0 && lo * n <= sum <= hi * n
    ensures lo <= sum / n <= hi
  {
  }

  lemma SumPresentBounds(s: seq<Option<real>>, lo: real, hi: real)
    requires forall i :: 0 <= i < |s| && s[i].Some? ==> lo <= s[i].value <= hi
    ensures lo * CountPresent(s) as real <= SumPresent(s) <= hi * CountPresent(s) as real
  {
    SumPresentAtLeast(s, lo);
    SumPresentAtMost(s, hi);
  }

  lemma {:induction false} SumPresentAtLeast(s: seq<Option<real>>, lo: real)
    requires forall i :: 0 <= i < |s| && s[i].Some? ==> lo <= s[i].value
    ensures lo * CountPresent(s) as real <= SumPresent(s)
  {
    if |s| > 0 {
      var t := s[1..];
      assert forall i :: 0 <= i < |t| ==> t[i] == s[i + 1];
      SumPresentAtLeast(t, lo);
      var c := CountPresent(t) as real;
      if s[0].Some? {
        assert CountPresent(s) as real == c + 1.0;
        assert lo * (c + 1.0) == lo * c + lo;
      }
    }
  }

  lemma {:induction false} SumPresentAtMost(s: seq<Option<real>>, hi: real)
    requires forall i :: 0 <= i < |s| && s[i].Some? ==> s[i].value <= hi
    ensures SumPresent(s) <= hi * CountPresent(s) as real
  {
    if |s| > 0 {
      var t := s[1..];
      assert forall i :: 0 <= i < |t| ==> t[i] == s[i + 1];
      SumPresentAtMost(t, hi);
      var c := CountPresent(t) as real;
      if s[0].Some? {
        assert CountPresent(s) as real == c + 1.0;
        assert hi * (c + 1.0) == hi * c + hi;
      }
    }
  }

  /** pandas `iloc[::30]`: the elements at positions 0, 30, 60, ... */
  function Every30th<T>(s: seq<T>): (r: seq<T>)
    ensures |r| == (|s| + 29) / 30
    ensures forall j :: 0 <= j < |r| ==> 30 * j < |s| && r[j] == s[30 * j]
    decreases |s|
  {
    if |s| == 0 then []
    else if |s| <= 30 then [s[0]]
    else
      var rest := Every30th(s[30..]);
      var r := [s[0]] + rest;
      forall j | 0 < j < |r| ensures 30 * j < |s| && r[j] == s[30 * j] {
        assert r[j] == rest[j - 1] == s[30..][30 * (j - 1)];
      }
      r
  }

  function Abs(x: real): real { if x < 0.0 then -x else x }

  /** pandas `clip(lo, hi)` on a present value. */
  function Clip(x: real, lo: real, hi: real): (r: real)
    requires lo <= hi
    ensures lo <= r <= hi
    ensures lo <= x <= hi ==> r == x
    ensures x < lo ==> r == lo
    ensures x > hi ==> r == hi
  {
    if x < lo then lo else if x > hi then hi else x
  }

  /** pandas `shift(1)`: every cell moves down one row and the first row is missing. */
  function Shift(s: seq<Option<real>>): (r: seq<Option<real>>)
    ensures |r| == |s|
    ensures |s| > 0 ==> r[0].None?
    ensures forall i :: 0 <= i < |s| - 1 ==> r[i + 1] == s[i]
  {
    if |s| == 0 then [] else [None] + s[..|s| - 1]
  }

  /** pandas `diff()`: each cell minus the one above it; missing in the first row and
      wherever either cell is missing. */
  function Diff(s: seq<Option<real>>): (r: seq<Option<real>>)
    ensures |r| == |s|
    ensures |s| > 0 ==> r[0].None?
    ensures forall i :: 1 <= i < |s| ==> (r[i].Some? <==> s[i].Some? && s[i - 1].Some?)
    ensures forall i :: 1 <= i < |s| && r[i].Some? ==> s[i - 1].value + r[i].value == s[i].value
  {
    seq(|s|, i requires 0 <= i < |s| =>
      if i > 0 && s[i].Some? && s[i - 1].Some? then Some(s[i].value - s[i - 1].value) else None)
  }

  /** pandas `bfill()`: a missing cell takes the next present value below it; missing
      cells with nothing present below stay missing. */
  function BFill(s: seq<Option<real>>): (r: seq<Option<real>>)
    ensures |r| == |s|
    ensures forall i :: 0 <= i < |s| && s[i].Some? ==> r[i] == s[i]
    ensures |s| > 0 && s[|s| - 1].None? ==> r[|s| - 1].None?
    ensures forall i :: 0 <= i < |s| - 1 && s[i].None? ==> r[i] == r[i + 1]
  {
    if |s| == 0 then []
    else
      var rest := BFill(s[1..]);
      [if s[0].Some? || |rest| == 0 then s[0] else rest[0]] + rest
  }

  /** Back-filling gives each cell the first present value at or below it. */
  lemma {:induction false} BFillTakesNextPresent(s: seq<Option<real>>, i: nat, j: nat)
    requires i <= j < |s| && s[j].Some?
    requires forall k :: i <= k < j ==> s[k].None?
    ensures BFill(s)[i] == s[j]
    decreases j - i
  {
    if i < j {
      BFillTakesNextPresent(s, i + 1, j);
    }
  }

  /** A cell with nothing present at or below it stays missing. */
  lemma {:induction false} BFillTrailingMissing(s: seq<Option<real>>, i: nat)
    requires i < |s|
    requires forall k :: i <= k < |s| ==> s[k].None?
    ensures BFill(s)[i].None?
    decreases |s| - i
  {
    if i < |s| - 1 {
      BFillTrailingMissing(s, i + 1);
    }
  }

  /** Back-filling twice is back-filling once. */
  lemma BFillIdempotent(s: seq<Option<real>>)
    ensures BFill(BFill(s)) == BFill(s)
  {
    var r := BFill(s);
    var rr := BFill(r);
    forall i | 0 <= i < |s| ensures rr[i] == r[i] {
      BFillIdempotentAt(s, i);
    }
  }

  lemma {:induction false} BFillIdempotentAt(s: seq<Option<real>>, i: nat)
    requires i < |s|
    ensures BFill(BFill(s))[i] == BFill(s)[i]
    decreases |s| - i
  {
    var r := BFill(s);
    if r[i].None? && i < |s| - 1 {
      BFillIdempotentAt(s, i + 1);
    }
  }

  /** First row of the trailing window of `w` rows ending at row `i`. */
  function WindowStart(i: nat, w: nat): (k: nat)
    requires w > 0
    ensures k <= i
  {
    if i + 1 >= w then i + 1 - w else 0
  }

  /** pandas `rolling(window=10, min_periods=1).mean()`: the mean of the present cells
      among the last ten rows up to and including this one. */
  function RollingMean10(s: seq<Option<real>>): (r: seq<Option<real>>)
    ensures |r| == |s|
    ensures forall i :: 0 <= i < |s| ==> (r[i].Some? <==> CountPresent(s[WindowStart(i, 10)..i + 1]) > 0)
  {
    seq(|s|, i requires 0 <= i < |s| => MeanPresent(s[WindowStart(i, 10)..i + 1]))
  }

  /** A smoothed value lies within the range of the values it averages. */
  lemma RollingMeanWithinWindow(s: seq<Option<real>>, i: nat, lo: real, hi: real)
    requires i < |s|
    requires forall k :: WindowStart(i, 10) <= k <= i && s[k].Some? ==> lo <= s[k].value <= hi
    requires RollingMean10(s)[i].Some?
    ensures lo <= RollingMean10(s)[i].value <= hi
  {
    var w := s[WindowStart(i, 10)..i + 1];
    assert forall k :: 0 <= k < |w| ==> w[k] == s[WindowStart(i, 10) + k];
    MeanPresentBounded(w, lo, hi);
  }
}

=== FILE: sorting.dfy ===
/** Ordering rows by a numeric key and keeping the first row of each key, as
    `sort_values(key)` followed by `drop_duplicates(key)` does. */
module Sorting {

  predicate SortedBy<T>(s: seq<T>, key: T -> real) {
    forall i, j :: 0 <= i < j < |s| ==> key(s[i]) <= key(s[j])
  }

  predicate StrictlyIncreasingBy<T>(s: seq<T>, key: T -> real) {
    forall i, j :: 0 <= i < j < |s| ==> key(s[i]) < key(s[j])
  }

  /** Inserts `x` in front of the first element whose key is not smaller, so rows with
      equal keys keep their relative order. */
  function InsertBy<T>(x: T, s: seq<T>, key: T -> real): (r: seq<T>)
    requires SortedBy(s, key)
    ensures |r| == |s| + 1
    ensures multiset(r) == multiset(s) + multiset{x}
    ensures forall y :: y in r ==> y == x || y in s
    ensures SortedBy(r, key)
  {
    if |s| == 0 || key(x) <= key(s[0]) then
      ConsSorted(x, s, key);
      [x] + s
    else
      var rest := InsertBy(x, s[1..], key);
      assert s == [s[0]] + s[1..];
      HeadIsLeast(s, key);
      assert forall y :: y in rest ==> key(s[0]) <= key(y);
      ConsSorted(s[0], rest, key);
      [s[0]] + rest
  }

  /** In a sorted sequence no later element has a smaller key than the first. */
  lemma HeadIsLeast<T>(s: seq<T>, key: T -> real)
    requires SortedBy(s, key) && |s| > 0
    ensures forall y :: y in s ==> key(s[0]) <= key(y)
  {
    forall y | y in s ensures key(s[0]) <= key(y) {
      var k :| 0 <= k < |s| && s[k] == y;
    }
  }

  /** Putting an element no larger than any other in front keeps a sequence sorted. */
  lemma ConsSorted<T>(x: T, s: seq<T>, key: T -> real)
    requires SortedBy(s, key)
    requires |s| > 0 ==> key(x) <= key(s[0])
    requires forall y :: y in s ==> key(x) <= key(y)
    ensures SortedBy([x] + s, key)
  {
    var r := [x] + s;
    forall i, j | 0 <= i < j < |r| ensures key(r[i]) <= key(r[j]) {
      assert r[j] == s[j - 1];
      if i > 0 {
        assert r[i] == s[i - 1];
      } else {
        assert s[j - 1] in s;
      }
    }
  }

  /** Insertion sort by `key`; stable. */
  function SortBy<T>(s: seq<T>, key: T -> real): (r: seq<T>)
    ensures |r| == |s|
    ensures multiset(r) == multiset(s)
    ensures SortedBy(r, key)
  {
    if |s| == 0 then []
    else
      assert s == [s[0]] + s[1..];
      InsertBy(s[0], SortBy(s[1..], key), key)
  }

  /** The rows at index `i` and after that start a run of their key. */
  function RunStartsFrom<T>(s: seq<T>, key: T -> real, i: nat): (r: seq<T>)
    requires i <= |s|
    ensures |r| <= |s| - i
    ensures forall y :: y in r ==> y in s[i..]
    decreases |s| - i
  {
    if i == |s| then []
    else if i == 0 || key(s[i - 1]) != key(s[i]) then [s[i]] + RunStartsFrom(s, key, i + 1)
    else RunStartsFrom(s, key, i + 1)
  }

  /** `drop_duplicates(key)` on a sorted sequence: the first row of each key. */
  function DedupSorted<T>(s: seq<T>, key: T -> real): (r: seq<T>)
    ensures forall y :: y in r ==> y in s
  {
    RunStartsFrom(s, key, 0)
  }

  /** On sorted input the kept keys strictly increase. */
  lemma DedupStrictlyIncreasing<T>(s: seq<T>, key: T -> real)
    requires SortedBy(s, key)
    ensures StrictlyIncreasingBy(DedupSorted(s, key), key)
  {
    RunStartsIncreasing(s, key, 0);
  }

  lemma {:induction false} RunStartsIncreasing<T>(s: seq<T>, key: T -> real, i: nat)
    requires SortedBy(s, key) && i <= |s|
    ensures StrictlyIncreasingBy(RunStartsFrom(s, key, i), key)
    decreases |s| - i
  {
    if i < |s| {
      RunStartsIncreasing(s, key, i + 1);
      RunStartsAbove(s, key, i);
    }
  }

  /** On sorted input, every run start after index `i` has a larger key than row `i`. */
  lemma {:induction false} RunStartsAbove<T>(s: seq<T>, key: T -> real, i: nat)
    requires SortedBy(s, key) && i < |s|
    ensures forall y :: y in RunStartsFrom(s, key, i + 1) ==> key(s[i]) < key(y)
    decreases |s| - i
  {
    if i + 1 < |s| {
      RunStartsAbove(s, key, i + 1);
    }
  }

  /** Every key of the input survives deduplication. */
  lemma {:induction false} DedupKeepsKeys<T>(s: seq<T>, key: T -> real, j: nat)
    requires j < |s|
    ensures exists y :: y in DedupSorted(s, key) && key(y) == key(s[j])
    decreases j
  {
    if j == 0 || key(s[j - 1]) != key(s[j]) {
      RunStartMember(s, key, 0, j);
      assert s[j] in DedupSorted(s, key);
    } else {
      DedupKeepsKeys(s, key, j - 1);
    }
  }

  lemma {:induction false} RunStartMember<T>(s: seq<T>, key: T -> real, i: nat, j: nat)
    requires i <= j < |s|
    requires j == 0 || key(s[j - 1]) != key(s[j])
    ensures s[j] in RunStartsFrom(s, key, i)
    decreases j - i
  {
    if i < j {
      RunStartMember(s, key, i + 1, j);
    }
  }
}

=== FILE: summaries.dfy ===
/** Per-activity training summaries (`DataCleaner` in data_cleaning.py and its
    older copy `ASTTCXReader` in ast_tcx_reader.py, which compute the same
    things): the cleaned trackpoint time series, heart-rate-reserve zones,
    time in zones, TRIMP loads, the sorted summary table and the dashboard and
    zone-total views built from it. Times are seconds since the epoch (UTC). */
module Summaries {
  import opened Wrappers
  import opened Seqs
  import opened Sorting

  datatype AthleteConfig = AthleteConfig(hrMax: int, hrRest: int)

  /** The defaults: maximum heart rate 190, resting heart rate 55. */
  const DefaultConfig: AthleteConfig := AthleteConfig(190, 55)

  /** Upper edges of the heart-rate-reserve bins (`h_r_r_bound`). */
  const ZoneBounds: seq<real> := [0.5, 0.6, 0.7, 0.8, 0.9, 1.1]
  const MaxIntensity: real := 1.2
  const BannisterB: real := 1.92

  /** `hrr_intensity(...).clip(lower=0, upper=1.2)` for one heart rate, in floating point;
      None stands for NaN. With max == rest the division gives +inf or -inf, which clip to
      the bounds, or 0/0 = NaN for a heart rate equal to rest. */
  function ClippedIntensity(hr: Option<real>, cfg: AthleteConfig): (x: Option<real>)
    ensures x.Some? ==> 0.0 <= x.value <= MaxIntensity
    ensures x.None? <==> hr.None? || (cfg.hrMax == cfg.hrRest && hr.value == cfg.hrRest as real)
    ensures hr.Some? && cfg.hrMax > cfg.hrRest && hr.value <= cfg.hrRest as real ==> x == Some(0.0)
    ensures hr.Some? && cfg.hrMax > cfg.hrRest && hr.value >= cfg.hrRest as real + MaxIntensity * (cfg.hrMax - cfg.hrRest) as real
      ==> x == Some(MaxIntensity)
  {
    match hr
    case None => None
    case Some(h) =>
      var num := h - cfg.hrRest as real;
      var den := (cfg.hrMax - cfg.hrRest) as real;
      if den != 0.0 then
        DivisionBounds(num, den);
        Some(Clip(num / den, 0.0, MaxIntensity))
      else if num > 0.0 then Some(MaxIntensity)
      else if num < 0.0 then Some(0.0)
      else None
  }

  lemma DivisionBounds(num: real, den: real)
    requires den != 0.0
    ensures den > 0.0 && num <= 0.0 ==> num / den <= 0.0
    ensures den > 0.0 && num >= MaxIntensity * den ==> num / den >= MaxIntensity
  {
  }

  /** `np.digitize(v, bounds, right=True)` for sorted bounds: the first index whose bound
      is not below `v`, or the number of bounds when all are below. */
  function DigitizeRight(v: real, bounds: seq<real>): (d: nat)
    ensures d <= |bounds|
    ensures forall k :: 0 <= k < d ==> bounds[k] < v
    ensures d < |bounds| ==> v <= bounds[d]
  {
    if |bounds| == 0 || v <= bounds[0] then 0
    else
      var d := 1 + DigitizeRight(v, bounds[1..]);
      assert forall k :: 1 <= k < d ==> bounds[k] == bounds[1..][k - 1];
      d
  }

  /** The zone of a clipped intensity: digitize, then clip to 1..5. NaN sorts after every
      bound, so a missing intensity lands in zone 5. */
  function ZoneOf(x: Option<real>): (z: int)
    ensures 1 <= z <= 5
    ensures x.None? ==> z == 5
    ensures x.Some? ==>
      && (z == 1 <==> x.value <= 0.6)
      && (z == 2 <==> 0.6 < x.value <= 0.7)
      && (z == 3 <==> 0.7 < x.value <= 0.8)
      && (z == 4 <==> 0.8 < x.value <= 0.9)
      && (z == 5 <==> 0.9 < x.value)
  {
    var d := match x case None => |ZoneBounds| case Some(v) => DigitizeRight(v, ZoneBounds);
    if d < 1 then 1 else if d > 5 then 5 else d
  }

  /** `assign_zones_hrr` for one heart rate. */
  function Zone(hr: Option<real>, cfg: AthleteConfig): (z: int)
    ensures 1 <= z <= 5
    ensures hr.None? ==> z == 5
  {
    ZoneOf(ClippedIntensity(hr, cfg))
  }

  /** With max above rest, a higher heart rate never falls in a lower zone. */
  lemma ZoneMonotone(h1: real, h2: real, cfg: AthleteConfig)
    requires cfg.hrMax > cfg.hrRest && h1 <= h2
    ensures Zone(Some(h1), cfg) <= Zone(Some(h2), cfg)
  {
    var den := (cfg.hrMax - cfg.hrRest) as real;
    var a := h1 - cfg.hrRest as real;
    var b := h2 - cfg.hrRest as real;
    assert a / den <= b / den by {
      assert b / den - a / den == (b - a) / den;
    }
  }

  /** One trackpoint as the TCX reader gives it; `time` is None when it does not parse. */
  datatype Trackpoint = Trackpoint(
    time: Option<real>, hr: Option<real>, dist: Option<real>,
    alt: Option<real>, lat: Option<real>, lon: Option<real>)

  /** A row of the cleaned series: the trackpoint, its time, the seconds since the
      previous row and the speed over that step. */
  datatype TimeframeRow = TimeframeRow(point: Trackpoint, time: real, dtS: Option<real>, speedMps: Option<real>)

  function TimeKey(p: Trackpoint): real { p.time.GetOr(0.0) }

  predicate HasTime(p: Trackpoint) { p.time.Some? }

  /** `dt_s` and `speed_mps` over a time-ordered sequence: dt is clipped at 0 and is
      missing in the first row; a zero dt is replaced by NaN before dividing. */
  function WithDeltas(pts: seq<Trackpoint>): (r: seq<TimeframeRow>)
    ensures |r| == |pts| && forall i :: 0 <= i < |pts| ==> r[i] == DeltaRow(pts, i)
  {
    seq(|pts|, i requires 0 <= i < |pts| => DeltaRow(pts, i))
  }

  function DeltaRow(pts: seq<Trackpoint>, i: nat): (r: TimeframeRow)
    requires i < |pts|
    ensures r.point == pts[i] && r.time == TimeKey(pts[i])
    ensures i == 0 ==> r.dtS.None? && r.speedMps.None?
    ensures i > 0 ==> r.dtS.Some? && r.dtS.value >= 0.0
    ensures i > 0 && TimeKey(pts[i - 1]) <= TimeKey(pts[i]) ==> r.dtS == Some(TimeKey(pts[i]) - TimeKey(pts[i - 1]))
    ensures i > 0 ==> SpeedMatches(pts[i - 1], r)
  {
    var dt := if i == 0 then None else Some(Clip0(TimeKey(pts[i]) - TimeKey(pts[i - 1])));
    var dd := if i > 0 && pts[i].dist.Some? && pts[i - 1].dist.Some?
              then Some(pts[i].dist.value - pts[i - 1].dist.value) else None;
    var speed := if dd.Some? && dt.Some? && dt.value != 0.0 then Some(dd.value / dt.value) else None;
    TimeframeRow(pts[i], TimeKey(pts[i]), dt, speed)
  }

  /** `clip(lower=0)`. */
  function Clip0(x: real): (r: real)
    ensures r >= 0.0 && (x >= 0.0 ==> r == x)
  {
    if x < 0.0 then 0.0 else x
  }

  /** A TCX exercise: its activity type and its trackpoints. */
  datatype Exercise = Exercise(activityType: string, trackpoints: seq<Trackpoint>)

  /** The cleaned, ordered trackpoints: drop the unparsable times, sort by time, keep the
      first row of each timestamp. */
  function OrderedPoints(tps: seq<Trackpoint>): (r: seq<Trackpoint>)
    ensures StrictlyIncreasingBy(r, TimeKey)
    ensures forall p :: p in r ==> p in tps && HasTime(p)
  {
    var timed := Filter(tps, HasTime);
    var sorted := SortBy(timed, TimeKey);
    DedupStrictlyIncreasing(sorted, TimeKey);
    var r := DedupSorted(sorted, TimeKey);
    assert forall p :: p in r ==> p in sorted;
    assert forall p :: p in sorted ==> p in multiset(timed);
    r
  }

  /** Every parsable timestamp of the input is one row's time in the output. */
  lemma OrderedPointsKeepTimes(tps: seq<Trackpoint>, p: Trackpoint)
    requires p in tps && HasTime(p)
    ensures exists q :: q in OrderedPoints(tps) && q.time == p.time
  {
    var timed := Filter(tps, HasTime);
    var sorted := SortBy(timed, TimeKey);
    assert p in timed;
    assert p in multiset(sorted);
    var j :| 0 <= j < |sorted| && sorted[j] == p;
    DedupKeepsKeys(sorted, TimeKey, j);
    var q :| q in DedupSorted(sorted, TimeKey) && TimeKey(q) == TimeKey(p);
    assert q in OrderedPoints(tps);
  }

  /** `exercise_timeframes`: None without trackpoints; otherwise one row per distinct
      parsable timestamp, in strictly increasing time order, with positive steps. */
  function ExerciseTimeframes(ex: Exercise): (r: Option<seq<TimeframeRow>>)
    ensures r.None? <==> |ex.trackpoints| == 0
    ensures r.Some? ==> IncreasingTimes(r.value) && PositiveSteps(r.value) && SpeedsMatchDistance(r.value)
    ensures r.Some? ==> forall i :: 0 <= i < |r.value| ==>
      r.value[i].point in ex.trackpoints && r.value[i].point.time == Some(r.value[i].time)
  {
    if |ex.trackpoints| == 0 then None
    else
      var pts := OrderedPoints(ex.trackpoints);
      DeltasOfIncreasing(pts);
      Some(WithDeltas(pts))
  }

  /** The frame properties `exercise_timeframes` guarantees of its rows. */
  predicate IncreasingTimes(rows: seq<TimeframeRow>) {
    forall i, j :: 0 <= i < j < |rows| ==> rows[i].time < rows[j].time
  }

  predicate PositiveSteps(rows: seq<TimeframeRow>) {
    && (|rows| > 0 ==> rows[0].dtS.None?)
    && forall i :: 1 <= i < |rows| ==> rows[i].dtS == Some(rows[i].time - rows[i - 1].time) && rows[i].dtS.value > 0.0
  }

  /** A present speed is the distance covered since `prev` over a positive step. */
  predicate SpeedMatches(prev: Trackpoint, row: TimeframeRow) {
    row.speedMps.Some? ==>
      row.point.dist.Some? && prev.dist.Some? && row.dtS.Some? && row.dtS.value > 0.0 &&
      row.speedMps.value * row.dtS.value == row.point.dist.value - prev.dist.value
  }

  predicate SpeedsMatchDistance(rows: seq<TimeframeRow>) {
    forall i :: 1 <= i < |rows| ==> SpeedMatches(rows[i - 1].point, rows[i])
  }

  lemma DeltasOfIncreasing(pts: seq<Trackpoint>)
    requires StrictlyIncreasingBy(pts, TimeKey)
    ensures IncreasingTimes(WithDeltas(pts))
    ensures PositiveSteps(WithDeltas(pts))
    ensures SpeedsMatchDistance(WithDeltas(pts))
  {
    DeltaTimesIncrease(pts);
    DeltaStepsPositive(pts);
    DeltaSpeeds(pts);
  }

  lemma DeltaTimesIncrease(pts: seq<Trackpoint>)
    requires StrictlyIncreasingBy(pts, TimeKey)
    ensures IncreasingTimes(WithDeltas(pts))
  {
    var rows := WithDeltas(pts);
    forall i, j | 0 <= i < j < |rows| ensures rows[i].time < rows[j].time {
      assert rows[i] == DeltaRow(pts, i) && rows[j] == DeltaRow(pts, j);
    }
  }

  lemma DeltaStepsPositive(pts: seq<Trackpoint>)
    requires StrictlyIncreasingBy(pts, TimeKey)
    ensures PositiveSteps(WithDeltas(pts))
  {
    var rows := WithDeltas(pts);
    forall i | 1 <= i < |rows|
      ensures rows[i].dtS == Some(rows[i].time - rows[i - 1].time) && rows[i].dtS.value > 0.0
    {
      var a, b := DeltaRow(pts, i - 1), DeltaRow(pts, i);
      assert TimeKey(pts[i - 1]) < TimeKey(pts[i]);
      assert rows[i] == b && rows[i - 1] == a;
    }
  }

  lemma DeltaSpeeds(pts: seq<Trackpoint>)
    ensures SpeedsMatchDistance(WithDeltas(pts))
  {
    var rows := WithDeltas(pts);
    forall i | 1 <= i < |rows| ensures SpeedMatches(rows[i - 1].point, rows[i]) {
      assert rows[i] == DeltaRow(pts, i) && rows[i - 1].point == pts[i - 1];
    }
  }

  /** Seconds spent in zone `k`: the summed `dt_s` of the rows whose zone is `k`. */
  function ZoneSeconds(rows: seq<TimeframeRow>, cfg: AthleteConfig, k: int): real
    decreases |rows|
  {
    if |rows| == 0 then 0.0
    else (if Zone(rows[0].point.hr, cfg) == k then rows[0].dtS.GetOr(0.0) else 0.0) + ZoneSeconds(rows[1..], cfg, k)
  }

  /** `df["dt_s"].sum()`: missing steps count as nothing. */
  function TotalSeconds(rows: seq<TimeframeRow>): real
    decreases |rows|
  {
    if |rows| == 0 then 0.0 else rows[0].dtS.GetOr(0.0) + TotalSeconds(rows[1..])
  }

  predicate NonNegativeSteps(rows: seq<TimeframeRow>) {
    forall i :: 0 <= i < |rows| && rows[i].dtS.Some? ==> rows[i].dtS.value >= 0.0
  }

  /** Every row is in exactly one zone, so the five zone totals add up to the total time. */
  lemma {:induction false} ZonesPartitionTime(rows: seq<TimeframeRow>, cfg: AthleteConfig)
    ensures ZoneSeconds(rows, cfg, 1) + ZoneSeconds(rows, cfg, 2) + ZoneSeconds(rows, cfg, 3)
          + ZoneSeconds(rows, cfg, 4) + ZoneSeconds(rows, cfg, 5) == TotalSeconds(rows)
    decreases |rows|
  {
    if |rows| > 0 {
      ZonesPartitionTime(rows[1..], cfg);
    }
  }

  lemma {:induction false} ZoneSecondsNonNegative(rows: seq<TimeframeRow>, cfg: AthleteConfig, k: int)
    requires NonNegativeSteps(rows)
    ensures ZoneSeconds(rows, cfg, k) >= 0.0
    decreases |rows|
  {
    if |rows| > 0 {
      assert NonNegativeSteps(rows[1..]) by {
        forall i | 0 <= i < |rows[1..]| && rows[1..][i].dtS.Some? ensures rows[1..][i].dtS.value >= 0.0 {
          assert rows[1..][i] == rows[i + 1];
        }
      }
      ZoneSecondsNonNegative(rows[1..], cfg, k);
    }
  }

  /** The five `z{k}_sec` values. */
  datatype ZoneTimes = ZoneTimes(z1: real, z2: real, z3: real, z4: real, z5: real) {
    function Get(k: int): real {
      if k == 1 then z1 else if k == 2 then z2 else if k == 3 then z3 else if k == 4 then z4 else z5
    }
    function Sum(): real { z1 + z2 + z3 + z4 + z5 }
  }

  /** `time_in_zones`: the seconds per zone, which together account for all of `dt_s`. */
  function TimeInZones(rows: seq<TimeframeRow>, cfg: AthleteConfig): (r: ZoneTimes)
    ensures r.Sum() == TotalSeconds(rows)
    ensures forall k :: 1 <= k <= 5 ==> r.Get(k) == ZoneSeconds(rows, cfg, k)
    ensures NonNegativeSteps(rows) ==> forall k :: 1 <= k <= 5 ==> r.Get(k) >= 0.0
  {
    ZonesPartitionTime(rows, cfg);
    var r := ZoneTimes(ZoneSeconds(rows, cfg, 1), ZoneSeconds(rows, cfg, 2), ZoneSeconds(rows, cfg, 3),
                       ZoneSeconds(rows, cfg, 4), ZoneSeconds(rows, cfg, 5));
    ZoneTimesNonNegative(rows, cfg);
    r
  }

  lemma ZoneTimesNonNegative(rows: seq<TimeframeRow>, cfg: AthleteConfig)
    ensures NonNegativeSteps(rows) ==> forall k :: 1 <= k <= 5 ==> ZoneSeconds(rows, cfg, k) >= 0.0
  {
    if NonNegativeSteps(rows) {
      forall k | 1 <= k <= 5 ensures ZoneSeconds(rows, cfg, k) >= 0.0 {
        ZoneSecondsNonNegative(rows, cfg, k);
      }
    }
  }

  /** `edwards_trimp`: zone minutes weighted 1 to 5, so between the total minutes and five
      times the total minutes. */
  function EdwardsTrimp(rows: seq<TimeframeRow>, cfg: AthleteConfig): (r: real)
    ensures NonNegativeSteps(rows) ==> TotalSeconds(rows) / 60.0 <= r <= 5.0 * TotalSeconds(rows) / 60.0
  {
    var z := TimeInZones(rows, cfg);
    1.0 * (z.z1 / 60.0) + 2.0 * (z.z2 / 60.0) + 3.0 * (z.z3 / 60.0) + 4.0 * (z.z4 / 60.0) + 5.0 * (z.z5 / 60.0)
  }

  type PosReal = x: real | x > 0.0 witness 1.0

  /** `bannister_trimp`: sum of dt_minutes * x * exp(1.92 x) over rows whose intensity x is
      not NaN; `exp` is numpy's exponential, which is positive. */
  function BannisterTrimp(rows: seq<TimeframeRow>, cfg: AthleteConfig, exp: real -> PosReal): (r: real)
    ensures NonNegativeSteps(rows) ==> r >= 0.0
    ensures (forall i :: 0 <= i < |rows| ==> ClippedIntensity(rows[i].point.hr, cfg).None?) ==> r == 0.0
    decreases |rows|
  {
    if |rows| == 0 then 0.0
    else
      var dtMin := rows[0].dtS.GetOr(0.0) / 60.0;
      var term := match ClippedIntensity(rows[0].point.hr, cfg)
        case None => 0.0
        case Some(x) => dtMin * x * exp(BannisterB * x);
      assert NonNegativeSteps(rows) ==> term >= 0.0 && NonNegativeSteps(rows[1..]) by {
        if NonNegativeSteps(rows) {
          assert forall i :: 0 <= i < |rows[1..]| ==> rows[1..][i] == rows[i + 1];
          assert dtMin >= 0.0;
        }
      }
      assert forall i :: 0 <= i < |rows[1..]| ==> rows[1..][i] == rows[i + 1];
      term + BannisterTrimp(rows[1..], cfg, exp)
  }

  /** One row of the summary table. `date` is the UTC day number of the start. */
  datatype Summary = Summary(
    date: int, startTime: real, durationS: real, distanceKm: Option<real>,
    avgHr: Option<real>, avgSpeedMps: Option<real>,
    trimpBannister: real, trimpEdwards: real, zones: ZoneTimes)

  function Day(t: real): int { (t / 86400.0).Floor }

  function HrColumn(rows: seq<TimeframeRow>): (c: seq<Option<real>>)
    ensures |c| == |rows| && forall i :: 0 <= i < |rows| ==> c[i] == rows[i].point.hr
  {
    seq(|rows|, i requires 0 <= i < |rows| => rows[i].point.hr)
  }

  function SpeedColumn(rows: seq<TimeframeRow>): (c: seq<Option<real>>)
    ensures |c| == |rows| && forall i :: 0 <= i < |rows| ==> c[i] == rows[i].speedMps
  {
    seq(|rows|, i requires 0 <= i < |rows| => rows[i].speedMps)
  }

  predicate AnyDistance(rows: seq<TimeframeRow>) {
    exists i :: 0 <= i < |rows| && rows[i].point.dist.Some?
  }

  /** `summarize_exercise`: IndexError on an empty series (`iloc[0]`); the distance is last
      minus first cumulative distance, NaN when either end lacks one. */
  function SummarizeExercise(rows: seq<TimeframeRow>, cfg: AthleteConfig, exp: real -> PosReal): (r: Result<Summary>)
    ensures r.Err? <==> |rows| == 0
    ensures r.Err? ==> r.error == IndexError
    ensures r.Ok? ==> r.value.startTime == rows[0].time && r.value.date == Day(rows[0].time)
    ensures r.Ok? ==> r.value.durationS == TotalSeconds(rows) && r.value.zones.Sum() == r.value.durationS
    ensures r.Ok? ==> (r.value.distanceKm.Some? <==>
      AnyDistance(rows) && rows[0].point.dist.Some? && rows[|rows| - 1].point.dist.Some?)
    ensures r.Ok? && r.value.distanceKm.Some? ==>
      r.value.distanceKm.value * 1000.0 == rows[|rows| - 1].point.dist.value - rows[0].point.dist.value
    ensures r.Ok? ==> r.value.avgHr == MeanPresent(HrColumn(rows)) && r.value.avgSpeedMps == MeanPresent(SpeedColumn(rows))
  {
    if |rows| == 0 then Err(IndexError)
    else
      var first := rows[0];
      var last := rows[|rows| - 1];
      var distKm := if AnyDistance(rows) && first.point.dist.Some? && last.point.dist.Some?
                    then Some((last.point.dist.value - first.point.dist.value) / 1000.0) else None;
      Ok(Summary(Day(first.time), first.time, TotalSeconds(rows), distKm,
                 MeanPresent(HrColumn(rows)), MeanPresent(SpeedColumn(rows)),
                 BannisterTrimp(rows, cfg, exp), EdwardsTrimp(rows, cfg), TimeInZones(rows, cfg)))
  }

  /** The exercises the summary loop summarises: exactly "Biking" and with trackpoints. */
  predicate Usable(ex: Exercise) {
    ex.activityType == "Biking" && |ex.trackpoints| > 0
  }

  /** The summary of one usable exercise. */
  function SummaryOf(ex: Exercise, cfg: AthleteConfig, exp: real -> PosReal): (r: Result<Summary>)
    requires Usable(ex)
  {
    SummarizeExercise(ExerciseTimeframes(ex).value, cfg, exp)
  }

  /** A usable exercise none of whose timestamps parses: `summarize_exercise` raises on it. */
  predicate SummaryFails(ex: Exercise, cfg: AthleteConfig, exp: real -> PosReal) {
    Usable(ex) && SummaryOf(ex, cfg, exp).Err?
  }

  /** Some usable exercise of `exs` has no summary. */
  predicate AnySummaryFails(exs: seq<Exercise>, cfg: AthleteConfig, exp: real -> PosReal) {
    exists i :: 0 <= i < |exs| && SummaryFails(exs[i], cfg, exp)
  }

  /** A failing exercise is the first one or one of the rest. */
  lemma AnySummaryFailsStep(exs: seq<Exercise>, cfg: AthleteConfig, exp: real -> PosReal)
    requires |exs| > 0
    ensures AnySummaryFails(exs, cfg, exp) <==> SummaryFails(exs[0], cfg, exp) || AnySummaryFails(exs[1..], cfg, exp)
  {
    if AnySummaryFails(exs[1..], cfg, exp) {
      var i :| 0 <= i < |exs| - 1 && SummaryFails(exs[1..][i], cfg, exp);
      assert SummaryFails(exs[i + 1], cfg, exp);
    }
    if AnySummaryFails(exs, cfg, exp) && !SummaryFails(exs[0], cfg, exp) {
      var i :| 0 <= i < |exs| && SummaryFails(exs[i], cfg, exp);
      assert exs[1..][i - 1] == exs[i];
    }
  }

  /** The summary loop, before sorting: an IndexError from any usable exercise propagates;
      otherwise one summary per usable exercise, in input order. */
  function CollectSummaries(exs: seq<Exercise>, cfg: AthleteConfig, exp: real -> PosReal): (r: Result<seq<Summary>>)
    ensures r.Err? ==> r.error == IndexError
    ensures r.Err? <==> AnySummaryFails(exs, cfg, exp)
    ensures r.Ok? ==> |r.value| == Count(exs, Usable)
    ensures |exs| == 1 && !Usable(exs[0]) ==> r == Ok([])
    decreases |exs|
  {
    if |exs| == 0 then Ok([])
    else
      var rest := CollectSummaries(exs[1..], cfg, exp);
      AnySummaryFailsStep(exs, cfg, exp);
      if exs[0].activityType == "Biking" && ExerciseTimeframes(exs[0]).Some? then
        match SummarizeExercise(ExerciseTimeframes(exs[0]).value, cfg, exp)
        case Err(e) => Err(e)
        case Ok(s) => if rest.Err? then rest else Ok([s] + rest.value)
      else rest
  }

  /** One turn of the summary loop: a usable exercise either fails or puts its summary in
      front of the rest; any other exercise is skipped. */
  lemma CollectStep(exs: seq<Exercise>, cfg: AthleteConfig, exp: real -> PosReal)
    requires |exs| > 0
    ensures !Usable(exs[0]) ==> CollectSummaries(exs, cfg, exp) == CollectSummaries(exs[1..], cfg, exp)
    ensures Usable(exs[0]) ==> (CollectSummaries(exs, cfg, exp).Ok? <==>
      SummaryOf(exs[0], cfg, exp).Ok? && CollectSummaries(exs[1..], cfg, exp).Ok?)
    ensures Usable(exs[0]) && CollectSummaries(exs, cfg, exp).Ok? ==>
      CollectSummaries(exs, cfg, exp).value == [SummaryOf(exs[0], cfg, exp).value] + CollectSummaries(exs[1..], cfg, exp).value
  {
  }

  /** A failing exercise of `a + b` is in `a` or in `b`. */
  lemma AnySummaryFailsAppend(a: seq<Exercise>, b: seq<Exercise>, cfg: AthleteConfig, exp: real -> PosReal)
    ensures AnySummaryFails(a + b, cfg, exp) <==> AnySummaryFails(a, cfg, exp) || AnySummaryFails(b, cfg, exp)
  {
    var ab := a + b;
    if AnySummaryFails(ab, cfg, exp) {
      var i :| 0 <= i < |ab| && SummaryFails(ab[i], cfg, exp);
      if i >= |a| {
        assert b[i - |a|] == ab[i];
      } else {
        assert a[i] == ab[i];
      }
    }
    if AnySummaryFails(a, cfg, exp) {
      var i :| 0 <= i < |a| && SummaryFails(a[i], cfg, exp);
      assert ab[i] == a[i];
    }
    if AnySummaryFails(b, cfg, exp) {
      var i :| 0 <= i < |b| && SummaryFails(b[i], cfg, exp);
      assert ab[|a| + i] == b[i];
    }
  }

  /** A single usable exercise gives exactly its own summary, or its failure. */
  lemma CollectSingle(ex: Exercise, cfg: AthleteConfig, exp: real -> PosReal)
    requires Usable(ex)
    ensures CollectSummaries([ex], cfg, exp).Ok? <==> SummaryOf(ex, cfg, exp).Ok?
    ensures CollectSummaries([ex], cfg, exp).Ok? ==> CollectSummaries([ex], cfg, exp).value == [SummaryOf(ex, cfg, exp).value]
  {
    CollectStep([ex], cfg, exp);
    assert [ex][1..] == [];
    assert CollectSummaries([], cfg, exp) == Ok([]);
  }

  /** Two runs that start with the same exercise: if both summarise, that exercise
      contributes the same summaries in front of each run's rest. */
  lemma CollectSameHead(ab: seq<Exercise>, a: seq<Exercise>, cfg: AthleteConfig, exp: real -> PosReal)
    requires |a| > 0 && |ab| > 0 && ab[0] == a[0]
    ensures CollectSummaries(ab, cfg, exp).Ok? ==> CollectSummaries(ab[1..], cfg, exp).Ok?
    ensures CollectSummaries(ab, cfg, exp).Ok? && CollectSummaries(a[1..], cfg, exp).Ok? ==> CollectSummaries(a, cfg, exp).Ok?
    ensures CollectSummaries(ab, cfg, exp).Ok? && CollectSummaries(a, cfg, exp).Ok? ==>
      exists h: seq<Summary> :: CollectSummaries(ab, cfg, exp).value == h + CollectSummaries(ab[1..], cfg, exp).value
        && CollectSummaries(a, cfg, exp).value == h + CollectSummaries(a[1..], cfg, exp).value
  {
    CollectStep(ab, cfg, exp);
    CollectStep(a, cfg, exp);
    if CollectSummaries(ab, cfg, exp).Ok? && CollectSummaries(a, cfg, exp).Ok? {
      if Usable(a[0]) {
        var h := [SummaryOf(a[0], cfg, exp).value];
        assert CollectSummaries(ab, cfg, exp).value == h + CollectSummaries(ab[1..], cfg, exp).value;
      } else {
        assert CollectSummaries(ab, cfg, exp).value == [] + CollectSummaries(ab[1..], cfg, exp).value;
        assert CollectSummaries(a, cfg, exp).value == [] + CollectSummaries(a[1..], cfg, exp).value;
      }
    }
  }

  /** When `a + b` summarises, so do both halves, and its summaries are theirs in order. */
  lemma {:induction false} CollectAppendValues(a: seq<Exercise>, b: seq<Exercise>, cfg: AthleteConfig, exp: real -> PosReal)
    requires CollectSummaries(a + b, cfg, exp).Ok?
    ensures CollectSummaries(a, cfg, exp).Ok? && CollectSummaries(b, cfg, exp).Ok?
    ensures CollectSummaries(a + b, cfg, exp).value == CollectSummaries(a, cfg, exp).value + CollectSummaries(b, cfg, exp).value
    decreases |a|
  {
    if |a| == 0 {
      assert a + b == b;
    } else {
      var ab := a + b;
      assert ab[0] == a[0] && ab[1..] == a[1..] + b;
      CollectSameHead(ab, a, cfg, exp);
      CollectAppendValues(a[1..], b, cfg, exp);
      var h: seq<Summary> :| CollectSummaries(ab, cfg, exp).value == h + CollectSummaries(ab[1..], cfg, exp).value
        && CollectSummaries(a, cfg, exp).value == h + CollectSummaries(a[1..], cfg, exp).value;
      var restA, rb := CollectSummaries(a[1..], cfg, exp).value, CollectSummaries(b, cfg, exp).value;
      assert CollectSummaries(ab[1..], cfg, exp).value == restA + rb;
      assert CollectSummaries(a, cfg, exp).value == h + restA;
      assert CollectSummaries(ab, cfg, exp).value == h + (restA + rb);
      AppendAssociative(h, restA, rb);
    }
  }

  /** Summarising `a + b` succeeds iff both halves do, and then gives `a`'s summaries
      followed by `b`'s. */
  lemma CollectAppend(a: seq<Exercise>, b: seq<Exercise>, cfg: AthleteConfig, exp: real -> PosReal)
    ensures CollectSummaries(a + b, cfg, exp).Ok? <==>
      CollectSummaries(a, cfg, exp).Ok? && CollectSummaries(b, cfg, exp).Ok?
    ensures CollectSummaries(a + b, cfg, exp).Ok? ==>
      CollectSummaries(a + b, cfg, exp).value == CollectSummaries(a, cfg, exp).value + CollectSummaries(b, cfg, exp).value
  {
    AnySummaryFailsAppend(a, b, cfg, exp);
    if CollectSummaries(a + b, cfg, exp).Ok? {
      CollectAppendValues(a, b, cfg, exp);
    }
  }

  /** A run with no usable exercise has no summaries. */
  lemma {:induction false} NoUsableNoSummaries(exs: seq<Exercise>, cfg: AthleteConfig, exp: real -> PosReal)
    requires forall i :: 0 <= i < |exs| ==> !Usable(exs[i])
    ensures CollectSummaries(exs, cfg, exp) == Ok([])
    decreases |exs|
  {
    if |exs| > 0 {
      NoUsableNoSummaries(exs[1..], cfg, exp);
    }
  }

  function StartKey(s: Summary): real { s.startTime }

  /** `exercise_summaries` as written: `pd.DataFrame([]).sort_values("start_time")` raises
      KeyError, because an empty frame has no `start_time` column. */
  function ExerciseSummariesAsWritten(exs: seq<Exercise>, cfg: AthleteConfig, exp: real -> PosReal): (r: Result<seq<Summary>>)
    ensures CollectSummaries(exs, cfg, exp) == Ok([]) ==> r == Err(KeyError("start_time"))
    ensures r.Ok? ==> |r.value| > 0
  {
    var collected :- CollectSummaries(exs, cfg, exp);
    if |collected| == 0 then Err(KeyError("start_time")) else Ok(SortBy(collected, StartKey))
  }

  /** `exercise_summaries` with the empty case returning an empty table: the usable
      exercises' summaries, sorted by start time. */
  function ExerciseSummaries(exs: seq<Exercise>, cfg: AthleteConfig, exp: real -> PosReal): (r: Result<seq<Summary>>)
    ensures r.Ok? <==> CollectSummaries(exs, cfg, exp).Ok?
    ensures r.Ok? ==> multiset(r.value) == multiset(CollectSummaries(exs, cfg, exp).value)
    ensures r.Ok? ==> SortedBy(r.value, StartKey) && |r.value| == Count(exs, Usable)
    ensures r.Err? ==> r.error == IndexError
  {
    var collected :- CollectSummaries(exs, cfg, exp);
    Ok(SortBy(collected, StartKey))
  }

  /** A `build_dashboard` row: the summary plus km/h speed and minutes. */
  datatype DashboardRow = DashboardRow(summary: Summary, speedKmh: Option<real>, durationMin: real)

  function DashboardRows(t: seq<Summary>): (r: seq<DashboardRow>)
    ensures |r| == |t|
    ensures forall i :: 0 <= i < |t| ==> r[i].summary == t[i]
    ensures forall i :: 0 <= i < |t| ==> MapOpt(r[i].speedKmh, (v: real) => v / 3.6) == t[i].avgSpeedMps
    ensures forall i :: 0 <= i < |t| ==> r[i].durationMin * 60.0 == t[i].durationS
  {
    var r := seq(|t|, i requires 0 <= i < |t| =>
      DashboardRow(t[i], MapOpt(t[i].avgSpeedMps, (v: real) => v * 3.6), t[i].durationS / 60.0));
    assert forall i :: 0 <= i < |t| ==> MapOpt(r[i].speedKmh, (v: real) => v / 3.6) == t[i].avgSpeedMps by {
      forall i | 0 <= i < |t| ensures MapOpt(r[i].speedKmh, (v: real) => v / 3.6) == t[i].avgSpeedMps {
        if t[i].avgSpeedMps.Some? {
          assert t[i].avgSpeedMps.value * 3.6 / 3.6 == t[i].avgSpeedMps.value;
        }
      }
    }
    r
  }

  const NoUsableTrackpoints: string := "No usable trackpoints found in given TCX files."

  /** `build_dashboard` as written: its emptiness check comes after `exercise_summaries`,
      which has already raised KeyError for an empty table. */
  function BuildDashboardAsWritten(exs: seq<Exercise>, cfg: AthleteConfig, exp: real -> PosReal): (r: Result<seq<DashboardRow>>)
    ensures r.Err? ==> !r.error.ValueError?
    ensures CollectSummaries(exs, cfg, exp) == Ok([]) ==> r == Err(KeyError("start_time"))
  {
    var t :- ExerciseSummariesAsWritten(exs, cfg, exp);
    if |t| == 0 then Err(ValueError(NoUsableTrackpoints)) else Ok(DashboardRows(t))
  }

  /** The as-written dashboard never reports its own "no usable trackpoints" error: with no
      Biking exercise it fails with KeyError instead. */
  lemma DashboardAsWrittenMissesValueError(cfg: AthleteConfig, exp: real -> PosReal)
    ensures BuildDashboardAsWritten([], cfg, exp) == Err(KeyError("start_time"))
  {
  }

  /** `build_dashboard` with the intended empty check: ValueError exactly when no usable
      exercise produced a summary, otherwise one row per summary in start-time order. */
  function BuildDashboard(exs: seq<Exercise>, cfg: AthleteConfig, exp: real -> PosReal): (r: Result<seq<DashboardRow>>)
    ensures r == Err(ValueError(NoUsableTrackpoints)) <==> CollectSummaries(exs, cfg, exp) == Ok([])
    ensures CollectSummaries(exs, cfg, exp).Err? ==> r == Err(IndexError)
    ensures r.Ok? ==> |r.value| == Count(exs, Usable) > 0
    ensures r.Ok? ==> forall i, j :: 0 <= i < j < |r.value| ==> r.value[i].summary.startTime <= r.value[j].summary.startTime
    ensures r.Ok? ==> r.value == DashboardRows(ExerciseSummaries(exs, cfg, exp).value)
  {
    var t :- ExerciseSummaries(exs, cfg, exp);
    if |t| == 0 then Err(ValueError(NoUsableTrackpoints)) else Ok(DashboardRows(t))
  }

  /** With no usable exercise the corrected dashboard raises its ValueError. */
  lemma DashboardReportsNoUsableTrackpoints(exs: seq<Exercise>, cfg: AthleteConfig, exp: real -> PosReal)
    requires forall i :: 0 <= i < |exs| ==> !Usable(exs[i])
    ensures BuildDashboard(exs, cfg, exp) == Err(ValueError(NoUsableTrackpoints))
  {
    NoUsableNoSummaries(exs, cfg, exp);
  }

  function MaxDate(t: seq<Summary>): (m: int)
    requires |t| > 0
    ensures forall i :: 0 <= i < |t| ==> t[i].date <= m
    ensures exists i :: 0 <= i < |t| && t[i].date == m
  {
    if |t| == 1 then t[0].date
    else
      var m := MaxDate(t[1..]);
      assert forall i :: 1 <= i < |t| ==> t[i] == t[1..][i - 1];
      if t[0].date >= m then t[0].date else m
  }

  /** The summaries `hr_zones_summary` adds up: those dated no earlier than the latest date
      minus `periodDays`. An empty table compares against NaT and selects nothing. */
  function InPeriod(t: seq<Summary>, periodDays: real): (r: seq<Summary>)
    ensures forall s :: s in r ==> s in t
    ensures |t| == 0 ==> r == []
    ensures |t| > 0 ==> forall s :: s in t ==> (s in r <==> s.date as real >= MaxDate(t) as real - periodDays)
    ensures |t| > 0 ==> forall k :: ZoneTotal(r, k) == MaskedZoneTotal(t, MaxDate(t) as real - periodDays, k)
  {
    if |t| == 0 then []
    else
      var start := MaxDate(t) as real - periodDays;
      var keep := (s: Summary) => s.date as real >= start;
      forall k ensures ZoneTotal(Filter(t, keep), k) == MaskedZoneTotal(t, start, k) {
        FilteredZoneTotal(t, keep, start, k);
      }
      Filter(t, keep)
  }

  function ZoneTotal(t: seq<Summary>, k: int): real
    decreases |t|
  {
    if |t| == 0 then 0.0 else t[0].zones.Get(k) + ZoneTotal(t[1..], k)
  }

  /** `df.loc[df["date"] >= start, col].sum()`: every row of the table is visited once and
      contributes its zone seconds when its date passes the mask. */
  function MaskedZoneTotal(t: seq<Summary>, start: real, k: int): real
    decreases |t|
  {
    if |t| == 0 then 0.0
    else (if t[0].date as real >= start then t[0].zones.Get(k) else 0.0) + MaskedZoneTotal(t[1..], start, k)
  }

  /** Summing the selected rows is summing the masked column. */
  lemma {:induction false} FilteredZoneTotal(t: seq<Summary>, keep: Summary -> bool, start: real, k: int)
    requires forall s :: keep(s) == (s.date as real >= start)
    ensures ZoneTotal(Filter(t, keep), k) == MaskedZoneTotal(t, start, k)
    decreases |t|
  {
    if |t| > 0 {
      FilteredZoneTotal(t[1..], keep, start, k);
      if keep(t[0]) {
        assert ([t[0]] + Filter(t[1..], keep))[1..] == Filter(t[1..], keep);
      }
    }
  }

  /** `hr_zones_summary`: one (category, value) pair per zone column. */
  function HrZonesSummary(t: seq<Summary>, periodDays: real): (r: seq<(string, real)>)
    ensures |r| == 5
    ensures forall k :: 0 <= k < 5 ==> r[k].1 == ZoneTotal(InPeriod(t, periodDays), k + 1)
    ensures |t| == 0 ==> forall k :: 0 <= k < 5 ==> r[k].1 == 0.0
    ensures |t| > 0 ==> forall k :: 0 <= k < 5 ==> r[k].1 == MaskedZoneTotal(t, MaxDate(t) as real - periodDays, k + 1)
    ensures r[0].0 == "z1_sec" && r[1].0 == "z2_sec" && r[2].0 == "z3_sec" && r[3].0 == "z4_sec" && r[4].0 == "z5_sec"
  {
    var sel := InPeriod(t, periodDays);
    var r := seq(5, k requires 0 <= k < 5 => (ZoneColumns[k], ZoneTotal(sel, k + 1)));
    assert |t| > 0 ==> forall k :: 0 <= k < 5 ==>
      r[k].1 == MaskedZoneTotal(t, MaxDate(t) as real - periodDays, k + 1);
    r
  }

  const ZoneColumns: seq<string> := ["z1_sec", "z2_sec", "z3_sec", "z4_sec", "z5_sec"]

  /** With a non-negative period the most recent activity is always counted. */
  lemma LatestActivityIncluded(t: seq<Summary>, periodDays: real, i: nat)
    requires periodDays >= 0.0 && i < |t| && t[i].date == MaxDate(t)
    ensures t[i] in InPeriod(t, periodDays)
  {
  }

  /** A longer period selects every activity a shorter one does. */
  lemma InPeriodMonotone(t: seq<Summary>, p1: real, p2: real)
    requires p1 <= p2
    ensures forall s :: s in InPeriod(t, p1) ==> s in InPeriod(t, p2)
  {
  }
}

=== FILE: text.dfy ===
/** The parts of Python's `str` the modelled code relies on: `strip`, `in`,
    `find`, `startswith`/`endswith`, `split(sep, 1)`, `upper`, `lower`,
    `title`, `replace` of one character and `join`. Case mapping covers the
    ASCII letters only. */
module Text {
  import opened Wrappers

  /** Characters for which Python's `str.isspace()` holds. */
  predicate IsSpace(c: char) {
    var n := c as int;
    || (9 <= n <= 13) || (28 <= n <= 32) || n == 0x85 || n == 0xA0 || n == 0x1680
    || (0x2000 <= n <= 0x200A) || n == 0x2028 || n == 0x2029 || n == 0x202F
    || n == 0x205F || n == 0x3000
  }

  predicate AllSpace(s: string) {
    forall i :: 0 <= i < |s| ==> IsSpace(s[i])
  }

  /** Number of leading whitespace characters. */
  function LeadingSpace(s: string): (n: nat)
    ensures n <= |s|
    ensures AllSpace(s[..n])
    ensures n < |s| ==> !IsSpace(s[n])
  {
    if |s| == 0 || !IsSpace(s[0]) then 0
    else
      var n := 1 + LeadingSpace(s[1..]);
      assert s[..n] == [s[0]] + s[1..][..n - 1];
      n
  }

  /** Number of trailing whitespace characters. */
  function TrailingSpace(s: string): (n: nat)
    ensures n <= |s|
    ensures AllSpace(s[|s| - n..])
    ensures n < |s| ==> !IsSpace(s[|s| - n - 1])
  {
    if |s| == 0 || !IsSpace(s[|s| - 1]) then 0
    else
      var init := s[..|s| - 1];
      var m := TrailingSpace(init);
      var tail := s[|s| - (m + 1)..];
      assert AllSpace(tail) by {
        forall i | 0 <= i < m + 1 ensures IsSpace(tail[i]) {
          if i < m {
            assert tail[i] == init[|init| - m..][i];
          }
        }
      }
      assert m + 1 < |s| ==> s[|s| - (m + 1) - 1] == init[|init| - m - 1];
      m + 1
  }

  /** Python `s.strip()`: `s` without its leading and trailing whitespace. */
  function Strip(s: string): (r: string)
    ensures |r| <= |s|
    ensures |r| > 0 ==> !IsSpace(r[0]) && !IsSpace(r[|r| - 1])
    ensures AllSpace(s) <==> |r| == 0
  {
    var i := LeadingSpace(s);
    var t := s[i..];
    var n := TrailingSpace(t);
    assert |t[..|t| - n]| == 0 ==> AllSpace(s) by {
      if |t[..|t| - n]| == 0 {
        assert s == s[..i] + s[i..];
        assert t == t[|t| - n..];
      }
    }
    t[..|t| - n]
  }

  /** What `strip` removes is whitespace on either side of a contiguous slice. */
  lemma StripIsSlice(s: string)
    ensures exists i, j :: 0 <= i <= j <= |s| && Strip(s) == s[i..j] && AllSpace(s[..i]) && AllSpace(s[j..])
  {
    var i := LeadingSpace(s);
    var t := s[i..];
    var n := TrailingSpace(t);
    assert Strip(s) == s[i..|s| - n];
    assert s[|s| - n..] == t[|t| - n..];
  }

  predicate StartsWith(s: string, p: string) {
    |p| <= |s| && s[..|p|] == p
  }

  predicate EndsWith(s: string, p: string) {
    |p| <= |s| && s[|s| - |p|..] == p
  }

  /** `p` occurs in `s` starting at position `k`. */
  predicate OccursAt(s: string, p: string, k: int) {
    0 <= k && k + |p| <= |s| && s[k..k + |p|] == p
  }

  /** Python `p in s`. */
  predicate Contains(s: string, p: string) {
    exists k :: 0 <= k <= |s| && OccursAt(s, p, k)
  }

  /** Python `s.find(p, start)`, with None for -1: the first occurrence at or after `start`. */
  function FindFrom(s: string, p: string, start: nat): (r: Option<nat>)
    requires start <= |s|
    ensures r.Some? ==> start <= r.value && OccursAt(s, p, r.value)
    ensures r.Some? ==> forall k :: start <= k < r.value ==> !OccursAt(s, p, k)
    ensures r.None? ==> forall k :: start <= k ==> !OccursAt(s, p, k)
    decreases |s| - start
  {
    if start + |p| > |s| then None
    else if s[start..start + |p|] == p then Some(start)
    else if start == |s| then None
    else FindFrom(s, p, start + 1)
  }

  /** Python `s.find(p)`: the first occurrence, None when `p` does not occur. */
  function Find(s: string, p: string): (r: Option<nat>)
    ensures r.Some? <==> Contains(s, p)
    ensures r.Some? ==> OccursAt(s, p, r.value) && forall k :: 0 <= k < r.value ==> !OccursAt(s, p, k)
  {
    FindFrom(s, p, 0)
  }

  /** A text without the character `c` cannot contain a pattern that has it. */
  lemma MissingCharExcludes(s: string, p: string, c: char)
    requires c in p && c !in s
    ensures !Contains(s, p)
  {
  }

  /** A pattern occurs in any text that has it in the middle. */
  lemma ContainsMiddle(a: string, p: string, b: string)
    ensures Contains(a + p + b, p)
  {
    assert (a + p + b)[|a|..|a| + |p|] == p;
    assert OccursAt(a + p + b, p, |a|);
  }

  lemma PrefixContained(s: string, p: string)
    requires StartsWith(s, p)
    ensures Contains(s, p)
  {
    assert OccursAt(s, p, 0);
  }

  lemma ContainedInPart(a: string, b: string, p: string)
    requires Contains(a, p) || Contains(b, p)
    ensures Contains(a + b, p)
  {
    if Contains(a, p) {
      var k :| 0 <= k <= |a| && OccursAt(a, p, k);
      assert (a + b)[k..k + |p|] == a[k..k + |p|];
      assert OccursAt(a + b, p, k);
    } else {
      var k :| 0 <= k <= |b| && OccursAt(b, p, k);
      assert (a + b)[|a| + k..|a| + k + |p|] == b[k..k + |p|];
      assert OccursAt(a + b, p, |a| + k);
    }
  }

  /** A non-empty middle part `m` with no character that `outside` accepts hides no
      occurrence of a pattern made only of such characters: `p` occurs in `a + m + b`
      only if it occurs in `a` or in `b`. */
  lemma SeparatedBy(a: string, m: string, b: string, p: string, outside: char -> bool)
    requires |m| > 0 && |p| > 0
    requires forall i :: 0 <= i < |m| ==> !outside(m[i])
    requires forall i :: 0 <= i < |p| ==> outside(p[i])
    requires !Contains(a, p) && !Contains(b, p)
    ensures !Contains(a + m + b, p)
  {
    var s := a + m + b;
    forall k | 0 <= k <= |s|
      ensures !OccursAt(s, p, k)
    {
      if k + |p| <= |s| {
        if k + |p| <= |a| {
          assert s[k..k + |p|] == a[k..k + |p|];
          assert !OccursAt(a, p, k);
        } else if k >= |a| + |m| {
          assert s[k..k + |p|] == b[k - |a| - |m|..k - |a| - |m| + |p|];
          assert !OccursAt(b, p, k - |a| - |m|);
        } else {
          var j := if k >= |a| then k else |a|;
          assert s[j] == m[j - |a|] && !outside(s[j]);
          assert outside(p[j - k]);
          assert s[k..k + |p|][j - k] != p[j - k];
        }
      }
    }
  }

  /** Python `s.split(sep, 1)` when `sep` occurs: the text before and after its first occurrence. */
  function SplitFirst(s: string, sep: string): (r: Option<(string, string)>)
    requires |sep| > 0
    ensures r.Some? <==> Contains(s, sep)
    ensures r.Some? ==> s == r.value.0 + sep + r.value.1 && !Contains(r.value.0, sep)
  {
    match Find(s, sep)
    case None => None
    case Some(i) =>
      assert s == s[..i] + sep + s[i + |sep|..];
      NoEarlierOccurrence(s, sep, i);
      Some((s[..i], s[i + |sep|..]))
  }

  /** Splitting `a + sep + b` on `sep` gives back `a` and `b` when no occurrence of
      `sep` can start inside `a` (its first character is not in `a`). */
  lemma SplitFirstJoin(a: string, sep: string, b: string)
    requires |sep| > 0
    requires forall i :: 0 <= i < |a| ==> a[i] != sep[0]
    ensures SplitFirst(a + sep + b, sep) == Some((a, b))
  {
    var s := a + sep + b;
    assert s[|a|..|a| + |sep|] == sep;
    assert OccursAt(s, sep, |a|);
    forall k | 0 <= k < |a| ensures !OccursAt(s, sep, k) {
      assert s[k] == a[k];
      if k + |sep| <= |s| {
        assert s[k..k + |sep|][0] == s[k];
      }
    }
    assert Find(s, sep).value == |a|;
    assert s[..|a|] == a && s[|a| + |sep|..] == b;
  }

  /** Splitting `a + sep + b` on `sep` gives back `a` and `b` when `a` does not contain
      `sep` and `sep` cannot overlap itself (its first character occurs only in front). */
  lemma SplitFirstJoinUnbordered(a: string, sep: string, b: string)
    requires |sep| > 0 && !Contains(a, sep)
    requires forall j :: 0 < j < |sep| ==> sep[j] != sep[0]
    ensures SplitFirst(a + sep + b, sep) == Some((a, b))
  {
    var s := a + sep + b;
    assert s[|a|..|a| + |sep|] == sep;
    assert OccursAt(s, sep, |a|);
    forall k | 0 <= k < |a| ensures !OccursAt(s, sep, k) {
      if k + |sep| <= |a| {
        assert s[k..k + |sep|] == a[k..k + |sep|];
        assert !OccursAt(a, sep, k);
      } else if k + |sep| <= |s| {
        assert s[|a|] == sep[0];
        assert s[k..k + |sep|][|a| - k] == s[|a|];
      }
    }
    assert Find(s, sep).value == |a|;
    assert s[..|a|] == a && s[|a| + |sep|..] == b;
  }

  /** Nothing before the first occurrence of `p` contains `p`. */
  lemma NoEarlierOccurrence(s: string, p: string, i: nat)
    requires i <= |s| && |p| > 0
    requires forall k :: 0 <= k < i ==> !OccursAt(s, p, k)
    ensures !Contains(s[..i], p)
  {
    forall k | 0 <= k <= i
      ensures !OccursAt(s[..i], p, k)
    {
      if k + |p| <= i {
        assert k < i;
        assert s[..i][k..k + |p|] == s[k..k + |p|];
        assert !OccursAt(s, p, k);
      }
    }
  }

  predicate IsUpperAscii(c: char) { 'A' <= c <= 'Z' }
  predicate IsLowerAscii(c: char) { 'a' <= c <= 'z' }
  predicate IsCased(c: char) { IsUpperAscii(c) || IsLowerAscii(c) }

  function UpperChar(c: char): char {
    if IsLowerAscii(c) then (c as int - 32) as char else c
  }

  function LowerChar(c: char): char {
    if IsUpperAscii(c) then (c as int + 32) as char else c
  }

  /** Python `s.upper()` on ASCII letters. */
  function Upper(s: string): (r: string)
    ensures |r| == |s|
    ensures forall i :: 0 <= i < |s| ==> r[i] == UpperChar(s[i])
  {
    seq(|s|, i requires 0 <= i < |s| => UpperChar(s[i]))
  }

  /** Python `s.lower()` on ASCII letters. */
  function Lower(s: string): (r: string)
    ensures |r| == |s|
    ensures forall i :: 0 <= i < |s| ==> r[i] == LowerChar(s[i])
  {
    seq(|s|, i requires 0 <= i < |s| => LowerChar(s[i]))
  }

  /** Python `s.title()` on ASCII letters: a letter is upper-cased when it starts a
      run of letters and lower-cased otherwise; other characters are kept. */
  function Title(s: string): (r: string)
    ensures |r| == |s|
    ensures forall i :: 0 <= i < |s| ==>
      r[i] == (if !IsCased(s[i]) then s[i]
               else if i > 0 && IsCased(s[i - 1]) then LowerChar(s[i])
               else UpperChar(s[i]))
  {
    seq(|s|, i requires 0 <= i < |s| =>
      if !IsCased(s[i]) then s[i]
      else if i > 0 && IsCased(s[i - 1]) then LowerChar(s[i])
      else UpperChar(s[i]))
  }

  /** Python `s.replace(a, b)` for single characters. */
  function ReplaceChar(s: string, a: char, b: char): (r: string)
    ensures |r| == |s|
    ensures forall i :: 0 <= i < |s| ==> r[i] == if s[i] == a then b else s[i]
  {
    seq(|s|, i requires 0 <= i < |s| => if s[i] == a then b else s[i])
  }

  /** Python `sep.join(parts)`. */
  function Join(parts: seq<string>, sep: string): (r: string)
    ensures |parts| == 0 ==> r == ""
    ensures |parts| == 1 ==> r == parts[0]
    ensures |parts| > 0 ==> StartsWith(r, parts[0])
  {
    if |parts| == 0 then ""
    else if |parts| == 1 then parts[0]
    else
      var r := parts[0] + sep + Join(parts[1..], sep);
      assert r[..|parts[0]|] == parts[0];
      r
  }

  /** Joining one more part puts the separator and that part at the end; with
      `Join([p], sep) == p` this pins down every joined string. */
  lemma {:induction false} JoinAppend(parts: seq<string>, p: string, sep: string)
    requires |parts| > 0
    ensures Join([p], sep) == p
    ensures Join(parts + [p], sep) == Join(parts, sep) + sep + p
  {
    if |parts| > 1 {
      assert (parts + [p])[1..] == parts[1..] + [p];
      JoinAppend(parts[1..], p, sep);
    } else {
      assert (parts + [p])[1..] == [p];
    }
  }

  /** Python's `<=` on strings: lexicographic by code point. */
  predicate LexLe(a: string, b: string)
    decreases |a|
  {
    if |a| == 0 then true
    else if |b| == 0 then false
    else if a[0] != b[0] then a[0] < b[0]
    else LexLe(a[1..], b[1..])
  }

  lemma {:induction false} LexLeTotal(a: string, b: string)
    ensures LexLe(a, b) || LexLe(b, a)
    decreases |a|
  {
    if |a| > 0 && |b| > 0 && a[0] == b[0] {
      LexLeTotal(a[1..], b[1..]);
    }
  }

  lemma {:induction false} LexLeTransitive(a: string, b: string, c: string)
    requires LexLe(a, b) && LexLe(b, c)
    ensures LexLe(a, c)
    decreases |a|
  {
    if |a| > 0 && |b| > 0 && |c| > 0 && a[0] == b[0] && b[0] == c[0] {
      LexLeTransitive(a[1..], b[1..], c[1..]);
    }
  }
}

=== FILE: trainer.dfy ===
/** `ContextTrainer`: the pipeline that turns TCX files into physics frames,
    trains the digital twin on a history folder, caches the history with its
    drift for the pattern miner, and explains a new ride with three rationales
    and a conclusion. File reading, the weather service and number formatting
    are parameters. */
module Trainer {
  import opened Wrappers
  import opened Seqs
  import opened Text
  import opened Ingest
  import opened Physics
  import opened Twin
  import opened Mining
  import opened Rationale

  /** `_process_file`: None for an unreadable or non-Biking file (the only failures it
      catches); a None wind speed from the weather service raises TypeError and a frame
      that pandas cannot build raises ValueError; otherwise the physics frame. */
  function ProcessFile(e: Engine, t: Trig, read: Option<Activity>, isTraining: bool,
                       apiKey: Option<string>, service: Option<seq<WeatherItem>>): (r: Result<Option<seq<PhysRow>>>)
    ensures read.None? || !IsBiking(read.value) ==> r == Ok(None)
    ensures r.Err? ==> r.error == TypeError || r.error == ValueError("All arrays must be of the same length")
    ensures (read.Some? && IsBiking(read.value) && !isTraining && HasKey(apiKey) && service.Some?
             && NoneWindAmong(service.value, Min(|read.value.timestamps|, |read.value.heartrates|))) ==> r == Err(TypeError)
    ensures r.Ok? && r.value.Some? ==>
      read.Some? && IsBiking(read.value) && |r.value.value| == Min(|read.value.timestamps|, |read.value.heartrates|)
    ensures isTraining && read.Some? && IsBiking(read.value) ==>
      (r.Ok? <==> ColumnsCover(read.value, NeutralWeather(|read.value.timestamps|),
                               Min(|read.value.timestamps|, |read.value.heartrates|)))
  {
    match ParseFile(read, isTraining, apiKey, service)
    case None => Ok(None)
    case Some((act, weather)) =>
      NeutralWeatherHasWind(|act.timestamps|, Min(|act.timestamps|, |act.heartrates|));
      var df :- BuildFrame(act, weather);
      Ok(Some(CalculateVirtualPower(e, t, df)))
  }

  /** The columns of a physics row that the twin reads. */
  function FeatureRowOf(p: PhysRow): (f: FeatureRow)
    ensures f.virtualPower == p.virtualPower && f.hr == p.raw.hr && f.speedMps == p.raw.speedMps
    ensures f.dist == p.raw.dist && f.temp == p.raw.temp && f.ele == p.raw.ele && f.hum == p.raw.hum
  {
    FeatureRow(p.virtualPower, p.raw.speedMps, p.raw.dist, p.raw.temp, p.raw.ele, p.raw.hum, p.raw.hr)
  }

  function FeatureRows(rows: seq<PhysRow>): (r: seq<FeatureRow>)
    ensures |r| == |rows| && forall i :: 0 <= i < |rows| ==> r[i] == FeatureRowOf(rows[i])
  {
    seq(|rows|, i requires 0 <= i < |rows| => FeatureRowOf(rows[i]))
  }

  /** The frame one directory entry contributes to `fit`: a ".tcx" name that processes
      without raising into a non-empty frame. Training never asks the weather service,
      and the loop swallows every exception. */
  function FrameOf(e: Engine, t: Trig, read: string -> Option<Activity>, name: string): (r: Option<seq<PhysRow>>)
    ensures r.Some? ==> IsTcxName(name) && |r.value| > 0
    ensures r.Some? <==> IsTcxName(name) && ProcessFile(e, t, read(name), true, None, None).Ok?
                         && ProcessFile(e, t, read(name), true, None, None).value.Some?
                         && |ProcessFile(e, t, read(name), true, None, None).value.value| > 0
  {
    if !IsTcxName(name) then None
    else
      match ProcessFile(e, t, read(name), true, None, None)
      case Ok(Some(df)) => if |df| > 0 then Some(df) else None
      case _ => None
  }

  /** The frames `fit` keeps, in listing order. */
  function UsableFrames(e: Engine, t: Trig, names: seq<string>, read: string -> Option<Activity>): (r: seq<seq<PhysRow>>)
    ensures |r| <= |names|
    ensures forall k :: 0 <= k < |r| ==> |r[k]| > 0
    ensures forall i :: 0 <= i < |names| && FrameOf(e, t, read, names[i]).Some? ==> FrameOf(e, t, read, names[i]).value in r
  {
    var r := FilterMap(names, (n: string) => FrameOf(e, t, read, n));
    forall k | 0 <= k < |r| ensures |r[k]| > 0 {
      assert r[k] in r;
    }
    r
  }

  /** `pd.concat(dfs, ignore_index=True)`. */
  function Concat<T>(frames: seq<seq<T>>): (r: seq<T>)
    ensures |frames| == 0 ==> r == []
    ensures |frames| == 1 ==> r == frames[0]
    ensures |frames| > 0 && |frames[0]| > 0 ==> |r| > 0
    ensures forall k :: 0 <= k < |frames| ==> forall x :: x in frames[k] ==> x in r
    ensures forall x :: x in r ==> exists k :: 0 <= k < |frames| && x in frames[k]
    decreases |frames|
  {
    if |frames| == 0 then []
    else
      var rest := Concat(frames[1..]);
      assert forall k :: 1 <= k < |frames| ==> frames[k] == frames[1..][k - 1];
      frames[0] + rest
  }

  /** Concatenating two lists of frames is concatenating their concatenations: the
      frames are appended in order, with nothing added or lost. */
  lemma {:induction false} ConcatAppend<T>(a: seq<seq<T>>, b: seq<seq<T>>)
    ensures Concat(a + b) == Concat(a) + Concat(b)
    ensures |Concat(a + b)| == |Concat(a)| + |Concat(b)|
    decreases |a|
  {
    if |a| > 0 {
      assert (a + b)[1..] == a[1..] + b;
      ConcatAppend(a[1..], b);
    } else {
      assert a + b == b;
    }
  }

  /** The trainer's state: the twin, and the history cache file (absent until `fit`). */
  datatype TrainerState = TrainerState(model: TwinModel, cache: Option<MinerFrame>)

  const InitialState: TrainerState := TrainerState(Untrained, None)

  /** The training history frame: `hr` went through `pd.to_numeric`, and `hum` is a column. */
  function HistoryOf(rows: seq<PhysRow>): (h: History)
    ensures h.hrNumeric && h.hasHum && h.rows == FeatureRows(rows)
  {
    History(FeatureRows(rows), true, true)
  }

  /** The cached history as the miner reads it back: headwind, gradient and drift. */
  function CacheFrame(rows: seq<PhysRow>, drift: seq<Drift>): (f: MinerFrame)
    requires |drift| == |rows|
    ensures f.hasDrift && |f.rows| == |rows|
    ensures forall i :: 0 <= i < |rows| ==>
      f.rows[i] == MinerRow(rows[i].headwind, Some(rows[i].grad), drift[i].drift)
  {
    MinerFrame(seq(|rows|, i requires 0 <= i < |rows| => MinerRow(rows[i].headwind, Some(rows[i].grad), drift[i].drift)), true)
  }

  /** A cached history row: the headwind and gradient of its physics row, and drift =
      hr minus the trained twin's prediction for that row. */
  predicate CachedRow(m: TwinModel, p: PhysRow, c: MinerRow) {
    && m.Trained?
    && c.headwind == p.headwind && c.grad == Some(p.grad)
    && (c.drift.Some? <==> p.raw.hr.Some?)
    && (c.drift.Some? ==> c.drift.value == p.raw.hr.value - m.predict(Filled(FeatureRowOf(p))))
  }

  /** The history written to the cache: `predict_drift` over the whole history, of which
      the miner reads headwind, gradient and drift. */
  function HistoryCache(m: TwinModel, rows: seq<PhysRow>): (c: MinerFrame)
    requires m.Trained? && |rows| > 0
    ensures c.hasDrift && |c.rows| == |rows|
    ensures forall i :: 0 <= i < |rows| ==> CachedRow(m, rows[i], c.rows[i])
  {
    var h := HistoryOf(rows);
    var drift := PredictDrift(m, h.rows).value;
    var c := CacheFrame(rows, drift);
    assert forall i :: 0 <= i < |rows| ==> h.rows[i] == FeatureRowOf(rows[i]);
    c
  }

  /** `fit`: "No valid TCX files found." when no file yields a frame; the twin's own
      ValueError when the history has no complete row; otherwise the trained twin and a
      cache holding every history row with its drift. */
  function Fit(e: Engine, t: Trig, names: seq<string>, read: string -> Option<Activity>, fit: Fitter): (r: Result<TrainerState>)
    ensures r == Err(NoValidFiles) <==> |UsableFrames(e, t, names, read)| == 0
    ensures r.Err? ==> r.error == NoValidFiles || r.error.ValueError?
    ensures r.Ok? ==>
      var rows := Concat(UsableFrames(e, t, names, read));
      && r.value.model == Trained(fit(TrainingSet(HistoryOf(rows))))
      && r.value.cache.Some? && r.value.cache.value.hasDrift
      && |r.value.cache.value.rows| == |rows| > 0
    ensures r.Ok? ==>
      var rows := Concat(UsableFrames(e, t, names, read));
      |r.value.cache.value.rows| == |rows| &&
      forall i :: 0 <= i < |rows| ==> CachedRow(r.value.model, rows[i], r.value.cache.value.rows[i])
    ensures (r.Err? && r.error.ValueError?) <==>
      |UsableFrames(e, t, names, read)| > 0 && |TrainingSet(HistoryOf(Concat(UsableFrames(e, t, names, read))))| == 0
  {
    var frames := UsableFrames(e, t, names, read);
    if |frames| == 0 then Err(NoValidFiles)
    else
      var rows := Concat(frames);
      var h := HistoryOf(rows);
      var model :- Train(h, fit);
      Ok(TrainerState(model, Some(HistoryCache(model, rows))))
  }

  /** What `mine_patterns` reports. */
  datatype MineOutcome = NoCache | NoPatterns | Shown(top: seq<string>)

  /** `mine_patterns`: nothing without a cache; otherwise the miner's rules, of which the
      first five are shown. The working directory `cwd` is threaded through the miner. */
  function MinePatterns(st: TrainerState, cwd: set<string>, search: seq<Transaction> -> Option<seq<string>>)
    : (r: (MineOutcome, set<string>))
    ensures st.cache.None? <==> r.0 == NoCache
    ensures st.cache.None? ==> r.1 == cwd
    ensures r.0.Shown? ==> 0 < |r.0.top| <= 5 && r.0.top <= DiscoverRules(cwd, st.cache.value, search).0
    ensures r.0.Shown? ==> |r.0.top| == Min(5, |DiscoverRules(cwd, st.cache.value, search).0|)
    ensures st.cache.Some? ==> r.1 == DiscoverRules(cwd, st.cache.value, search).1
    ensures r.0.Shown? ==> forall k :: 0 <= k < |r.0.top| ==> KeepRule(r.0.top[k])
    ensures r.0 == NoPatterns <==> st.cache.Some? && |DiscoverRules(cwd, st.cache.value, search).0| == 0
  {
    match st.cache
    case None => (NoCache, cwd)
    case Some(df) =>
      var (rules, after) := DiscoverRules(cwd, df, search);
      if |rules| == 0 then (NoPatterns, after)
      else
        var top := if |rules| <= 5 then rules else rules[..5];
        assert forall k :: 0 <= k < |top| ==> top[k] in rules;
        (Shown(top), after)
  }

  predicate InHeadwind(p: PhysRow) { p.headwind.Some? && p.headwind.value > 3.0 }
  predicate Climbing(p: PhysRow) { p.grad > 0.03 }

  function HeadwindColumn(rows: seq<PhysRow>): (c: seq<Option<real>>)
    ensures |c| == |rows| && forall i :: 0 <= i < |rows| ==> c[i] == rows[i].headwind
  {
    seq(|rows|, i requires 0 <= i < |rows| => rows[i].headwind)
  }

  /** Minutes in significant headwind: one row per second, so rows / 60. */
  function HeadwindMinutes(rows: seq<PhysRow>): (m: real)
    ensures 0.0 <= m <= |rows| as real / 60.0
    ensures m * 60.0 == Count(rows, InHeadwind) as real
  {
    Count(rows, InHeadwind) as real / 60.0
  }

  /** The headwind share of the ride in percent, 0 for an empty ride. */
  function HeadwindPercent(rows: seq<PhysRow>): (pct: real)
    ensures 0.0 <= pct <= 100.0
    ensures |rows| > 0 ==> pct * |rows| as real == 100.0 * Count(rows, InHeadwind) as real
  {
    var total := |rows| as real / 60.0;
    if total > 0.0 then
      MinutesShare(Count(rows, InHeadwind) as real, |rows| as real);
      HeadwindMinutes(rows) / total * 100.0
    else 0.0
  }

  /** `c` rows out of `n`, both counted in minutes, as a percentage. */
  lemma MinutesShare(c: real, n: real)
    requires 0.0 <= c <= n && n > 0.0
    ensures var pct := (c / 60.0) / (n / 60.0) * 100.0;
      0.0 <= pct <= 100.0 && pct * n == 100.0 * c
  {
    var q := c / n;
    assert q * n == c;
    var a, b := c / 60.0, n / 60.0;
    assert a == q * b;
    assert a / b == q;
    QuotientBounds(c, n, 0.0, 1.0);
  }

  /** Minutes of climbing steeper than 3%, one row per second. */
  function ClimbingMinutes(rows: seq<PhysRow>): (m: real)
    ensures 0.0 <= m <= |rows| as real / 60.0
    ensures m * 60.0 == Count(rows, Climbing) as real
  {
    Count(rows, Climbing) as real / 60.0
  }

  /** The mean environmental penalty, over rows that always have one. */
  function MeanPenalty(infl: seq<Influence>): (m: real)
    requires |infl| > 0
  {
    Sum(seq(|infl|, i requires 0 <= i < |infl| => infl[i].envPenalty)) / |infl| as real
  }

  /** The report `explain` returns; the averages are the `Summary_Metrics` before formatting. */
  datatype Insight = Insight(
    avgSpeedKmh: Option<real>, avgPower: Option<real>, avgHr: Option<real>, avgTemp: Option<real>,
    wind: string, terrain: string, atmosphere: string, conclusion: string)

  function RawColumn(rows: seq<PhysRow>, f: Sample -> Option<real>): (c: seq<Option<real>>)
    ensures |c| == |rows| && forall i :: 0 <= i < |rows| ==> c[i] == f(rows[i].raw)
  {
    seq(|rows|, i requires 0 <= i < |rows| => f(rows[i].raw))
  }

  function PowerColumn(rows: seq<PhysRow>): (c: seq<Option<real>>)
    ensures |c| == |rows| && forall i :: 0 <= i < |rows| ==> c[i] == rows[i].virtualPower
  {
    seq(|rows|, i requires 0 <= i < |rows| => rows[i].virtualPower)
  }

  /** The report for one analysed frame. */
  function Report(fmt: Formatter, rows: seq<PhysRow>, infl: seq<Influence>): (r: Insight)
    requires |infl| > 0
    ensures r.wind == WindRationale(fmt, HeadwindMinutes(rows), HeadwindPercent(rows), MeanPresent(HeadwindColumn(rows)))
    ensures r.terrain == TerrainRationale(fmt, ClimbingMinutes(rows))
    ensures r.atmosphere == AtmosphereRationale(fmt, MeanPenalty(infl))
    ensures r.conclusion == GenerateConclusion([r.wind, r.terrain, r.atmosphere])
    ensures r.avgHr == MeanPresent(RawColumn(rows, (s: Sample) => s.hr))
    ensures r.avgPower == MeanPresent(PowerColumn(rows))
    ensures PlainNumbers(fmt) ==> (r.conclusion == Perfect <==>
      HeadwindPercent(rows) <= 25.0 && ClimbingMinutes(rows) <= 20.0 && MeanPenalty(infl) <= 3.0)
    ensures r.avgTemp == MeanPresent(RawColumn(rows, (s: Sample) => s.temp))
    ensures MapOpt(r.avgSpeedKmh, KmhToMps) == MeanPresent(RawColumn(rows, (s: Sample) => s.speedMps))
  {
    var wind := WindRationale(fmt, HeadwindMinutes(rows), HeadwindPercent(rows), MeanPresent(HeadwindColumn(rows)));
    var terrain := TerrainRationale(fmt, ClimbingMinutes(rows));
    var atmosphere := AtmosphereRationale(fmt, MeanPenalty(infl));
    var speed := MeanPresent(RawColumn(rows, (s: Sample) => s.speedMps));
    var r := Insight(MapOpt(speed, MpsToKmh), MeanPresent(PowerColumn(rows)),
            MeanPresent(RawColumn(rows, (s: Sample) => s.hr)), MeanPresent(RawColumn(rows, (s: Sample) => s.temp)),
            wind, terrain, atmosphere, GenerateConclusion([wind, terrain, atmosphere]));
    assert speed.Some? ==> KmhToMps(MpsToKmh(speed.value)) == speed.value;
    assert PlainNumbers(fmt) ==> (r.conclusion == Perfect <==>
          HeadwindPercent(rows) <= 25.0 && ClimbingMinutes(rows) <= 20.0 && MeanPenalty(infl) <= 3.0) by {
      if PlainNumbers(fmt) {
        PerfectExactlyWhenCalm(fmt, HeadwindMinutes(rows), HeadwindPercent(rows), MeanPresent(HeadwindColumn(rows)),
                               ClimbingMinutes(rows), MeanPenalty(infl));
      }
    }
    r
  }

  /** `explain`: the file is processed first (its ValueError propagates); a file that yields
      no frame reaches `analyze_influence` as None, which raises "Model not trained." on an
      untrained twin and TypeError on a trained one; an empty frame makes the regressor
      raise ValueError. */
  function Explain(st: TrainerState, e: Engine, t: Trig, read: Option<Activity>, apiKey: Option<string>,
                   service: Option<seq<WeatherItem>>, fmt: Formatter): (r: Result<Insight>)
    ensures (read.None? || !IsBiking(read.value)) && st.model.Untrained? ==> r == Err(ModelNotTrained)
    ensures (read.None? || !IsBiking(read.value)) && st.model.Trained? ==> r == Err(TypeError)
    ensures ProcessFile(e, t, read, false, apiKey, service).Err? ==> r == Err(ProcessFile(e, t, read, false, apiKey, service).error)
    ensures (ProcessFile(e, t, read, false, apiKey, service).Ok? && ProcessFile(e, t, read, false, apiKey, service).value.Some?
             && st.model.Untrained?) ==> r == Err(ModelNotTrained)
    ensures r.Ok? ==> (st.model.Trained? && ProcessFile(e, t, read, false, apiKey, service).Ok?
                       && ProcessFile(e, t, read, false, apiKey, service).value.Some?
                       && |ProcessFile(e, t, read, false, apiKey, service).value.value| > 0)
    ensures (st.model.Trained? && ProcessFile(e, t, read, false, apiKey, service).Ok?
             && ProcessFile(e, t, read, false, apiKey, service).value.Some?
             && |ProcessFile(e, t, read, false, apiKey, service).value.value| > 0) ==> r.Ok?
    ensures r.Ok? ==> var rows := ProcessFile(e, t, read, false, apiKey, service).value.value;
      && r.value == Report(fmt, rows, AnalyzeInfluence(st.model, FeatureRows(rows)).value)
      && r.value.atmosphere == AtmosphereRationale(fmt, MeanPenalty(AnalyzeInfluence(st.model, FeatureRows(rows)).value))
      && r.value.terrain == TerrainRationale(fmt, ClimbingMinutes(rows))
      && r.value.wind == WindRationale(fmt, HeadwindMinutes(rows), HeadwindPercent(rows), MeanPresent(HeadwindColumn(rows)))
      && (PlainNumbers(fmt) ==> (r.value.conclusion == Perfect <==>
            HeadwindPercent(rows) <= 25.0 && ClimbingMinutes(rows) <= 20.0 &&
            MeanPenalty(AnalyzeInfluence(st.model, FeatureRows(rows)).value) <= 3.0))
  {
    var df :- ProcessFile(e, t, read, false, apiKey, service);
    match df
    case None => if st.model.Untrained? then Err(ModelNotTrained) else Err(TypeError)
    case Some(rows) =>
      var infl :- AnalyzeInfluence(st.model, FeatureRows(rows));
      Ok(Report(fmt, rows, infl))
  }

  /** A weather record whose wind speed is None makes explaining a ride raise TypeError,
      trained twin or not. */
  lemma ExplainRaisesOnMissingWind(st: TrainerState, e: Engine, t: Trig, fmt: Formatter)
    ensures var act := Activity("Biking", [0.0], [(None, None)], [None], [None], [Some(120.0)], [None]);
      var item := DictItem(map["temp" := Some(20.0), "wspd" := None, "wdir" := Some(0.0), "hum" := Some(20.0)]);
      Explain(st, e, t, Some(act), Some("key"), Some([item]), fmt) == Err(TypeError)
  {
    var act := Activity("Biking", [0.0], [(None, None)], [None], [None], [Some(120.0)], [None]);
    var item := DictItem(map["temp" := Some(20.0), "wspd" := None, "wdir" := Some(0.0), "hum" := Some(20.0)]);
    assert OccursAt(act.activityType, "Biking", 0);
    assert item.Has("wspd") && item.Field("wspd") == None;
    assert GetVal(item, WindSpeedKeys) == None;
    assert [item][0] == item;
    assert NoneWindAmong([item], Min(|act.timestamps|, |act.heartrates|));
  }
}

=== FILE: twin.dfy ===
/** `DigitalTwinModel`: learns heart rate from power, speed, distance and
    weather, then predicts it for new rides. The regression itself (a random
    forest) is not modelled: fitting is a parameter that turns a training set
    into a predictor, and a trained model is that predictor. */
module Twin {
  import opened Wrappers
  import opened Seqs

  /** The model inputs, in the order of the `features` list. */
  datatype Features = Features(virtualPower: real, speedMps: real, dist: real, temp: real, ele: real, hum: real)

  /** The cells a training or prediction row contributes; any of them may be missing. */
  datatype FeatureRow = FeatureRow(
    virtualPower: Option<real>, speedMps: Option<real>, dist: Option<real>,
    temp: Option<real>, ele: Option<real>, hum: Option<real>, hr: Option<real>)

  /** The history frame `train` receives: its rows, whether its `hr` column has a numeric
      dtype, and whether it has a `hum` column at all. */
  datatype History = History(rows: seq<FeatureRow>, hrNumeric: bool, hasHum: bool)

  type Predictor = Features -> real

  /** The model's state: `is_trained` is false until `train` succeeds. */
  datatype TwinModel = Untrained | Trained(predict: Predictor)

  /** What `RandomForestRegressor.fit` produces from (features, heart rate) pairs. */
  type Fitter = seq<(Features, real)> -> Predictor

  const HumDefault: real := 50.0

  /** The row `train` sees: a frame without a `hum` column gets one filled with 50. */
  function WithHum(row: FeatureRow, hasHum: bool): (r: FeatureRow)
    ensures hasHum ==> r == row
    ensures !hasHum ==> r.hum == Some(HumDefault) && r.(hum := row.hum) == row
  {
    if hasHum then row else row.(hum := Some(HumDefault))
  }

  /** `dropna(subset=features + ['hr'])` for one row: the training pair when all seven cells
      are present, nothing otherwise. */
  function CompleteRow(row: FeatureRow): (r: Option<(Features, real)>)
    ensures r.Some? <==> row.virtualPower.Some? && row.speedMps.Some? && row.dist.Some?
                         && row.temp.Some? && row.ele.Some? && row.hum.Some? && row.hr.Some?
    ensures r.Some? ==> r.value == (Features(row.virtualPower.value, row.speedMps.value, row.dist.value,
                                             row.temp.value, row.ele.value, row.hum.value), row.hr.value)
  {
    if row.virtualPower.Some? && row.speedMps.Some? && row.dist.Some? && row.temp.Some?
       && row.ele.Some? && row.hum.Some? && row.hr.Some?
    then Some((Features(row.virtualPower.value, row.speedMps.value, row.dist.value,
                        row.temp.value, row.ele.value, row.hum.value), row.hr.value))
    else None
  }

  predicate IsComplete(row: FeatureRow) {
    CompleteRow(row).Some?
  }

  function Prepared(h: History): (rows: seq<FeatureRow>)
    ensures |rows| == |h.rows| && forall i :: 0 <= i < |rows| ==> rows[i] == WithHum(h.rows[i], h.hasHum)
  {
    seq(|h.rows|, i requires 0 <= i < |h.rows| => WithHum(h.rows[i], h.hasHum))
  }

  /** The training set: the complete rows, then every 30th of them (`iloc[::30]`). */
  function TrainingSet(h: History): (r: seq<(Features, real)>)
    ensures |r| == (Count(Prepared(h), IsComplete) + 29) / 30
    ensures forall p :: p in r ==> exists i :: 0 <= i < |h.rows| && CompleteRow(WithHum(h.rows[i], h.hasHum)) == Some(p)
  {
    var clean := FilterMap(Prepared(h), CompleteRow);
    FilterMapLength(Prepared(h), CompleteRow, IsComplete);
    var r := Every30th(clean);
    forall p | p in r
      ensures exists i :: 0 <= i < |h.rows| && CompleteRow(WithHum(h.rows[i], h.hasHum)) == Some(p)
    {
      var j :| 0 <= j < |r| && r[j] == p;
      assert p in clean;
    }
    r
  }

  /** Without a `hum` column every training pair has humidity 50. */
  lemma TrainingHumidityDefault(h: History)
    requires !h.hasHum
    ensures forall p :: p in TrainingSet(h) ==> p.0.hum == HumDefault
  {
    forall p | p in TrainingSet(h) ensures p.0.hum == HumDefault {
      var i :| 0 <= i < |h.rows| && CompleteRow(WithHum(h.rows[i], h.hasHum)) == Some(p);
    }
  }

  /** `train`: KeyError when `hr` is not numeric; sklearn refuses to fit zero samples
      (ValueError); otherwise the model becomes the fitted predictor. */
  function Train(h: History, fit: Fitter): (r: Result<TwinModel>)
    ensures !h.hrNumeric ==> r == Err(KeyError("Missing numeric 'hr'"))
    ensures h.hrNumeric && |TrainingSet(h)| == 0 ==> r.Err? && r.error.ValueError?
    ensures r.Ok? ==> h.hrNumeric && |TrainingSet(h)| > 0 && r.value == Trained(fit(TrainingSet(h)))
    ensures h.hrNumeric && |TrainingSet(h)| > 0 ==> r.Ok?
  {
    if !h.hrNumeric then Err(KeyError("Missing numeric 'hr'"))
    else
      var samples := TrainingSet(h);
      if |samples| == 0 then Err(ValueError("Found array with 0 sample(s)"))
      else Ok(Trained(fit(samples)))
  }

  /** A history with at least one complete row always trains. */
  lemma TrainsWithOneCompleteRow(h: History, fit: Fitter, i: nat)
    requires h.hrNumeric && i < |h.rows|
    requires CompleteRow(WithHum(h.rows[i], h.hasHum)).Some?
    ensures Train(h, fit).Ok?
  {
    CountPositive(Prepared(h), IsComplete, i);
  }

  lemma {:induction false} CountPositive<T>(s: seq<T>, p: T -> bool, i: nat)
    requires i < |s| && p(s[i])
    ensures Count(s, p) > 0
  {
    if i > 0 {
      CountPositive(s[1..], p, i - 1);
    }
  }

  /** `X.fillna(0)`: the features a prediction sees. */
  function Filled(row: FeatureRow): (f: Features)
    ensures f.virtualPower == row.virtualPower.GetOr(0.0) && f.speedMps == row.speedMps.GetOr(0.0)
    ensures f.dist == row.dist.GetOr(0.0) && f.temp == row.temp.GetOr(0.0)
    ensures f.ele == row.ele.GetOr(0.0) && f.hum == row.hum.GetOr(0.0)
  {
    Features(row.virtualPower.GetOr(0.0), row.speedMps.GetOr(0.0), row.dist.GetOr(0.0),
             row.temp.GetOr(0.0), row.ele.GetOr(0.0), row.hum.GetOr(0.0))
  }

  /** The counterfactual: the same ride at 20 degrees, 40% humidity and 100 m elevation. */
  function Standard(f: Features): (s: Features)
    ensures s.virtualPower == f.virtualPower && s.speedMps == f.speedMps && s.dist == f.dist
    ensures s.temp == 20.0 && s.hum == 40.0 && s.ele == 100.0
  {
    f.(temp := 20.0, hum := 40.0, ele := 100.0)
  }

  lemma StandardIdempotent(f: Features)
    ensures Standard(Standard(f)) == Standard(f)
    ensures f.temp == 20.0 && f.hum == 40.0 && f.ele == 100.0 <==> Standard(f) == f
  {
  }

  /** The columns `predict_drift` adds to a row. */
  datatype Drift = Drift(hrPredicted: real, drift: Option<real>)

  /** The columns `analyze_influence` adds to a row. */
  datatype Influence = Influence(hrPredicted: real, envPenalty: real, drift: Option<real>)

  /** `predict_drift`: raises when untrained (and, in sklearn, on zero rows); otherwise one
      prediction per row and drift = hr - prediction, missing where hr is missing. The input
      frame is copied, so the caller's rows are not changed. */
  function PredictDrift(m: TwinModel, rows: seq<FeatureRow>): (r: Result<seq<Drift>>)
    ensures m.Untrained? ==> r == Err(ModelNotTrained)
    ensures m.Trained? && |rows| == 0 ==> r.Err? && r.error.ValueError?
    ensures r.Err? ==> m.Untrained? || |rows| == 0
    ensures r.Ok? ==> |r.value| == |rows| && forall i :: 0 <= i < |rows| ==>
      && r.value[i].hrPredicted == m.predict(Filled(rows[i]))
      && (r.value[i].drift.Some? <==> rows[i].hr.Some?)
      && (r.value[i].drift.Some? ==> r.value[i].hrPredicted + r.value[i].drift.value == rows[i].hr.value)
  {
    if m.Untrained? then Err(ModelNotTrained)
    else if |rows| == 0 then Err(ValueError("Found array with 0 sample(s)"))
    else Ok(seq(|rows|, i requires 0 <= i < |rows| =>
      var p := m.predict(Filled(rows[i]));
      Drift(p, MapOpt(rows[i].hr, (hr: real) => hr - p))))
  }

  /** `analyze_influence`: the same predictions as `predict_drift`, plus the heart-rate cost
      of the actual conditions over the standard ones. */
  function AnalyzeInfluence(m: TwinModel, rows: seq<FeatureRow>): (r: Result<seq<Influence>>)
    ensures m.Untrained? ==> r == Err(ModelNotTrained)
    ensures m.Trained? && |rows| == 0 ==> r.Err? && r.error.ValueError?
    ensures r.Err? ==> m.Untrained? || |rows| == 0
    ensures r.Ok? ==> |r.value| == |rows| && forall i :: 0 <= i < |rows| ==>
      && r.value[i].hrPredicted == m.predict(Filled(rows[i]))
      && r.value[i].envPenalty + m.predict(Standard(Filled(rows[i]))) == r.value[i].hrPredicted
      && (r.value[i].drift.Some? <==> rows[i].hr.Some?)
      && (r.value[i].drift.Some? ==> r.value[i].hrPredicted + r.value[i].drift.value == rows[i].hr.value)
  {
    if m.Untrained? then Err(ModelNotTrained)
    else if |rows| == 0 then Err(ValueError("Found array with 0 sample(s)"))
    else Ok(seq(|rows|, i requires 0 <= i < |rows| =>
      var f := Filled(rows[i]);
      var p := m.predict(f);
      Influence(p, p - m.predict(Standard(f)), MapOpt(rows[i].hr, (hr: real) => hr - p))))
  }

  /** A ride already in standard conditions has no environmental penalty. */
  lemma NoPenaltyInStandardConditions(m: TwinModel, rows: seq<FeatureRow>, i: nat)
    requires AnalyzeInfluence(m, rows).Ok? && i < |rows|
    requires rows[i].temp == Some(20.0) && rows[i].hum == Some(40.0) && rows[i].ele == Some(100.0)
    ensures AnalyzeInfluence(m, rows).value[i].envPenalty == 0.0
  {
    assert Standard(Filled(rows[i])) == Filled(rows[i]);
  }

  /** Both analyses agree on prediction and drift, row for row. */
  lemma DriftAgrees(m: TwinModel, rows: seq<FeatureRow>)
    ensures PredictDrift(m, rows).Ok? <==> AnalyzeInfluence(m, rows).Ok?
    ensures PredictDrift(m, rows).Ok? ==> forall i :: 0 <= i < |rows| ==>
      && PredictDrift(m, rows).value[i].hrPredicted == AnalyzeInfluence(m, rows).value[i].hrPredicted
      && PredictDrift(m, rows).value[i].drift == AnalyzeInfluence(m, rows).value[i].drift
  {
    if PredictDrift(m, rows).Ok? {
      var d := PredictDrift(m, rows).value;
      var a := AnalyzeInfluence(m, rows).value;
      forall i | 0 <= i < |rows| ensures d[i].drift == a[i].drift {
        if rows[i].hr.Some? {
          assert d[i].drift.value == a[i].drift.value;
        }
      }
    }
  }
}

=== FILE: wrappers.dfy ===
/** Failure-carrying values used throughout the model.
    `Option<real>` stands for a pandas cell that may be missing (NaN / None);
    `Result` stands for a Python call that either returns or raises. */
module Wrappers {

  datatype Option<+T> = None | Some(value: T) {
    function GetOr(default: T): T {
      match this
      case Some(v) => v
      case None => default
    }
  }

  /** The exception classes the modelled code raises, by their Python names. */
  datatype Error =
    | ValueError(msg: string)
    | KeyError(msg: string)
    | IndexError
    | TypeError
    | OverflowError
    | FileNotFoundError(msg: string)
    | ModelNotTrained
    | NoValidFiles
    | Raised(msg: string)   // an exception raised inside a collaborator the model cannot see

  datatype Result<+R> = Ok(value: R) | Err(error: Error) {
    predicate IsFailure() { Err? }
    function PropagateFailure<U>(): Result<U>
      requires Err?
    {
      Err(error)
    }
    function Extract(): R
      requires Ok?
    {
      value
    }
  }

  /** Applies `f` to a present value; a missing operand stays missing (NaN propagation). */
  function MapOpt<A, B>(o: Option<A>, f: A -> B): (r: Option<B>)
    ensures r.Some? <==> o.Some?
    ensures o.Some? ==> r.value == f(o.value)
  {
    match o
    case None => None
    case Some(a) => Some(f(a))
  }

  /** Binary arithmetic on possibly-missing values: missing if either side is. */
  function Lift2(a: Option<real>, b: Option<real>, f: (real, real) -> real): (r: Option<real>)
    ensures r.Some? <==> a.Some? && b.Some?
    ensures r.Some? ==> r.value == f(a.value, b.value)
  {
    if a.Some? && b.Some? then Some(f(a.value, b.value)) else None
  }
}
